=== FILE: README.md ===
# A verified model of the retrieval chat app: page, chunker, index metadata, message store and Lambda handlers

This project is a Dafny model of the core of a small retrieval-augmented chat
application. It has three parts.

**The chat page.** The browser page keeps a list of chat sessions, a history
cache per session, the names uploaded per session and a list of pending files.
Each handler is modelled as a pure transition over one immutable `PageState`
record (`PageModel`). Remote replies are given to the handler as parameters.
Each handler also returns the list of remote calls it issued, in order:

- `SessionFlow` models creating a session, the first-load bootstrap, switching
  sessions, loading a history, and picking and removing files.
- `SubmitFlow` models a submit: validation, the user's turn, then, when files
  are pending, an upload-URL request and a PUT for each file and then
  ingestion, and finally the query.
  It also models the textarea's Enter key.

**The backend helpers.**

- `Chunking` models the sentence chunker. It splits on `". "`, packs sentences
  greedily up to a token budget, and carries a token-bounded suffix into the
  next chunk. The tokenizer is a parameter.
- `FaissMetadata` models the chunk metadata saved next to the vector index,
  and the id allocation of the index merge.
- `MessageStore` and `LegacyMessageStore` model the two copies of the chat
  history helpers: the layered copy (DynamoDB or S3) and the older S3-only
  copy.
- S3 buckets and DynamoDB tables are maps (`Storage`).

**The five Lambda handlers.** They are `CreateSessionHandler`,
`UploadUrlHandler`, `GetMessagesHandler`, `IngestHandler` and `QueryHandler`.
`Pipeline` relates them to each other.

What the proofs cover:

- Every page transition keeps a page invariant, `SessionFlow.Consistent`:
  - pending files have distinct keys;
  - session ids are distinct;
  - the active session has an uploads entry.
- A submit's call trace, with n ≥ 1 pending files, is exactly one upload-URL
  call and one PUT per file, in order, then one ingest call, then the query.
  With no pending files it is only the query. The first failure stops it
  before the query.
- The chunker's chunks cover the text exactly once the carried overlaps are
  dropped. The packing is greedy and the start indices never decrease.
- Reading a session's history back after a save gives the earlier history
  with the new message last. This holds in both stores and in both copies of
  the helpers, and the two copies agree.

Two cross-handler facts are proved in `Pipeline`:

- **Uploads never reach ingest.** The page uploads to
  `{ns}/sessions/{id}/uploads/{name}`, but ingest lists only `{ns}/uploads/`.
  So no file uploaded through a presigned URL is ever indexed
  (`Pipeline.UploadsNeverIngested`, `Pipeline.IngestSeesNoSessionFiles`).
- **Query ids match ingest records.** A query looks up metadata by the decimal
  text of a vector id, and ingest saves the metadata under exactly those keys.
  So a hit on vector `i` cites the file chunk `i` came from
  (`Pipeline.QueryFindsIngested`, `Pipeline.HitCitesIngestedFile`).

Things the model takes as parameters:

- **Page:** the API base URL, the clock, and every network reply.
- **Handlers:** the UUID, the presigner, the tokenizer, and the vector search.

## Model

| member | source | states |
|---|---|---|
| PageModel.FindSession | frontend/app/page.tsx:129-133 | the session found is the first listed session with the requested id, as `Array.find` returns; none is found only when no listed session has that id |
| PageModel.FormatSessionLabel | frontend/app/page.tsx:74-90 | no session gives "session"; a non-blank string title is used as is; otherwise "chat " and the first eight characters of the id; the label is never blank |
| PageModel.FileKeyInjective | frontend/app/page.tsx:315-320 | two files have the same `name-size-lastModified` key exactly when name, size and modification time all agree, so the selection's de-duplication and the remove button compare the same thing |
| PendingFiles.MergeSelection | frontend/app/page.tsx:313-328 | the selection loop, with its growing key set, computes exactly the one-file-at-a-time merge `MergePending` |
| PendingFiles.MergeKeepsPrefix | frontend/app/page.tsx:317 | the pending files that were already there stay first, in their order |
| PendingFiles.MergeKeys | frontend/app/page.tsx:314-325 | the merged keys are the old keys together with the selected files' keys |
| PendingFiles.MergeAppendsNew | frontend/app/page.tsx:319-325 | every appended entry is a selected file whose key was not pending before |
| PendingFiles.MergeNoDup | frontend/app/page.tsx:314-325 | merging never produces two entries with the same key |
| PendingFiles.RemoveExact | frontend/app/page.tsx:337-348 | removal leaves no entry matching the target, and every other file keeps its number of occurrences |
| PendingFiles.RemoveConcat | frontend/app/page.tsx:338-347 | removal is piecewise over concatenation, so the survivors keep their relative order |
| PendingFiles.RemoveSubset | frontend/app/page.tsx:338-347 | removal only drops entries: what is left, and its keys, come from the original list |
| PendingFiles.RemoveNoDup | frontend/app/page.tsx:337-348 | distinct pending keys stay distinct after a removal |
| PendingFiles.Dedup | frontend/app/page.tsx:582 | `Array.from(new Set(xs))` holds no repeats and exactly the names of `xs` |
| PendingFiles.DedupPrefix | frontend/app/page.tsx:582 | de-duplicating a longer list keeps the de-duplicated prefix in place |
| PendingFiles.DedupFixed | frontend/app/page.tsx:582 | a list without repeats is its own de-duplication |
| SessionFlow.WithoutSession | frontend/app/page.tsx:239-244 | the filtered list holds exactly the listed sessions whose id differs from the new one |
| SessionFlow.WithoutUnique | frontend/app/page.tsx:240-242 | filtering keeps session ids distinct |
| SessionFlow.PrependUnique | frontend/app/page.tsx:239-244 | putting the new session in front of the filtered list keeps session ids distinct |
| SessionFlow.InitialConsistent | frontend/app/page.tsx:94-120 | the freshly mounted page satisfies the page invariant |
| SessionFlow.CreateSessionSucceeds | frontend/app/page.tsx:205-266 | a successful create makes one call, puts the session first with no other entry of its id, keeps every other session, makes it active, keeps or creates its uploads entry, empties its history, and clears input, pending files and error |
| SessionFlow.CreateSessionFails | frontend/app/page.tsx:223-276 | a failed create changes no session data, shows "Failed to create session: " with the status text (or the rejection message), clears the status and records the attempt |
| SessionFlow.NewChat | frontend/app/page.tsx:630-635 | the new-chat button does nothing while the page is busy; otherwise, with an API base, it makes one create call and ends not creating, with no error exactly when the create succeeded (the new session then active) and the attempt recorded when it failed |
| SessionFlow.NewChatConsistent | frontend/app/page.tsx:630-635 | the new-chat button keeps the page invariant |
| SessionFlow.Bootstrap | frontend/app/page.tsx:280-289 | the bootstrap makes at most one call, and makes one exactly when the API base is set, no attempt was recorded, no session is listed and none is being created |
| SessionFlow.BootstrapOnce | frontend/app/page.tsx:267-289 | whatever the first create's outcome, the bootstrap is no longer due after it and never issues a second create |
| SessionFlow.LoadMessages | frontend/app/page.tsx:161-202 | without an API base nothing happens; otherwise one fetch, and only that session's cache entry changes: it becomes the returned list, or empty when the reply has none or the fetch fails |
| SessionFlow.SelectSessionEffect | frontend/app/page.tsx:361-393 | selecting the active session or selecting while busy changes nothing; otherwise the session becomes active with input, pending files and error cleared and an uploads entry ensured; the history is fetched exactly when it is not cached, and a failed fetch caches an empty history |
| SessionFlow.OpenFilePicker | frontend/app/page.tsx:351-358 | with an active session the state is unchanged; without one only the error "Create or select a chat session first." is set |
| SessionFlow.FileSelectionEffect | frontend/app/page.tsx:299-334 | without an active session only the attach error is set; otherwise the pending list keeps its prefix and gains exactly the selected keys |
| SessionFlow.CreateSessionConsistent | frontend/app/page.tsx:205-277 | creating a session keeps the page invariant |
| SessionFlow.BootstrapConsistent | frontend/app/page.tsx:280-296 | the bootstrap keeps the page invariant |
| SessionFlow.SelectSessionConsistent | frontend/app/page.tsx:361-393 | switching sessions keeps the page invariant |
| SessionFlow.FileSelectionConsistent | frontend/app/page.tsx:299-334 | picking files keeps the page invariant |
| SessionFlow.RemoveConsistent | frontend/app/page.tsx:337-348 | removing a pending file keeps the page invariant |
| SubmitFlow.RunQuery | frontend/app/page.tsx:415-467 | the query makes one call for the question and session; afterwards the status is cleared and querying has stopped, and there is an error exactly when the reply was not an answer |
| SubmitFlow.QueryHistory | frontend/app/page.tsx:434-456 | only an answer with a non-empty history changes the cache, and then only the queried session's entry, which becomes that history; a 404 shows the payload's error or the no-index hint |
| SubmitFlow.UploadsFail | frontend/app/page.tsx:515-552 | the upload loop fails exactly when some file's upload-URL or PUT reply is not OK; it issues only upload-URL and PUT calls, and at least one when it fails |
| SubmitFlow.UploadsFailHere | frontend/app/page.tsx:518-552 | a file whose upload-URL or PUT reply is not OK ends the loop after its upload-URL call (and its PUT when the URL came back), showing "Failed to get upload URL for …", "PUT to S3 failed for …" with the status text, or the rejection message |
| SubmitFlow.UploadsStop | frontend/app/page.tsx:515-552 | when file `j` is the first failing file, the loop makes the two calls of every earlier file, then file `j`'s failed calls, and no call for any later file; the error shown is file `j`'s |
| SubmitFlow.UploadsExpected | frontend/app/page.tsx:515-552 | when every reply is OK the loop issues exactly the reference trace (upload-URL call, then PUT, per file) and reports no failure |
| SubmitFlow.ExpectedAt | frontend/app/page.tsx:519-545 | in the reference trace file `j`'s upload-URL call is at position 2j and its PUT, with the backend's headers or a content type from the file, at 2j+1 |
| SubmitFlow.UploadsTraced | frontend/app/page.tsx:515-552 | a successful upload loop's calls are exactly two per file, in file order |
| SubmitFlow.TracedAppend | frontend/app/page.tsx:510-600 | calls issued later leave the traced upload prefix intact |
| SubmitFlow.SettleKeeps | frontend/app/page.tsx:554-596 | after the loop: on an upload failure no ingest call, otherwise exactly one; the submit goes on only when both succeed; an abort shows the error and keeps the uploaded names; a success records the names and ends uploading; history, pending files and sessions are kept |
| SubmitFlow.UploadPhaseProceeds | frontend/app/page.tsx:510-596 | the upload phase goes on to the query exactly when no file is pending or every upload and the ingest succeed; it never sends a query, and it always made a call when it aborts |
| SubmitFlow.UploadPhaseKeeps | frontend/app/page.tsx:510-596 | the upload phase keeps history, pending files and sessions; without files it does nothing; an abort keeps the uploaded names; a success records this batch's names |
| SubmitFlow.UploadPhaseTrace | frontend/app/page.tsx:515-567 | a successful upload phase makes 2n+1 calls: each file's upload-URL call and PUT in order, then the ingest call |
| SubmitFlow.FinishEffect | frontend/app/page.tsx:600-602 | after the query the pending list is empty, the query call follows the earlier calls, nothing is in the status line, and only the queried session's history may have changed |
| SubmitFlow.ProceedCalls | frontend/app/page.tsx:510-600 | past validation the calls are the upload phase's, followed by the query exactly when the phase lets it through |
| SubmitFlow.BeginEffect | frontend/app/page.tsx:492-507 | beginning a submit clears the error and the input and appends the user's turn at the end of that session's history; no other session's history changes |
| SubmitFlow.SubmitBegins | frontend/app/page.tsx:470-507 | a valid submit proceeds from the begun page with the trimmed question and the active session |
| SubmitFlow.SubmitCalls | frontend/app/page.tsx:470-602 | a valid submit's calls are the upload phase's, then the query when the phase lets it through |
| SubmitFlow.SubmitValidates | frontend/app/page.tsx:470-488 | an invalid submit (no API base, no active session, blank question) only sets the error and makes no call; a valid one always calls the backend |
| SubmitFlow.QuestionNotBlank | frontend/app/page.tsx:483-488 | a submit that passes validation has a non-empty question, from an input that is not all whitespace |
| SubmitFlow.SubmitTrace | frontend/app/page.tsx:510-567 | when every reply is OK the submit issues the upload-URL call and PUT for each pending file in order, then the ingest call |
| SubmitFlow.SubmitEndsWithQuery | frontend/app/page.tsx:510-600 | when every upload reply is OK and, if files are pending, the ingest reply is too, the submit makes 2n+2 calls with files (1 without) and ends with the query for the trimmed question |
| SubmitFlow.SubmitSettles | frontend/app/page.tsx:594-602 | a submit that reaches the query (no file pending, or every upload and the ingest succeed) ends with nothing pending, no status and no query running; the upload flag is cleared when there were files and kept otherwise, the session-creation flag is kept, so a submit from an idle page (the only kind the Enter key and the enabled button start) ends idle |
| SubmitFlow.SubmitStopsOnFailure | frontend/app/page.tsx:529-596 | when an upload or the ingest fails no query is sent, the error is shown, the pending files and uploaded names stay, and the user's turn is already in the history |
| SubmitFlow.SubmitStopsAt | frontend/app/page.tsx:515-596 | when file `j` is the first pending file that fails, the submit's calls are exactly the earlier files' two calls each and then file `j`'s failed calls (no later file, no ingest, no query), and the error is file `j`'s message |
| SubmitFlow.SubmitIngestFails | frontend/app/page.tsx:557-596 | when every upload succeeds but the ingest fails, the calls are each file's two calls and the ingest call, with no query, and the error is "Ingest failed: " with the status text, or the rejection message |
| SubmitFlow.SubmitHistory | frontend/app/page.tsx:501-504 | the user's turn stays last in the session's history unless the query answers with a non-empty history, which replaces it; other sessions' histories are untouched |
| SubmitFlow.RecordedNames | frontend/app/page.tsx:579-584 | the recorded names have no repeats and are exactly the earlier and new names, the earlier ones first and in order when they were distinct |
| SubmitFlow.SubmitRecordsUploads | frontend/app/page.tsx:573-584 | after a successful ingest the session's uploaded names become the recorded names and no other session's names change |
| SubmitFlow.SubmitConsistent | frontend/app/page.tsx:470-603 | submitting keeps the page invariant |
| SubmitFlow.KeyDownCalls | frontend/app/page.tsx:396-412 | a key press calls the backend exactly when it is Enter without Shift on an idle page whose submit passes validation; otherwise it changes at most the error |
| Chunking.ChunkedText | layers/code/chunking.py:17-65 | the reference packing of a text (its `". "` sentences run through the reference loop) has at least one chunk, gives back the text once the carried overlaps are dropped, is greedy, and renders each chunk from its group |
| Chunking.ChunkText | layers/code/chunking.py:17-65 | the chunks are the reference packing of the text; at least one chunk; the groups without their carried overlaps are exactly the `". "` split and join back to the text; the packing is greedy; each chunk is its group joined with `". "`, its token sum, and a start index not below the previous one |
| Chunking.Pack | layers/code/chunking.py:27-63 | the packing loop computes the reference packing: one group per chunk, at least one for a non-empty sentence list, covering the sentences, greedy and rendered |
| Chunking.PackOutput | layers/code/chunking.py:27-63 | the reference packing covers the sentences, is greedy and renders each group as its chunk |
| Chunking.TakeOverlap | layers/code/chunking.py:40-48 | the overlap loop collects the reference overlap and its token sum |
| Chunking.OverlapFits | layers/code/chunking.py:40-50 | the carried sentences are a suffix of the flushed chunk whose tokens fit in the overlap budget, and the sentence before them would not have fitted |
| Chunking.StartIndexMonotone | layers/code/chunking.py:52 | start indices never decrease from one chunk to any later one |
| Chunking.StartAdvances | layers/code/chunking.py:52 | the carried sentences' characters are at most the flushed text's length, so `start_idx` never moves back |
| Chunking.FlushJustified | layers/code/chunking.py:30 | a flush records that the chunk was non-empty and the next sentence would have exceeded the chunk size |
| Chunking.PacksAt | layers/code/chunking.py:30-55 | every fresh sentence after the first one in a chunk fitted next to the sentences before it |
| Text.JoinSplit | layers/code/chunking.py:21-32 | joining the `". "` split with `". "` gives back the text |
| Text.Split | layers/code/chunking.py:21 | a split always has at least one piece |
| Text.Basename | backend/lambdas/ingest/main.py:25 | `key.rsplit("/", 1)[-1]` is a suffix of the key without `/`, preceded by `/` when shorter than the key |
| Text.TrimEmptyIffBlank | frontend/app/page.tsx:483-488 | trimming gives the empty string exactly when the input is all whitespace |
| Text.TrimSplit | frontend/app/page.tsx:483 | the trimmed text sits inside the input between two all-whitespace parts |
| Text.ParseRender | backend/lambdas/query/main.py:44 | reading back the decimal rendering of an id gives the id |
| Text.RenderInjective | backend/lambdas/query/main.py:44 | distinct ids have distinct decimal renderings |
| FaissMetadata.EntryOf | backend/shared/faiss_utils.py:50-55 | a record copies `text`, `source`, `page` and `start_index` from the chunk, with defaults `""`, `""`, null and 0, and has no other field |
| FaissMetadata.CreateMetadata | backend/shared/faiss_utils.py:47-56 | keys are exactly `0..len(chunks)-1` and entry `i` is the record of chunk `i` |
| FaissMetadata.Dump | backend/shared/faiss_utils.py:59-66 | saving and loading turns every id into its decimal text, with the same entry |
| FaissMetadata.DumpKeys | backend/shared/faiss_utils.py:59-66 | every loaded key is the decimal text of a saved id |
| FaissMetadata.DumpEmpty | backend/shared/faiss_utils.py:59-66 | the loaded metadata is empty exactly when the saved one was |
| FaissMetadata.NextIdAsWritten | backend/shared/faiss_utils.py:75-82 | as written, the first new id is computed only when the loaded metadata is empty; otherwise adding 1 to a string key raises |
| FaissMetadata.MergeAsWrittenRaises | backend/shared/faiss_utils.py:78 | merging into the saved metadata of a one-chunk index raises the concatenation error |
| FaissMetadata.NextId | backend/shared/faiss_utils.py:78 | the first new id is above every existing id: one past the largest, or 0 when there is none |
| FaissMetadata.AddRecords | backend/shared/faiss_utils.py:88-90 | new records take consecutive ids in order from the first new id, existing records keep theirs, and no other key appears |
| FaissMetadata.MergeMetadata | backend/shared/faiss_utils.py:70-92 | with integer ids: no index or empty metadata starts at 0, otherwise one past the largest id; existing records are untouched and new records take consecutive ids in order |
| MessageStore.SessionKeyInjective | layers/code/python/backend/shared/message_utils.py:17-18 | for namespaces without `#`, two sessions share a partition key exactly when their effective namespaces (empty means "default") and ids agree |
| MessageStore.NewMessage | layers/code/python/backend/shared/message_utils.py:125-133 | the record has the given role, content and timestamp, and has chunks exactly for an assistant message with a non-empty chunk list |
| MessageStore.SaveS3 | layers/code/python/backend/shared/message_utils.py:40-61 | only the session's file is written, and reading it back gives the earlier history (empty when unreadable) followed by the message |
| MessageStore.ItemOf | layers/code/python/backend/shared/message_utils.py:64-77 | the item is keyed by the session's partition key and the message timestamp, and projects back to the message |
| MessageStore.SaveDynamo | layers/code/python/backend/shared/message_utils.py:64-77 | only the session's partition changes |
| MessageStore.Project | layers/code/python/backend/shared/message_utils.py:104-114 | one message per item, in order, each the item's role, content, timestamp and chunks |
| MessageStore.GetDynamoPages | layers/code/python/backend/shared/message_utils.py:90-114 | the paginated read returns, in order, the projection of every item of every page |
| MessageStore.GetAfterSaveDynamo | layers/code/python/backend/shared/message_utils.py:64-114 | reading a partition after a save gives the earlier history followed by the message |
| MessageStore.SaveMessage | layers/code/python/backend/shared/message_utils.py:116-138 | a truthy table name writes only the table, otherwise only the bucket; the stored record is the built message; no other session's history changes |
| MessageStore.GetAfterSave | layers/code/python/backend/shared/message_utils.py:116-148 | with either backend, reading a session back after a save gives the earlier history (empty when unreadable) with the new record last |
| MessageStore.OpenAiMessages | layers/code/python/backend/shared/message_utils.py:153-163 | one more entry than the history: the system prompt first, then each message's role and content in order |
| LegacyMessageStore.SaveMessage | backend/shared/message_utils.py:12-53 | the record has the given role, content and timestamp, chunks only for an assistant with a non-empty list, and no other object changes |
| LegacyMessageStore.GetMessages | backend/shared/message_utils.py:57-71 | a missing file is an empty history |
| LegacyMessageStore.SaveAgreesWithLayer | backend/shared/message_utils.py:12-53 | the S3-only save writes the same file and returns the same record as the layered save without a table |
| LegacyMessageStore.GetAgreesWithLayer | backend/shared/message_utils.py:57-71 | the S3-only read returns what the layered read returns without a table |
| LegacyMessageStore.GetAfterSave | backend/shared/message_utils.py:12-71 | reading back after a save gives the earlier history (empty when unreadable) followed by the saved record |
| CreateSessionHandler.Handle | backend/lambdas/create_session/main.py:16-71 | the session id is the supplied non-empty one or a fresh one; the status is 200 or 201 accordingly; the manifest is written at `{ns}/sessions/{id}/manifest.json` and is the only write; manifest and response share id, creation time and metadata; falsy metadata becomes `{}` |
| CreateSessionHandler.RecreateKeepsSession | backend/lambdas/create_session/main.py:23-64 | creating again with the id a previous call returned answers 200 with the same id and key and adds no object |
| UploadUrlHandler.Handle | backend/lambdas/get_upload_url/main.py:13-43 | no non-empty session id gives 400 "sessionId required"; otherwise 200 with the presigned URL for `{ns}/sessions/{id}/uploads/{filename}` (filename "upload.bin" when absent), the fixed PUT header, the key and the session id |
| UploadUrlHandler.UploadKeyInjective | backend/lambdas/get_upload_url/main.py:30 | within a session, two uploads share a key exactly when their file names are equal |
| GetMessagesHandler.MessagesJson | backend/lambdas/get_messages/main.py:32-36 | one JSON message per stored message, in order |
| GetMessagesHandler.Handle | backend/lambdas/get_messages/main.py:11-49 | no non-empty path id gives 400; a read failure gives 500 with `error` and `details`; otherwise 200 with the id, the stored history through the configured table, and a count equal to its length |
| GetMessagesHandler.CountAfterSave | backend/lambdas/get_messages/main.py:26-37 | after a save through the same table the count grows by one and the last message is the saved one |
| IngestHandler.TxtKeys | backend/lambdas/ingest/main.py:14 | exactly the listed keys ending in `.txt` are processed, and never more keys than were listed |
| IngestHandler.TxtKeysAppend | backend/lambdas/ingest/main.py:14 | the keys of a listing in two parts are the first part's keys followed by the second part's, so the processed keys keep listing order |
| IngestHandler.TxtKeysOne | backend/lambdas/ingest/main.py:14 | a single listed key is kept exactly when it ends in `.txt` |
| IngestHandler.Records | backend/lambdas/ingest/main.py:23-26 | one dictionary per chunk, in order, with the chunk's fields and the file name as `source` |
| IngestHandler.FileRecords | backend/lambdas/ingest/main.py:23-25 | a file's records are, in order, the records of `chunk_text(text, 1000, 150)`'s chunks (the reference packing `ChunkedText` describes) tagged with the file's basename; there is at least one, each citing the file |
| IngestHandler.KeyRecordsCite | backend/lambdas/ingest/main.py:23-25 | a readable key's records are at least one, each citing that file |
| IngestHandler.ChunkFiles | backend/lambdas/ingest/main.py:17-26 | the loop succeeds exactly when every key reads as text, and then the i-th list is the records of the i-th key's chunks, non-empty, each record citing its file |
| IngestHandler.ChunkedKeys | backend/lambdas/ingest/main.py:17-26 | once every key has its chunk records, every key is readable and every list is non-empty and cites its file |
| IngestHandler.Save | backend/lambdas/ingest/main.py:28-48 | no chunks write nothing; otherwise exactly the index and the metadata of these chunks are written under `{ns}/index/`; the reply counts the chunks |
| IngestHandler.Handle | backend/lambdas/ingest/main.py:12-48 | fails exactly when a `.txt` key cannot be read, or when there are chunks and the embeddings call (given as a fault parameter) fails, the failure then being that call's error; otherwise the i-th list holds the records of the i-th `.txt` key's chunks, the chunk list is these lists concatenated in key order, the reply counts them, no `.txt` key writes nothing, and otherwise exactly the index and the metadata of these chunks are written |
| QueryHandler.CiteHit | backend/lambdas/query/main.py:44-45 | a citation carries the hit's score and its record's source and page, or nulls when the id has no record |
| QueryHandler.Handle | backend/lambdas/query/main.py:28-49 | a missing or empty question is a 400 "question required" with no search; otherwise one search with `k` (5 when absent) and one citation per hit, in order |
| Pipeline.SessionFilesInSessionsFolder | backend/lambdas/create_session/main.py:13-44 | manifests, message files and uploads all lie under `{ns}/sessions/` |
| Pipeline.SessionsNotUploads | backend/lambdas/ingest/main.py:14 | no key under `{ns}/sessions/` is under `{ns}/uploads/` |
| Pipeline.UploadsNeverIngested | backend/lambdas/get_upload_url/main.py:30 | no presigned upload key lies in the folder ingest lists |
| Pipeline.IngestSeesNoSessionFiles | backend/lambdas/ingest/main.py:14 | when every object belongs to a session, ingest finds no key to process |
| Pipeline.QueryFindsIngested | backend/lambdas/query/main.py:44 | the record a query finds for id `i` in ingest's saved metadata is chunk `i`'s record when `i` is a chunk position, and none otherwise (including -1) |
| Pipeline.HitCitesIngestedFile | backend/lambdas/query/main.py:43-45 | a hit on chunk `i`'s vector cites the file that chunk came from |

## Left out

- Rendering, CSS, the sidebar toggle and auto-scroll: these are presentation only.
- The network, `async` interleaving and React's batched state updates. Each handler is one atomic transition, and the busy flags are only read.
- Intermediate status lines ("Creating new chat...", "Uploading ...", "Searching ...", "Ingest complete ... N chunks ..."): they are always overwritten before the handler ends. Only final states are modelled, so the ingest reply's chunk count is not read.
- `isLoadingMessages`: it only drives rendering.
- SubmitFlow.RunQuery: its own API-base check is modelled, but `handleSubmit` already checked the base, so that branch is unreachable from a submit.
- Non-`Error` exceptions, whose fixed fallback texts ("Unable to create session.", "Unexpected error ..."): the model treats every rejection as carrying a message.
- JSON parsing. The handlers read request fields as already decoded. Non-string values for `sessionId`, `filename` or `question`, and a non-integer `k`, are not modelled.
- The presigner, the UUID, the clock, the tokenizer and the vector search: each is a parameter.
- S3 and DynamoDB client errors other than an unreadable object, and failures of the index or metadata upload.
- S3 list pagination: ingest receives the listing as a parameter.
- FAISS index building, normalisation, search and serialisation: floating point in a native library. A serialised index is an opaque object, and scores are reals carried through unchanged.
- Float and `Decimal` score conversion in the DynamoDB helpers. Chunks are passed through unchanged.
- tiktoken, PDF extraction and UTF-8 decoding: the tokenizer is an abstract `string -> nat` and files are already decoded text.
- IngestHandler.Handle: the embeddings call (layers/code/python/backend/shared/openai_utils.py:41-57) is not modelled. Its failure is an `embedFault` parameter, which covers, for example, the API rejecting the empty chunk text of an empty `.txt` file. A tokenizer failure is not modelled: tiktoken's `encode` raises on text that contains a special token such as `<|endoftext|>`, but the model's tokenizer is total, so such a file is chunked rather than aborting the run.
- A `messages.json` that parses to something other than a list: the model counts it as unreadable, which differs from the source.
  - Save: the source raises at `messages.append` (layers/code/python/backend/shared/message_utils.py:53, backend/shared/message_utils.py:40) and writes nothing. The model instead overwrites the file with `[message]`.
  - Read: the source returns the parsed value. When the S3 read is used, get_messages would then answer 200 if the value has a length, and 500 otherwise. The model answers 500.
  - So "empty when unreadable" in the save rows is the model's treatment of such a file, not the source's.
- DynamoDB's sort-key order: items are kept in insertion order, which matches timestamp order for messages saved with the current time.
- MessageStore.SaveDynamo: `put_item` replacing an existing item with the same `(sessionKey, timestamp)` is not modelled; the model always appends, so `GetAfterSaveDynamo`, `GetAfterSave` and `GetMessagesHandler.CountAfterSave` read one message more than DynamoDB would when a save reuses a stored timestamp.
- PageModel.FormatSessionLabel: `slice(0, 8)` counts UTF-16 code units, while the model takes eight characters; the two agree on ids whose first eight characters are all in the Basic Multilingual Plane, which includes the UUIDs the backend generates.
- The legacy `openai_messages` (backend/shared/message_utils.py:75-85): it is line for line the layered one, modelled by `MessageStore.OpenAiMessages`.
- FaissMetadata.MergeMetadata: the new metadata dictionary is a sequence in its iteration order, and the vector append (`add_vectors`) is not modelled.
- LegacyMessageStore.GetMessages: its contract states only the missing-file case; the other cases follow from `LegacyMessageStore.GetAgreesWithLayer`.

## Findings

| source | as written | input that shows it | evidently intended | confidence | as-written member | corrected member |
|---|---|---|---|---|---|---|
| backend/shared/faiss_utils.py:78 | `next_id = max(metadata.keys()) + 1` on metadata read back with `json.load`, whose keys are strings | any existing index whose `meta.json` holds at least one record, e.g. the metadata of a one-chunk ingest | the next integer id, one past the largest existing id | not executed | FaissMetadata.MergeAsWrittenRaises | FaissMetadata.MergeMetadata |

=== FILE: chunking.dfy ===
/** The sentence chunker of the ingestion layer (`chunk_text`): the text is
    split into sentences on ". ", sentences are packed greedily into chunks of
    at most `chunkSize` tokens, and each new chunk starts with the longest
    suffix of the previous chunk whose token count fits in `overlap`.

    The tokenizer is abstract: `tok` gives the token count of a sentence. */
module Chunking {
  import opened Wrappers
  import opened Text

  /** The sentence separator the chunker splits on and joins with. */
  const Sep: string := ". "

  /** The sizes the ingest handler passes. */
  const IngestChunkSize: int := 1000
  const IngestOverlap: int := 150

  /** One output chunk: `{'text', 'start_index', 'tokens'}`. */
  datatype Chunk = Chunk(text: string, startIndex: int, tokens: int)

  /** The sentence list a chunk was joined from; its first `carried`
      sentences were carried over from the previous chunk as overlap. */
  datatype Group = Group(sentences: seq<string>, carried: nat)

  /** Total token count of a list of sentences. */
  function SumTokens(tok: string -> nat, xs: seq<string>): nat
    decreases |xs|
  {
    if |xs| == 0 then 0 else SumTokens(tok, xs[..|xs| - 1]) + tok(xs[|xs| - 1])
  }

  lemma SumTokensSnoc(tok: string -> nat, xs: seq<string>, x: string)
    ensures SumTokens(tok, xs + [x]) == SumTokens(tok, xs) + tok(x)
  {
    assert (xs + [x])[..|xs|] == xs;
  }

  lemma {:induction false} SumTokensCons(tok: string -> nat, x: string, xs: seq<string>)
    ensures SumTokens(tok, [x] + xs) == tok(x) + SumTokens(tok, xs)
    decreases |xs|
  {
    if |xs| > 0 {
      var init := xs[..|xs| - 1];
      assert ([x] + xs)[..|xs|] == [x] + init;
      SumTokensCons(tok, x, init);
    } else {
      assert [x] + xs == [x];
      assert [x][..0] == [];
    }
  }

  /** The sentences a group adds beyond the overlap it carried in. */
  function Fresh(g: Group): seq<string> {
    if g.carried <= |g.sentences| then g.sentences[g.carried..] else []
  }

  /** The fresh sentences of all groups, in order: the text the chunks cover
      once every carried overlap is dropped. */
  function Covered(gs: seq<Group>): seq<string>
    decreases |gs|
  {
    if |gs| == 0 then [] else Covered(gs[..|gs| - 1]) + Fresh(gs[|gs| - 1])
  }

  lemma CoveredSnoc(gs: seq<Group>, g: Group)
    ensures Covered(gs + [g]) == Covered(gs) + Fresh(g)
  {
    assert (gs + [g])[..|gs|] == gs;
  }

  /** Growing the last group by a sentence covers exactly that sentence more. */
  lemma CoveredGrow(gs: seq<Group>, g: Group, s: string)
    requires g.carried <= |g.sentences|
    ensures Covered(gs + [Group(g.sentences + [s], g.carried)]) == Covered(gs + [g]) + [s]
  {
    CoveredSnoc(gs, g);
    CoveredSnoc(gs, Group(g.sentences + [s], g.carried));
    assert (g.sentences + [s])[g.carried..] == g.sentences[g.carried..] + [s];
  }

  /** Starting a new group from an overlap and one sentence covers exactly
      that sentence more: the overlap was covered already. */
  lemma CoveredStart(gs: seq<Group>, ov: seq<string>, s: string)
    ensures Covered(gs + [Group(ov + [s], |ov|)]) == Covered(gs) + [s]
  {
    CoveredSnoc(gs, Group(ov + [s], |ov|));
    assert (ov + [s])[|ov|..] == [s];
  }

  // ---------------------------------------------------------------------------
  // What a greedy packing is
  // ---------------------------------------------------------------------------

  /** `next` starts with the overlap taken from the end of `prev`: a suffix of
      `prev` whose tokens fit in `overlap`, grown from the back until the next
      sentence would not fit. */
  ghost predicate Carries(prev: seq<string>, next: Group, tok: string -> nat, overlap: int) {
    && next.carried <= |prev|
    && next.carried <= |next.sentences|
    && next.sentences[..next.carried] == prev[|prev| - next.carried..]
    && (next.carried > 0 ==> SumTokens(tok, next.sentences[..next.carried]) <= overlap)
    && (next.carried < |prev| ==>
          SumTokens(tok, next.sentences[..next.carried]) + tok(prev[|prev| - next.carried - 1]) > overlap)
  }

  /** No sentence after the first fresh one was added to a chunk that it
      pushed over `chunkSize`: read from the end, the last sentence (unless it
      is the first fresh one) fitted next to the ones before it. */
  ghost predicate Packs(g: Group, tok: string -> nat, chunkSize: int)
    decreases |g.sentences|
  {
    var s := g.sentences;
    && g.carried <= |s|
    && (|s| <= g.carried + 1 ||
        (Packs(Group(s[..|s| - 1], g.carried), tok, chunkSize)
         && SumTokens(tok, s[..|s| - 1]) + tok(s[|s| - 1]) <= chunkSize))
  }

  /** The packing, read at one sentence. */
  lemma {:induction false} PacksAt(g: Group, j: nat, tok: string -> nat, chunkSize: int)
    requires Packs(g, tok, chunkSize)
    requires g.carried < j < |g.sentences|
    ensures SumTokens(tok, g.sentences[..j]) + tok(g.sentences[j]) <= chunkSize
    decreases |g.sentences|
  {
    var s := g.sentences;
    var n := |s| - 1;
    if j < n {
      PacksAt(Group(s[..n], g.carried), j, tok, chunkSize);
      assert s[..n][..j] == s[..j];
      assert s[..n][j] == s[j];
    }
  }

  /** `prev` was flushed because it was non-empty and the first fresh
      sentence of `next` would have pushed it over `chunkSize`. */
  ghost predicate Flushed(prev: seq<string>, next: Group, tok: string -> nat, chunkSize: int) {
    && |prev| > 0
    && next.carried < |next.sentences|
    && SumTokens(tok, prev) + tok(next.sentences[next.carried]) > chunkSize
  }

  /** `g` may follow the group `prev` (`None` when it is the first): it packs
      greedily and, unless it is the first, it was started by flushing `prev`
      and carries its overlap. */
  ghost predicate Follows(prev: Option<Group>, g: Group, tok: string -> nat, chunkSize: int, overlap: int) {
    && Packs(g, tok, chunkSize)
    && match prev
       case None => g.carried == 0
       case Some(q) => Carries(q.sentences, g, tok, overlap) && Flushed(q.sentences, g, tok, chunkSize)
  }

  /** The group before position `k`, if any. */
  function Before(gs: seq<Group>, k: nat): Option<Group>
    requires k <= |gs|
  {
    if k == 0 then None else Some(gs[k - 1])
  }

  /** Group `k` follows the group before it. */
  ghost predicate FollowsAt(gs: seq<Group>, k: nat, tok: string -> nat, chunkSize: int, overlap: int)
    requires k < |gs|
  {
    Follows(Before(gs, k), gs[k], tok, chunkSize, overlap)
  }

  /** The groups are a greedy packing: every group follows the one before it. */
  ghost predicate Greedy(gs: seq<Group>, tok: string -> nat, chunkSize: int, overlap: int) {
    forall k: nat :: k < |gs| ==> FollowsAt(gs, k, tok, chunkSize, overlap)
  }

  lemma GreedySnoc(gs: seq<Group>, g: Group, tok: string -> nat, chunkSize: int, overlap: int)
    ensures Greedy(gs + [g], tok, chunkSize, overlap)
        <==> Greedy(gs, tok, chunkSize, overlap) && Follows(Before(gs, |gs|), g, tok, chunkSize, overlap)
  {
    var gs' := gs + [g];
    forall k: nat | k < |gs|
      ensures FollowsAt(gs', k, tok, chunkSize, overlap) <==> FollowsAt(gs, k, tok, chunkSize, overlap)
    {
      assert gs'[k] == gs[k];
      assert Before(gs', k) == Before(gs, k);
    }
    assert Before(gs', |gs|) == Before(gs, |gs|);
    if Greedy(gs', tok, chunkSize, overlap) {
      assert FollowsAt(gs', |gs|, tok, chunkSize, overlap);
    }
  }

  /** A sentence that fits extends a group without breaking its packing. */
  lemma PacksExtend(cur: seq<string>, c: nat, s: string, tok: string -> nat, chunkSize: int)
    requires Packs(Group(cur, c), tok, chunkSize)
    requires |cur| > c ==> SumTokens(tok, cur) + tok(s) <= chunkSize
    ensures Packs(Group(cur + [s], c), tok, chunkSize)
  {
    assert (cur + [s])[..|cur|] == cur;
  }

  /** Growing a group at the end keeps the overlap and flush reason it started with. */
  lemma LinkExtend(prev: seq<string>, cur: seq<string>, c: nat, s: string,
                   tok: string -> nat, chunkSize: int, overlap: int)
    requires c < |cur|
    requires Carries(prev, Group(cur, c), tok, overlap)
    requires Flushed(prev, Group(cur, c), tok, chunkSize)
    ensures Carries(prev, Group(cur + [s], c), tok, overlap)
    ensures Flushed(prev, Group(cur + [s], c), tok, chunkSize)
  {
    assert (cur + [s])[..c] == cur[..c];
    assert (cur + [s])[c] == cur[c];
  }

  /** Appending a sentence that fits to the last group keeps the packing greedy. */
  lemma AppendKeepsGreedy(done: seq<Group>, cur: seq<string>, c: nat, s: string,
                          tok: string -> nat, chunkSize: int, overlap: int)
    requires Greedy(done + [Group(cur, c)], tok, chunkSize, overlap)
    requires c <= |cur|
    requires |done| > 0 ==> c < |cur|
    requires |cur| > 0 ==> SumTokens(tok, cur) + tok(s) <= chunkSize
    ensures Greedy(done + [Group(cur + [s], c)], tok, chunkSize, overlap)
  {
    var g := Group(cur, c);
    var g' := Group(cur + [s], c);
    GreedySnoc(done, g, tok, chunkSize, overlap);
    PacksExtend(cur, c, s, tok, chunkSize);
    if |done| > 0 {
      LinkExtend(done[|done| - 1].sentences, cur, c, s, tok, chunkSize, overlap);
    }
    assert Follows(Before(done, |done|), g', tok, chunkSize, overlap);
    GreedySnoc(done, g', tok, chunkSize, overlap);
  }

  /** The group started by a flush carries the overlap taken from the flushed one. */
  lemma OverlapCarried(cur: seq<string>, ov: seq<string>, s: string, tok: string -> nat, overlap: int)
    requires |ov| <= |cur| && ov == cur[|cur| - |ov|..]
    requires |ov| > 0 ==> SumTokens(tok, ov) <= overlap
    requires |ov| < |cur| ==> SumTokens(tok, ov) + tok(cur[|cur| - |ov| - 1]) > overlap
    ensures Carries(cur, Group(ov + [s], |ov|), tok, overlap)
  {
    assert (ov + [s])[..|ov|] == ov;
  }

  /** A flush happens exactly when the next sentence does not fit. */
  lemma FlushJustified(cur: seq<string>, ov: seq<string>, s: string, tok: string -> nat, chunkSize: int)
    requires |cur| > 0 && SumTokens(tok, cur) + tok(s) > chunkSize
    ensures Flushed(cur, Group(ov + [s], |ov|), tok, chunkSize)
  {
    assert (ov + [s])[|ov|] == s;
  }

  /** Flushing the last group and starting a new one from its overlap and the
      next sentence keeps the packing greedy. */
  lemma FlushKeepsGreedy(done: seq<Group>, cur: seq<string>, c: nat, ov: seq<string>, s: string,
                         tok: string -> nat, chunkSize: int, overlap: int)
    requires Greedy(done + [Group(cur, c)], tok, chunkSize, overlap)
    requires Carries(cur, Group(ov + [s], |ov|), tok, overlap)
    requires Flushed(cur, Group(ov + [s], |ov|), tok, chunkSize)
    ensures Greedy(done + [Group(cur, c)] + [Group(ov + [s], |ov|)], tok, chunkSize, overlap)
  {
    var gs := done + [Group(cur, c)];
    var g' := Group(ov + [s], |ov|);
    assert Before(gs, |gs|) == Some(Group(cur, c));
    assert Packs(g', tok, chunkSize);
    GreedySnoc(gs, g', tok, chunkSize, overlap);
  }

  // ---------------------------------------------------------------------------
  // chunk_text
  // ---------------------------------------------------------------------------

  /** The overlap part of a group: the sentences it carried in. */
  function CarriedPart(g: Group): seq<string> {
    if g.carried <= |g.sentences| then g.sentences[..g.carried] else []
  }

  /** `start_idx` after flushing `prev` into a chunk and starting `next`: the
      flushed text's length minus the characters of the carried sentences. */
  function StartAfter(prev: Chunk, next: Group): int {
    prev.startIndex + |prev.text| - SumLen(CarriedPart(next))
  }

  /** `c` is the chunk emitted for group `g`, following the chunk `prev` (if any). */
  ghost predicate Renders(prev: Option<Chunk>, c: Chunk, g: Group, tok: string -> nat) {
    && c.text == Join(g.sentences, Sep)
    && c.tokens == SumTokens(tok, g.sentences)
    && c.startIndex == (match prev case None => 0 case Some(p) => StartAfter(p, g))
    && (prev.Some? ==> prev.value.startIndex <= c.startIndex)
  }

  /** Chunk `k` is the rendering of group `k`, following chunk `k - 1`. */
  ghost predicate RendersAt(chunks: seq<Chunk>, groups: seq<Group>, k: nat, tok: string -> nat)
    requires k < |chunks| <= |groups|
  {
    Renders(if k == 0 then None else Some(chunks[k - 1]), chunks[k], groups[k], tok)
  }

  /** Each chunk is the rendering of the group at the same position. */
  ghost predicate Rendered(chunks: seq<Chunk>, groups: seq<Group>, tok: string -> nat) {
    && |chunks| == |groups|
    && forall k: nat :: k < |chunks| ==> RendersAt(chunks, groups, k, tok)
  }

  lemma RenderedSnoc(chunks: seq<Chunk>, groups: seq<Group>, c: Chunk, g: Group, tok: string -> nat)
    requires Rendered(chunks, groups, tok)
    requires Renders(if |chunks| == 0 then None else Some(chunks[|chunks| - 1]), c, g, tok)
    ensures Rendered(chunks + [c], groups + [g], tok)
  {
    var cs, gs := chunks + [c], groups + [g];
    forall k: nat | k < |cs|
      ensures RendersAt(cs, gs, k, tok)
    {
      if k < |chunks| {
        assert RendersAt(chunks, groups, k, tok);
        assert cs[k] == chunks[k] && gs[k] == groups[k];
        if k > 0 { assert cs[k - 1] == chunks[k - 1]; }
      }
    }
  }

  /** Start indices never decrease from one chunk to any later one. */
  lemma {:induction false} StartIndexMonotone(chunks: seq<Chunk>, groups: seq<Group>, i: nat, j: nat, tok: string -> nat)
    requires Rendered(chunks, groups, tok)
    requires i <= j < |chunks|
    ensures chunks[i].startIndex <= chunks[j].startIndex
    decreases j - i
  {
    if i < j {
      StartIndexMonotone(chunks, groups, i, j - 1, tok);
      assert RendersAt(chunks, groups, j, tok);
    }
  }

  // ---------------------------------------------------------------------------
  // The overlap carried into the next chunk
  // ---------------------------------------------------------------------------

  /** How many sentences the overlap loop takes from the back of `cur`, once
      it has taken `k`: it takes the next one while the running total plus
      that sentence's tokens stays within `overlap`, and stops at the first
      one that does not fit. */
  function OverlapCount(cur: seq<string>, tok: string -> nat, overlap: int, k: nat): (n: nat)
    requires k <= |cur|
    ensures k <= n <= |cur|
    decreases |cur| - k
  {
    if k < |cur| && SumTokens(tok, cur[|cur| - k..]) + tok(cur[|cur| - k - 1]) <= overlap
    then OverlapCount(cur, tok, overlap, k + 1)
    else k
  }

  /** `overlap_sentences`: the suffix of `cur` the overlap loop collects. */
  function Overlap(cur: seq<string>, tok: string -> nat, overlap: int): seq<string> {
    cur[|cur| - OverlapCount(cur, tok, overlap, 0)..]
  }

  lemma {:induction false} OverlapCountFits(cur: seq<string>, tok: string -> nat, overlap: int, k: nat)
    requires k <= |cur|
    requires k > 0 ==> SumTokens(tok, cur[|cur| - k..]) <= overlap
    ensures var n := OverlapCount(cur, tok, overlap, k);
            && (n > 0 ==> SumTokens(tok, cur[|cur| - n..]) <= overlap)
            && (n < |cur| ==> SumTokens(tok, cur[|cur| - n..]) + tok(cur[|cur| - n - 1]) > overlap)
    decreases |cur| - k
  {
    if k < |cur| && SumTokens(tok, cur[|cur| - k..]) + tok(cur[|cur| - k - 1]) <= overlap {
      assert cur[|cur| - (k + 1)..] == [cur[|cur| - k - 1]] + cur[|cur| - k..];
      SumTokensCons(tok, cur[|cur| - k - 1], cur[|cur| - k..]);
      OverlapCountFits(cur, tok, overlap, k + 1);
    }
  }

  /** The overlap is a suffix of the flushed sentences whose tokens fit in
      `overlap` (when it is not empty), and it is maximal: the sentence just
      before it would not have fitted. */
  lemma OverlapFits(cur: seq<string>, tok: string -> nat, overlap: int)
    ensures var ov := Overlap(cur, tok, overlap);
            && |ov| <= |cur| && ov == cur[|cur| - |ov|..]
            && (|ov| > 0 ==> SumTokens(tok, ov) <= overlap)
            && (|ov| < |cur| ==> SumTokens(tok, ov) + tok(cur[|cur| - |ov| - 1]) > overlap)
  {
    OverlapCountFits(cur, tok, overlap, 0);
  }

  /** The overlap loop of `chunk_text`: walks `cur` backwards, prepending
      sentences while their running token total stays within `overlap`. */
  method TakeOverlap(cur: seq<string>, tok: string -> nat, overlap: int)
    returns (ov: seq<string>, ovTokens: nat)
    ensures ov == Overlap(cur, tok, overlap)
    ensures ovTokens == SumTokens(tok, ov)
  {
    ov := [];
    ovTokens := 0;
    var j := |cur|;
    var stop := false;
    while j > 0 && !stop
      invariant 0 <= j <= |cur|
      invariant ov == cur[j..]
      invariant ovTokens == SumTokens(tok, ov)
      invariant !stop ==> OverlapCount(cur, tok, overlap, 0) == OverlapCount(cur, tok, overlap, |cur| - j)
      invariant stop ==> OverlapCount(cur, tok, overlap, 0) == |cur| - j
      decreases j, !stop
    {
      var t := tok(cur[j - 1]);
      if ovTokens + t <= overlap {
        SumTokensCons(tok, cur[j - 1], ov);
        assert cur[j - 1..] == [cur[j - 1]] + cur[j..];
        ov := [cur[j - 1]] + ov;
        ovTokens := ovTokens + t;
        j := j - 1;
      } else {
        stop := true;
      }
    }
  }

  /** The start index never moves backwards: the overlap is part of the
      flushed chunk's text, so its length is at most the chunk text's. */
  lemma StartAdvances(cur: seq<string>, ov: seq<string>)
    requires |cur| > 0
    requires |ov| <= |cur| && ov == cur[|cur| - |ov|..]
    ensures SumLen(ov) <= |Join(cur, Sep)|
  {
    JoinLength(cur, Sep);
    SumLenSuffix(cur, |cur| - |ov|);
  }

  /** Flushing `cur` as a chunk at `start` extends the rendering, and the
      next chunk's start index (the flushed text's end minus the carried
      overlap) does not move backwards. */
  lemma FlushRenders(chunks: seq<Chunk>, groups: seq<Group>, cur: seq<string>, c: nat, start: int,
                     ov: seq<string>, s: string, tok: string -> nat)
    requires Rendered(chunks, groups, tok)
    requires |chunks| == 0 ==> start == 0
    requires |chunks| > 0 ==> start == StartAfter(chunks[|chunks| - 1], Group(cur, c))
    requires |chunks| > 0 ==> chunks[|chunks| - 1].startIndex <= start
    requires |cur| > 0 && |ov| <= |cur| && ov == cur[|cur| - |ov|..]
    ensures var flushed := Chunk(Join(cur, Sep), start, SumTokens(tok, cur));
            && Rendered(chunks + [flushed], groups + [Group(cur, c)], tok)
            && start + |flushed.text| - SumLen(ov) == StartAfter(flushed, Group(ov + [s], |ov|))
            && start <= start + |flushed.text| - SumLen(ov)
  {
    var flushed := Chunk(Join(cur, Sep), start, SumTokens(tok, cur));
    RenderedSnoc(chunks, groups, flushed, Group(cur, c), tok);
    assert CarriedPart(Group(ov + [s], |ov|)) == ov by {
      assert (ov + [s])[..|ov|] == ov;
    }
    StartAdvances(cur, ov);
  }

  // ---------------------------------------------------------------------------
  // The packing loop as a reference definition
  // ---------------------------------------------------------------------------

  /** The state of `chunk_text`'s loop: the chunks emitted so far, the groups
      they were joined from, `current_chunk` with the number of its sentences
      that were carried in, `current_tokens` and `start_idx`. */
  datatype Packer = Packer(chunks: seq<Chunk>, groups: seq<Group>, cur: seq<string>,
                           carried: nat, curTokens: nat, start: int)

  /** One iteration of the loop: flush and restart from the overlap when the
      sentence does not fit a non-empty chunk, then add the sentence. */
  function Step(p: Packer, x: string, tok: string -> nat, chunkSize: int, overlap: int): Packer {
    if p.curTokens + tok(x) > chunkSize && |p.cur| > 0 then
      var text := Join(p.cur, Sep);
      var ov := Overlap(p.cur, tok, overlap);
      Packer(p.chunks + [Chunk(text, p.start, p.curTokens)], p.groups + [Group(p.cur, p.carried)],
             ov + [x], |ov|, SumTokens(tok, ov) + tok(x), p.start + |text| - SumLen(ov))
    else
      p.(cur := p.cur + [x], curTokens := p.curTokens + tok(x))
  }

  /** The loop state after consuming `sentences`. */
  function PackState(sentences: seq<string>, tok: string -> nat, chunkSize: int, overlap: int): Packer
    decreases |sentences|
  {
    if |sentences| == 0 then Packer([], [], [], 0, 0, 0)
    else Step(PackState(sentences[..|sentences| - 1], tok, chunkSize, overlap),
              sentences[|sentences| - 1], tok, chunkSize, overlap)
  }

  /** The final chunk is emitted when `current_chunk` is not empty. */
  function Finish(p: Packer): (seq<Chunk>, seq<Group>) {
    if |p.cur| > 0 then
      (p.chunks + [Chunk(Join(p.cur, Sep), p.start, p.curTokens)], p.groups + [Group(p.cur, p.carried)])
    else (p.chunks, p.groups)
  }

  /** The shape the loop keeps: the carried sentences are a prefix of the
      current chunk (a proper one once a chunk has been emitted), one group
      per emitted chunk, and the running token count is the current chunk's. */
  ghost predicate Shaped(p: Packer, tok: string -> nat) {
    && p.carried <= |p.cur|
    && (|p.groups| > 0 ==> p.carried < |p.cur|)
    && |p.chunks| == |p.groups|
    && p.curTokens == SumTokens(tok, p.cur)
  }

  /** The start index bookkeeping the loop keeps: the emitted chunks render
      their groups and `start_idx` is where the current chunk starts. */
  ghost predicate StartKept(p: Packer, tok: string -> nat) {
    && Rendered(p.chunks, p.groups, tok)
    && (|p.chunks| == 0 ==> p.start == 0)
    && (|p.chunks| > 0 ==> p.start == StartAfter(p.chunks[|p.chunks| - 1], Group(p.cur, p.carried)))
    && (|p.chunks| > 0 ==> p.chunks[|p.chunks| - 1].startIndex <= p.start)
  }

  lemma StepShaped(q: Packer, x: string, tok: string -> nat, chunkSize: int, overlap: int)
    requires Shaped(q, tok)
    ensures var p := Step(q, x, tok, chunkSize, overlap);
            Shaped(p, tok) && p.carried < |p.cur|
  {
    if q.curTokens + tok(x) > chunkSize && |q.cur| > 0 {
      OverlapFits(q.cur, tok, overlap);
      SumTokensSnoc(tok, Overlap(q.cur, tok, overlap), x);
    } else {
      SumTokensSnoc(tok, q.cur, x);
    }
  }

  lemma StepCovered(q: Packer, x: string, seen: seq<string>, tok: string -> nat, chunkSize: int, overlap: int)
    requires q.carried <= |q.cur|
    requires Covered(q.groups + [Group(q.cur, q.carried)]) == seen
    ensures var p := Step(q, x, tok, chunkSize, overlap);
            Covered(p.groups + [Group(p.cur, p.carried)]) == seen + [x]
  {
    if q.curTokens + tok(x) > chunkSize && |q.cur| > 0 {
      CoveredStart(q.groups + [Group(q.cur, q.carried)], Overlap(q.cur, tok, overlap), x);
    } else {
      CoveredGrow(q.groups, Group(q.cur, q.carried), x);
    }
  }

  lemma StepGreedy(q: Packer, x: string, tok: string -> nat, chunkSize: int, overlap: int)
    requires Shaped(q, tok)
    requires Greedy(q.groups + [Group(q.cur, q.carried)], tok, chunkSize, overlap)
    ensures var p := Step(q, x, tok, chunkSize, overlap);
            Greedy(p.groups + [Group(p.cur, p.carried)], tok, chunkSize, overlap)
  {
    if q.curTokens + tok(x) > chunkSize && |q.cur| > 0 {
      var ov := Overlap(q.cur, tok, overlap);
      OverlapFits(q.cur, tok, overlap);
      OverlapCarried(q.cur, ov, x, tok, overlap);
      FlushJustified(q.cur, ov, x, tok, chunkSize);
      FlushKeepsGreedy(q.groups, q.cur, q.carried, ov, x, tok, chunkSize, overlap);
    } else {
      AppendKeepsGreedy(q.groups, q.cur, q.carried, x, tok, chunkSize, overlap);
    }
  }

  lemma StepStartKept(q: Packer, x: string, tok: string -> nat, chunkSize: int, overlap: int)
    requires Shaped(q, tok)
    requires StartKept(q, tok)
    ensures StartKept(Step(q, x, tok, chunkSize, overlap), tok)
  {
    if q.curTokens + tok(x) > chunkSize && |q.cur| > 0 {
      FlushStartKept(q, x, tok, chunkSize, overlap);
    } else {
      AddStartKept(q, x, tok, chunkSize, overlap);
    }
  }

  lemma FlushStartKept(q: Packer, x: string, tok: string -> nat, chunkSize: int, overlap: int)
    requires Shaped(q, tok)
    requires StartKept(q, tok)
    requires q.curTokens + tok(x) > chunkSize && |q.cur| > 0
    ensures StartKept(Step(q, x, tok, chunkSize, overlap), tok)
  {
    OverlapFits(q.cur, tok, overlap);
    FlushRenders(q.chunks, q.groups, q.cur, q.carried, q.start, Overlap(q.cur, tok, overlap), x, tok);
  }

  lemma AddStartKept(q: Packer, x: string, tok: string -> nat, chunkSize: int, overlap: int)
    requires q.carried <= |q.cur|
    requires StartKept(q, tok)
    requires !(q.curTokens + tok(x) > chunkSize && |q.cur| > 0)
    ensures StartKept(Step(q, x, tok, chunkSize, overlap), tok)
  {
    assert CarriedPart(Group(q.cur + [x], q.carried)) == CarriedPart(Group(q.cur, q.carried)) by {
      assert (q.cur + [x])[..q.carried] == q.cur[..q.carried];
    }
  }

  /** The loop keeps its shape; after one sentence the current chunk holds a
      fresh sentence. */
  lemma {:induction false} PackShape(sentences: seq<string>, tok: string -> nat, chunkSize: int, overlap: int)
    ensures Shaped(PackState(sentences, tok, chunkSize, overlap), tok)
    ensures var p := PackState(sentences, tok, chunkSize, overlap);
            |sentences| > 0 ==> p.carried < |p.cur|
    decreases |sentences|
  {
    if |sentences| > 0 {
      var init := sentences[..|sentences| - 1];
      PackShape(init, tok, chunkSize, overlap);
      StepShaped(PackState(init, tok, chunkSize, overlap), sentences[|sentences| - 1], tok, chunkSize, overlap);
    }
  }

  /** Dropping the carried overlaps, the groups (with the current one) are
      exactly the sentences consumed. */
  lemma {:induction false} PackCovered(sentences: seq<string>, tok: string -> nat, chunkSize: int, overlap: int)
    ensures var p := PackState(sentences, tok, chunkSize, overlap);
            Covered(p.groups + [Group(p.cur, p.carried)]) == sentences
    decreases |sentences|
  {
    if |sentences| == 0 {
      CoveredSnoc([], Group([], 0));
    } else {
      var init, x := sentences[..|sentences| - 1], sentences[|sentences| - 1];
      PackShape(init, tok, chunkSize, overlap);
      PackCovered(init, tok, chunkSize, overlap);
      StepCovered(PackState(init, tok, chunkSize, overlap), x, init, tok, chunkSize, overlap);
      assert sentences == init + [x];
    }
  }

  /** The groups (with the current one) are a greedy packing. */
  lemma {:induction false} PackGreedy(sentences: seq<string>, tok: string -> nat, chunkSize: int, overlap: int)
    ensures var p := PackState(sentences, tok, chunkSize, overlap);
            Greedy(p.groups + [Group(p.cur, p.carried)], tok, chunkSize, overlap)
    decreases |sentences|
  {
    if |sentences| == 0 {
      assert FollowsAt([Group([], 0)], 0, tok, chunkSize, overlap);
    } else {
      var init := sentences[..|sentences| - 1];
      PackShape(init, tok, chunkSize, overlap);
      PackGreedy(init, tok, chunkSize, overlap);
      StepGreedy(PackState(init, tok, chunkSize, overlap), sentences[|sentences| - 1], tok, chunkSize, overlap);
    }
  }

  /** The emitted chunks render their groups, and `start_idx` is where the
      current chunk starts: after the last chunk, minus the carried overlap. */
  lemma {:induction false} PackStartKept(sentences: seq<string>, tok: string -> nat, chunkSize: int, overlap: int)
    ensures StartKept(PackState(sentences, tok, chunkSize, overlap), tok)
    decreases |sentences|
  {
    if |sentences| > 0 {
      var init := sentences[..|sentences| - 1];
      PackShape(init, tok, chunkSize, overlap);
      PackStartKept(init, tok, chunkSize, overlap);
      StepStartKept(PackState(init, tok, chunkSize, overlap), sentences[|sentences| - 1], tok, chunkSize, overlap);
    }
  }

  /** What `chunk_text` returns for a sentence list, read off the reference
      loop: one group per chunk, at least one of each unless there were no
      sentences, the groups cover the sentences, the packing is greedy and
      each chunk renders its group. */
  lemma PackOutput(sentences: seq<string>, tok: string -> nat, chunkSize: int, overlap: int)
    ensures var (chunks, groups) := Finish(PackState(sentences, tok, chunkSize, overlap));
            && |chunks| == |groups|
            && (|sentences| > 0 ==> |groups| >= 1)
            && Covered(groups) == sentences
            && Greedy(groups, tok, chunkSize, overlap)
            && Rendered(chunks, groups, tok)
  {
    var p := PackState(sentences, tok, chunkSize, overlap);
    PackShape(sentences, tok, chunkSize, overlap);
    PackCovered(sentences, tok, chunkSize, overlap);
    PackGreedy(sentences, tok, chunkSize, overlap);
    PackStartKept(sentences, tok, chunkSize, overlap);
    if |p.cur| > 0 {
      var last := Chunk(Join(p.cur, Sep), p.start, p.curTokens);
      RenderedSnoc(p.chunks, p.groups, last, Group(p.cur, p.carried), tok);
    } else {
      CoveredSnoc([], Group([], 0));
    }
  }
  // ---------------------------------------------------------------------------
  // chunk_text
  // ---------------------------------------------------------------------------

  /** The packing loop of `chunk_text` over the sentence list. */
  method Pack(sentences: seq<string>, tok: string -> nat, chunkSize: int, overlap: int)
    returns (chunks: seq<Chunk>, groups: seq<Group>)
    ensures (chunks, groups) == Finish(PackState(sentences, tok, chunkSize, overlap))
    ensures |chunks| == |groups|
    ensures |sentences| > 0 ==> |groups| >= 1
    ensures Covered(groups) == sentences
    ensures Greedy(groups, tok, chunkSize, overlap)
    ensures Rendered(chunks, groups, tok)
  {
    chunks, groups := [], [];
    var cur: seq<string> := [];
    var carried: nat := 0;
    var curTokens: nat := 0;
    var start := 0;
    var i := 0;
    while i < |sentences|
      invariant 0 <= i <= |sentences|
      invariant Packer(chunks, groups, cur, carried, curTokens, start)
             == PackState(sentences[..i], tok, chunkSize, overlap)
    {
      var sentence := sentences[i];
      var sentenceTokens := tok(sentence);
      if curTokens + sentenceTokens > chunkSize && |cur| > 0 {
        var text := Join(cur, Sep);
        chunks := chunks + [Chunk(text, start, curTokens)];
        groups := groups + [Group(cur, carried)];
        var ov, ovTokens := TakeOverlap(cur, tok, overlap);
        start := start + |text| - SumLen(ov);
        cur, carried, curTokens := ov, |ov|, ovTokens;
      }
      cur := cur + [sentence];
      curTokens := curTokens + sentenceTokens;
      assert sentences[..i + 1][..i] == sentences[..i];
      i := i + 1;
    }
    assert sentences[..i] == sentences;
    if |cur| > 0 {
      chunks := chunks + [Chunk(Join(cur, Sep), start, curTokens)];
      groups := groups + [Group(cur, carried)];
    }
    PackOutput(sentences, tok, chunkSize, overlap);
  }

  /** The reference for `chunk_text`: the reference loop run over the
      text's ". " sentences. */
  function Chunked(text: string, tok: string -> nat, chunkSize: int, overlap: int): (seq<Chunk>, seq<Group>) {
    Finish(PackState(Split(text, Sep), tok, chunkSize, overlap))
  }

  /** The reference packing of a text has at least one chunk, one group per
      chunk; dropping the carried overlaps and joining the rest gives back
      the text; it is greedy and each chunk renders its group. */
  lemma ChunkedText(text: string, tok: string -> nat, chunkSize: int, overlap: int)
    ensures var (chunks, groups) := Chunked(text, tok, chunkSize, overlap);
            && |chunks| == |groups| >= 1
            && Covered(groups) == Split(text, Sep)
            && Join(Covered(groups), Sep) == text
            && Greedy(groups, tok, chunkSize, overlap)
            && Rendered(chunks, groups, tok)
  {
    PackOutput(Split(text, Sep), tok, chunkSize, overlap);
    JoinSplit(text, Sep);
  }

  /** `chunk_text(text, chunk_size, overlap)`: the text split on ". " and
      packed greedily. Besides the chunks it returns the sentence group each
      chunk was joined from; dropping the carried overlaps and joining the
      rest gives back the text. */
  method ChunkText(text: string, tok: string -> nat, chunkSize: int, overlap: int)
    returns (chunks: seq<Chunk>, groups: seq<Group>)
    ensures (chunks, groups) == Chunked(text, tok, chunkSize, overlap)
    ensures |chunks| == |groups| >= 1
    ensures Covered(groups) == Split(text, Sep)
    ensures Join(Covered(groups), Sep) == text
    ensures Greedy(groups, tok, chunkSize, overlap)
    ensures Rendered(chunks, groups, tok)
  {
    chunks, groups := Pack(Split(text, Sep), tok, chunkSize, overlap);
    JoinSplit(text, Sep);
  }
}

=== FILE: create_session.dfy ===
/** The create-session Lambda: writes a session manifest and echoes it. */
module CreateSessionHandler {
  import opened Wrappers
  import opened Json
  import opened Storage

  /** The request fields the handler reads; a missing field is `Null` or
      `None`. */
  datatype Request = Request(userId: Value, metadata: Value, sessionId: Option<string>)

  /** Where a session's manifest lives. */
  function ManifestKey(namespace: string, sessionId: string): string {
    namespace + "/sessions/" + sessionId + "/manifest.json"
  }

  /** A supplied session id counts only when it is non-empty. */
  predicate Supplied(request: Request) {
    request.sessionId.Some? && request.sessionId.value != ""
  }

  /** The handler. `freshId` stands for the random UUID and `now` for the
      current UTC time, both drawn by the handler itself. The session id is
      the supplied one, else the fresh one; the metadata is the supplied value
      unless that is falsy, in which case it is an empty object; the manifest
      is written under the session's folder and is the only object written;
      the response names the same id, key, creation time and metadata, and its
      status is 200 for a supplied id and 201 for a new one. */
  function Handle(namespace: string, bucket: Bucket, request: Request, freshId: string, now: string)
    : (r: (Bucket, Response))
    ensures var sid := if Supplied(request) then request.sessionId.value else freshId;
            var key := ManifestKey(namespace, sid);
            && r.1.statusCode == (if Supplied(request) then 200 else 201)
            && r.1.jsonHeader
            && r.1.body.Keys == {"sessionId", "manifestKey", "namespace", "createdAt", "metadata"}
            && r.1.body["sessionId"] == Str(sid)
            && r.1.body["manifestKey"] == Str(key)
            && r.1.body["namespace"] == Str(namespace)
            && r.1.body["createdAt"] == Str(now)
            && key in r.0 && r.0[key].Manifest?
            && r.0[key].fields.Keys == {"sessionId", "userId", "createdAt", "metadata"}
            && r.0[key].fields["userId"] == request.userId
            && (forall f :: f in {"sessionId", "createdAt", "metadata"} ==> r.0[key].fields[f] == r.1.body[f])
            && (forall k :: k in r.0 <==> k in bucket || k == key)
            && (forall k :: k in bucket && k != key ==> r.0[k] == bucket[k])
    ensures Truthy(request.metadata) ==> r.1.body["metadata"] == request.metadata
    ensures !Truthy(request.metadata) ==> r.1.body["metadata"] == Obj(map[])
  {
    var sid := if Supplied(request) then request.sessionId.value else freshId;
    var metadata := if Truthy(request.metadata) then request.metadata else Obj(map[]);
    var key := ManifestKey(namespace, sid);
    var manifest := map[
      "sessionId" := Str(sid),
      "userId" := request.userId,
      "createdAt" := Str(now),
      "metadata" := metadata];
    var body := map[
      "sessionId" := Str(sid),
      "manifestKey" := Str(key),
      "namespace" := Str(namespace),
      "createdAt" := Str(now),
      "metadata" := metadata];
    (bucket[key := Manifest(manifest)], Response(if Supplied(request) then 200 else 201, true, body))
  }

  /** Creating a session again under the id a previous call returned keeps
      that id, answers 200 and rewrites the same manifest object. */
  lemma {:induction false} RecreateKeepsSession(
    namespace: string, bucket: Bucket, request: Request, freshId: string, now: string,
    again: Request, freshId2: string, now2: string)
    requires freshId != ""
    requires again.sessionId == Some(if Supplied(request) then request.sessionId.value else freshId)
    ensures var first := Handle(namespace, bucket, request, freshId, now);
            var second := Handle(namespace, first.0, again, freshId2, now2);
            && second.1.statusCode == 200
            && second.1.body["sessionId"] == first.1.body["sessionId"]
            && second.1.body["manifestKey"] == first.1.body["manifestKey"]
            && second.0.Keys == first.0.Keys
  {
    var first := Handle(namespace, bucket, request, freshId, now);
    assert Supplied(again);
    var second := Handle(namespace, first.0, again, freshId2, now2);
    var key := ManifestKey(namespace, again.sessionId.value);
    assert key in first.0;
  }
}

=== FILE: faiss_metadata.dfy ===
/** The chunk metadata stored next to a FAISS index: `create_metadata`, the
    JSON form it is saved in, and the id allocation of `merge_indexes`. */
module FaissMetadata {
  import opened Wrappers
  import opened Text
  import opened Json

  /** One metadata record: the four fields `create_metadata` keeps for a
      chunk, and no others. */
  datatype Entry = Entry(text: Value, source: Value, page: Value, startIndex: Value)

  /** The record kept for one chunk dictionary: each field copied from the
      chunk when present and defaulted (`""`, `""`, `None`, `0`) otherwise;
      every other key of the chunk (`tokens`, say) is dropped. */
  function EntryOf(chunk: map<string, Value>): (e: Entry)
    ensures "text" in chunk ==> e.text == chunk["text"]
    ensures "text" !in chunk ==> e.text == Str("")
    ensures "source" in chunk ==> e.source == chunk["source"]
    ensures "source" !in chunk ==> e.source == Str("")
    ensures "page" in chunk ==> e.page == chunk["page"]
    ensures "page" !in chunk ==> e.page == Null
    ensures "start_index" in chunk ==> e.startIndex == chunk["start_index"]
    ensures "start_index" !in chunk ==> e.startIndex == Num(0)
  {
    Entry(
      Get(chunk, "text", Str("")),
      Get(chunk, "source", Str("")),
      Get(chunk, "page", Null),
      Get(chunk, "start_index", Num(0)))
  }

  /** `create_metadata`: the i-th chunk's record under integer key i, and no
      other keys. Key i is the FAISS vector id of the i-th embedded chunk. */
  function CreateMetadata(chunks: seq<map<string, Value>>): (metadata: map<nat, Entry>)
    ensures forall i: nat :: i in metadata <==> i < |chunks|
    ensures forall i: nat :: i < |chunks| ==> metadata[i] == EntryOf(chunks[i])
    decreases |chunks|
  {
    if |chunks| == 0 then map[]
    else
      var n := |chunks| - 1;
      var prev := CreateMetadata(chunks[..n]);
      assert forall i: nat :: i < n ==> chunks[..n][i] == chunks[i];
      prev[n := EntryOf(chunks[n])]
  }

  lemma RenderAllInjective()
    ensures forall m: nat, n: nat :: NatToDecimal(m) == NatToDecimal(n) ==> m == n
  {
    forall m: nat, n: nat ensures NatToDecimal(m) == NatToDecimal(n) ==> m == n {
      RenderInjective(m, n);
    }
  }

  /** `json.dump` followed by `json.load`: integer keys come back as their
      decimal renderings, one key per id and nothing else. */
  function Dump(metadata: map<nat, Entry>): (loaded: map<string, Entry>)
    ensures forall i :: i in metadata ==> NatToDecimal(i) in loaded && loaded[NatToDecimal(i)] == metadata[i]
  {
    RenderAllInjective();
    map i | i in metadata :: NatToDecimal(i) := metadata[i]
  }

  /** Every key of the loaded metadata is the decimal rendering of an id. */
  lemma DumpKeys(metadata: map<nat, Entry>, k: string)
    requires k in Dump(metadata)
    ensures AllDigits(k) && ParseDecimal(k) in metadata && k == NatToDecimal(ParseDecimal(k))
  {
    var i :| i in metadata && k == NatToDecimal(i);
    ParseRender(i);
  }

  /** The loaded metadata is empty exactly when the saved one was. */
  lemma DumpEmpty(metadata: map<nat, Entry>)
    ensures |Dump(metadata)| == 0 <==> |metadata| == 0
  {
    if |metadata| > 0 {
      var i :| i in metadata;
      assert NatToDecimal(i) in Dump(metadata);
    }
    if |Dump(metadata)| > 0 {
      var k :| k in Dump(metadata);
      DumpKeys(metadata, k);
    }
  }

  // ---------------------------------------------------------------------------
  // merge_indexes
  // ---------------------------------------------------------------------------

  /** The error Python raises for `max(metadata.keys()) + 1` on string keys. */
  const ConcatError := "TypeError: can only concatenate str (not \"int\") to str"

  /** The first new id as `merge_indexes` computes it. The metadata it reads
      comes from `json.load`, so its keys are strings, and adding 1 to the
      largest one raises unless there is no key at all. */
  function NextIdAsWritten(loaded: map<string, Entry>): (r: Result<nat>)
    ensures r.Success? <==> |loaded| == 0
    ensures r.Success? ==> r.value == 0
  {
    if |loaded| == 0 then Success(0) else Failure(ConcatError)
  }

  /** Merging into any index whose saved metadata holds at least one chunk
      raises: here the metadata of a one-chunk index. */
  lemma MergeAsWrittenRaises()
    ensures NextIdAsWritten(Dump(CreateMetadata([map[]]))) == Failure(ConcatError)
  {
    DumpEmpty(CreateMetadata([map[]]));
  }

  /** One past the largest id in use, or 0 when there is none: the first id
      `merge_indexes` evidently means to hand out. */
  method NextId(metadata: map<nat, Entry>) returns (next: nat)
    ensures forall k :: k in metadata ==> k < next
    ensures metadata == map[] ==> next == 0
    ensures metadata != map[] ==> next >= 1 && next - 1 in metadata
  {
    next := 0;
    var rest := metadata.Keys;
    while rest != {}
      invariant rest <= metadata.Keys
      invariant forall k :: k in metadata && k !in rest ==> k < next
      invariant next == 0 || next - 1 in metadata
      decreases rest
    {
      var k :| k in rest;
      if k + 1 > next {
        next := k + 1;
      }
      rest := rest - {k};
    }
    if metadata != map[] {
      assert metadata.Keys != {};
      var k :| k in metadata;
      assert k < next;
    }
  }

  /** The update loop of `merge_indexes`: the new records in order under
      consecutive ids from `first`, every existing record left in place. */
  method AddRecords(metadata: map<nat, Entry>, first: nat, newMetadata: seq<Entry>)
    returns (merged: map<nat, Entry>)
    requires forall k :: k in metadata ==> k < first
    ensures forall k :: k in metadata ==> k in merged && merged[k] == metadata[k]
    ensures forall j: nat :: j < |newMetadata| ==> first + j in merged && merged[first + j] == newMetadata[j]
    ensures forall k: nat :: k in merged <==> k in metadata || first <= k < first + |newMetadata|
  {
    merged := metadata;
    var nextId := first;
    var i := 0;
    while i < |newMetadata|
      invariant i <= |newMetadata| && nextId == first + i
      invariant forall k :: k in metadata ==> k in merged && merged[k] == metadata[k]
      invariant forall j: nat :: j < i ==> first + j in merged && merged[first + j] == newMetadata[j]
      invariant forall k: nat :: k in merged <==> k in metadata || first <= k < first + i
    {
      merged := merged[nextId := newMetadata[i]];
      nextId := nextId + 1;
      i := i + 1;
    }
  }

  /** `merge_indexes` with integer ids, as the code evidently intends: the new
      records take consecutive ids starting one past the largest existing id
      (0 when there is no existing index or it is empty), and every existing
      record keeps its id. `existing` is `None` when no index file exists;
      `newMetadata` lists the new records in their dictionary order. */
  method MergeMetadata(existing: Option<map<nat, Entry>>, newMetadata: seq<Entry>)
    returns (merged: map<nat, Entry>, first: nat)
    ensures existing.None? ==> first == 0
    ensures existing.Some? && existing.value == map[] ==> first == 0
    ensures existing.Some? && existing.value != map[] ==> first >= 1 && first - 1 in existing.value
    ensures existing.Some? ==> forall k :: k in existing.value ==> k < first
    ensures existing.Some? ==> forall k :: k in existing.value ==> k in merged && merged[k] == existing.value[k]
    ensures forall j: nat :: j < |newMetadata| ==> first + j in merged && merged[first + j] == newMetadata[j]
    ensures forall k: nat :: k in merged <==> k in existing.GetOr(map[]) || first <= k < first + |newMetadata|
  {
    var base := existing.GetOr(map[]);
    first := NextId(base);
    merged := AddRecords(base, first, newMetadata);
  }
}

=== FILE: get_messages.dfy ===
/** The get-messages Lambda: returns a session's stored history. */
module GetMessagesHandler {
  import opened Wrappers
  import opened Json
  import opened Storage
  import MessageStore

  /** A stored message as it appears in the JSON response. */
  function MessageJson(m: Message): Value {
    var base := map["role" := Str(m.role), "content" := Str(m.content), "timestamp" := Str(m.timestamp)];
    Obj(if m.chunks.Some? then base["chunks" := Arr(m.chunks.value)] else base)
  }

  function MessagesJson(ms: seq<Message>): (r: seq<Value>)
    ensures |r| == |ms|
    ensures forall i :: 0 <= i < |ms| ==> r[i] == MessageJson(ms[i])
  {
    seq(|ms|, i requires 0 <= i < |ms| => MessageJson(ms[i]))
  }

  /** The 500 answer for a failed read. */
  function ReadError(details: string): Response {
    Response(500, true, map["error" := Str("Failed to retrieve messages"), "details" := Str(details)])
  }

  /** The handler. `tableName` is the configured messages table; `fault` is
      an exception the storage service itself raised, if any. Without a
      non-empty session id in the path the answer is 400. A failed read (a
      service fault, or an unreadable S3 file) is a 500 carrying the error
      text. Otherwise it is 200 with the session id, the stored history in
      order, and a count equal to the number of messages returned. */
  function Handle(namespace: string, tableName: string, store: Store, pathSessionId: Option<string>, fault: Option<string>)
    : (r: Response)
    ensures r.jsonHeader
    ensures pathSessionId.None? || pathSessionId.value == "" ==> r == ErrorResponse(400, true, "sessionId required in path")
    ensures r.statusCode == 500 ==> r.body.Keys == {"error", "details"}
    ensures r.statusCode == 200 <==>
            pathSessionId.Some? && pathSessionId.value != "" && fault.None? &&
            MessageStore.GetMessages(store, pathSessionId.value, namespace, Some(tableName)).Success?
    ensures r.statusCode == 200 ==>
            && r.body.Keys == {"sessionId", "messages", "count"}
            && r.body["sessionId"] == Str(pathSessionId.value)
            && r.body["messages"].Arr?
            && r.body["count"] == Num(|r.body["messages"].items|)
            && r.body["messages"].items
               == MessagesJson(MessageStore.GetMessages(store, pathSessionId.value, namespace, Some(tableName)).value)
  {
    match pathSessionId
    case None => ErrorResponse(400, true, "sessionId required in path")
    case Some(sid) =>
      if sid == "" then ErrorResponse(400, true, "sessionId required in path")
      else if fault.Some? then ReadError(fault.value)
      else match MessageStore.GetMessages(store, sid, namespace, Some(tableName))
        case Failure(e) => ReadError(e)
        case Success(ms) =>
          Response(200, true, map[
            "sessionId" := Str(sid),
            "messages" := Arr(MessagesJson(ms)),
            "count" := Num(|ms|)])
  }

  /** After a message is saved to a session through the same table, a
      successful fetch of that session reports one more message, and the last
      one is the saved record. */
  lemma {:induction false} CountAfterSave(
    namespace: string, tableName: string, store: Store, sessionId: string,
    role: string, content: string, chunks: Option<seq<Value>>, now: string)
    requires sessionId != ""
    requires Handle(namespace, tableName, store, Some(sessionId), None).statusCode == 200
    ensures var saved := MessageStore.SaveMessage(store, sessionId, role, content, chunks, namespace, Some(tableName), now);
            var before := Handle(namespace, tableName, store, Some(sessionId), None);
            var after := Handle(namespace, tableName, saved.0, Some(sessionId), None);
            && after.statusCode == 200
            && after.body["count"].n == before.body["count"].n + 1
            && after.body["messages"].items[|after.body["messages"].items| - 1] == MessageJson(saved.1)
  {
    var saved := MessageStore.SaveMessage(store, sessionId, role, content, chunks, namespace, Some(tableName), now);
    MessageStore.GetAfterSave(store, sessionId, role, content, chunks, namespace, Some(tableName), now);
  }
}

=== FILE: ingest.dfy ===
/** The ingest Lambda: chunks every uploaded `.txt` file and saves a fresh
    index with its chunk metadata. */
module IngestHandler {
  import opened Wrappers
  import opened Text
  import opened Json
  import opened Storage
  import opened Chunking
  import FaissMetadata

  /** The folder ingest lists. */
  function UploadsPrefix(namespace: string): string {
    namespace + "/uploads/"
  }

  function IndexKey(namespace: string): string {
    namespace + "/index/faiss.index"
  }

  function MetaKey(namespace: string): string {
    namespace + "/index/meta.json"
  }

  /** The listed keys ingest processes: those ending in `.txt`, in listing
      order. */
  function TxtKeys(listing: seq<string>): (keys: seq<string>)
    ensures forall k :: k in keys <==> k in listing && EndsWith(k, ".txt")
    ensures |keys| <= |listing|
    decreases |listing|
  {
    if |listing| == 0 then []
    else
      var init := TxtKeys(listing[..|listing| - 1]);
      var last := listing[|listing| - 1];
      assert listing == listing[..|listing| - 1] + [last];
      if EndsWith(last, ".txt") then init + [last] else init
  }

  /** The keys of a listing in two parts are the first part's keys followed
      by the second part's, so the processed keys keep listing order. */
  lemma {:induction false} TxtKeysAppend(a: seq<string>, b: seq<string>)
    ensures TxtKeys(a + b) == TxtKeys(a) + TxtKeys(b)
    decreases |b|
  {
    if |b| > 0 {
      var b' := b[..|b| - 1];
      assert (a + b)[..|a + b| - 1] == a + b';
      assert (a + b)[|a + b| - 1] == b[|b| - 1];
      TxtKeysAppend(a, b');
    } else {
      assert a + b == a;
    }
  }

  /** A single listed key is processed exactly when it ends in `.txt`. */
  lemma TxtKeysOne(k: string)
    ensures TxtKeys([k]) == if EndsWith(k, ".txt") then [k] else []
  {
    assert [k][..0] == [];
  }

  /** The chunk dictionary ingest collects: the chunker's fields plus the
      file name as `source`. */
  function ChunkRecord(c: Chunk, source: string): map<string, Value> {
    map["text" := Str(c.text), "start_index" := Num(c.startIndex), "tokens" := Num(c.tokens), "source" := Str(source)]
  }

  function Records(chunks: seq<Chunk>, source: string): (r: seq<map<string, Value>>)
    ensures |r| == |chunks|
    ensures forall j :: 0 <= j < |r| ==> r[j] == ChunkRecord(chunks[j], source)
  {
    seq(|chunks|, j requires 0 <= j < |chunks| => ChunkRecord(chunks[j], source))
  }

  /** A record cites the file it came from by its last path segment. */
  predicate CitesFile(record: map<string, Value>, key: string) {
    "source" in record && record["source"] == Str(Basename(key))
  }

  function Flatten<T>(xss: seq<seq<T>>): seq<T>
    decreases |xss|
  {
    if |xss| == 0 then [] else Flatten(xss[..|xss| - 1]) + xss[|xss| - 1]
  }

  /** Every list non-empty makes the concatenation at least as long as
      the number of lists. */
  lemma {:induction false} FlattenAtLeast<T>(xss: seq<seq<T>>)
    requires forall i :: 0 <= i < |xss| ==> |xss[i]| >= 1
    ensures |Flatten(xss)| >= |xss|
    decreases |xss|
  {
    if |xss| > 0 {
      FlattenAtLeast(xss[..|xss| - 1]);
    }
  }

  /** The chunks ingest makes of a file's text: `chunk_text` with the ingest
      sizes. */
  function FileChunks(text: string, tok: string -> nat): seq<Chunk> {
    Chunked(text, tok, IngestChunkSize, IngestOverlap).0
  }

  /** The records of one file: its chunks, in the chunker's order, each
      tagged with the file name. The chunks are the reference packing's, so
      `ChunkedText` describes them: they give back the text, the packing is
      greedy, and each record carries its chunk's text, start index and
      token count. */
  method FileRecords(text: string, key: string, tok: string -> nat) returns (records: seq<map<string, Value>>)
    ensures records == Records(FileChunks(text, tok), Basename(key))
    ensures |records| >= 1
    ensures forall j :: 0 <= j < |records| ==> CitesFile(records[j], key)
  {
    var chunks, groups := ChunkText(text, tok, IngestChunkSize, IngestOverlap);
    records := Records(chunks, Basename(key));
  }

  /** The records a readable key yields. */
  function KeyRecords(bucket: Bucket, key: string, tok: string -> nat): seq<map<string, Value>>
    requires key in bucket && bucket[key].TextFile?
  {
    Records(FileChunks(bucket[key].text, tok), Basename(key))
  }

  /** `perFile` holds, for each key in order, the records of its chunks. */
  predicate FromKeys(bucket: Bucket, keys: seq<string>, perFile: seq<seq<map<string, Value>>>, tok: string -> nat) {
    && |perFile| == |keys|
    && forall i :: 0 <= i < |keys| ==>
         keys[i] in bucket && bucket[keys[i]].TextFile? && perFile[i] == KeyRecords(bucket, keys[i], tok)
  }

  /** A readable key yields at least one record, each citing the file. */
  lemma KeyRecordsCite(bucket: Bucket, key: string, tok: string -> nat)
    requires key in bucket && bucket[key].TextFile?
    ensures var r := KeyRecords(bucket, key, tok);
            |r| >= 1 && forall j :: 0 <= j < |r| ==> CitesFile(r[j], key)
  {
    ChunkedText(bucket[key].text, tok, IngestChunkSize, IngestOverlap);
  }

  /** The per-file loop: read each key as text and chunk it, stopping at the
      first key that cannot be read. On success there is one record list per
      key, holding that file's chunks in order, each record citing the file. */
  method ChunkFiles(bucket: Bucket, keys: seq<string>, tok: string -> nat)
    returns (ok: bool, perFile: seq<seq<map<string, Value>>>)
    ensures ok <==> forall k :: k in keys ==> k in bucket && bucket[k].TextFile?
    ensures ok ==> FromKeys(bucket, keys, perFile, tok)
    ensures ok ==> forall i :: 0 <= i < |perFile| ==> |perFile[i]| >= 1
    ensures ok ==> forall i, j :: 0 <= i < |perFile| && 0 <= j < |perFile[i]| ==> CitesFile(perFile[i][j], keys[i])
  {
    perFile := [];
    var i := 0;
    while i < |keys|
      invariant i <= |keys|
      invariant FromKeys(bucket, keys[..i], perFile, tok)
    {
      var key := keys[i];
      if key !in bucket || !bucket[key].TextFile? {
        ok := false;
        return;
      }
      var records := FileRecords(bucket[key].text, key, tok);
      assert records == KeyRecords(bucket, key, tok);
      assert keys[..i + 1] == keys[..i] + [key];
      perFile := perFile + [records];
      i := i + 1;
    }
    ok := true;
    assert keys[..i] == keys;
    ChunkedKeys(bucket, keys, perFile, tok);
  }

  /** Once every key has been chunked, every key is readable and every list
      is non-empty and cites its file. */
  lemma ChunkedKeys(bucket: Bucket, keys: seq<string>, perFile: seq<seq<map<string, Value>>>, tok: string -> nat)
    requires FromKeys(bucket, keys, perFile, tok)
    ensures forall k :: k in keys ==> k in bucket && bucket[k].TextFile?
    ensures forall i :: 0 <= i < |perFile| ==> |perFile[i]| >= 1
    ensures forall i, j :: 0 <= i < |perFile| && 0 <= j < |perFile[i]| ==> CitesFile(perFile[i][j], keys[i])
  {
    forall k | k in keys ensures k in bucket && bucket[k].TextFile? {
      var j :| 0 <= j < |keys| && keys[j] == k;
    }
    forall i | 0 <= i < |perFile|
      ensures |perFile[i]| >= 1
      ensures forall j :: 0 <= j < |perFile[i]| ==> CitesFile(perFile[i][j], keys[i])
    {
      KeyRecordsCite(bucket, keys[i], tok);
    }
  }

  /** What a successful run leaves behind: the bucket, the response and the
      chunk list it indexed. */
  datatype Ingested = Ingested(bucket: Bucket, response: Response, chunks: seq<map<string, Value>>)

  /** The reply `{"ok": true, "stats": {"chunks": n}}`. */
  function Stats(n: nat): map<string, Value> {
    map["ok" := Bool(true), "stats" := Obj(map["chunks" := Num(n)])]
  }

  /** The handler. `listing` is what listing `{ns}/uploads/` returned, `tok`
      the tokenizer, and `embedFault` the error the embeddings call raises,
      if it does (it is only made when there are chunks). The run fails
      exactly when some listed `.txt` key cannot be read as text, or when
      there are chunks and the embeddings call fails. Otherwise `perFile[i]` holds the records of the
      i-th `.txt` key's chunks, in order, at least one, all citing that file; the
      chunk list is their concatenation; the reply counts it. No `.txt` key
      means no chunks, and then nothing is written; otherwise the index and
      the metadata of exactly these chunks are written under `{ns}/index/`
      and nothing else changes. */
  method Handle(namespace: string, bucket: Bucket, listing: seq<string>, tok: string -> nat, embedFault: Option<string>)
    returns (r: Result<Ingested>, perFile: seq<seq<map<string, Value>>>)
    ensures r.Success? <==>
            && (forall k :: k in TxtKeys(listing) ==> k in bucket && bucket[k].TextFile?)
            && (|TxtKeys(listing)| == 0 || embedFault.None?)
    ensures && (forall k :: k in TxtKeys(listing) ==> k in bucket && bucket[k].TextFile?)
            && |TxtKeys(listing)| > 0 && embedFault.Some?
            ==> r == Failure(embedFault.value)
    ensures r.Success? ==>
            && FromKeys(bucket, TxtKeys(listing), perFile, tok)
            && r.value.chunks == Flatten(perFile)
            && (forall i :: 0 <= i < |perFile| ==> |perFile[i]| >= 1)
            && (forall i, j :: 0 <= i < |perFile| && 0 <= j < |perFile[i]| ==> CitesFile(perFile[i][j], TxtKeys(listing)[i]))
    ensures r.Success? ==> r.value.response == Response(200, false, Stats(|r.value.chunks|))
    ensures r.Success? ==> (|r.value.chunks| == 0 <==> |TxtKeys(listing)| == 0)
    ensures r.Success? && |r.value.chunks| == 0 ==> r.value.bucket == bucket
    ensures r.Success? && |r.value.chunks| > 0 ==>
            r.value.bucket == bucket[IndexKey(namespace) := IndexFile]
                                    [MetaKey(namespace) := MetadataFile(FaissMetadata.Dump(FaissMetadata.CreateMetadata(r.value.chunks)))]
  {
    var keys := TxtKeys(listing);
    var ok;
    ok, perFile := ChunkFiles(bucket, keys, tok);
    if !ok {
      r := Failure("cannot read an uploaded file");
      return;
    }
    var all := Flatten(perFile);
    FlattenAtLeast(perFile);
    if |all| > 0 && embedFault.Some? {
      r := Failure(embedFault.value);
      return;
    }
    var saved := Save(namespace, bucket, all);
    r := Success(saved);
  }

  /** The end of the handler, given the collected chunks: nothing to ingest
      writes nothing; otherwise the index and the metadata are written under
      `{ns}/index/`. Either way the reply counts the chunks. */
  method Save(namespace: string, bucket: Bucket, all: seq<map<string, Value>>) returns (out: Ingested)
    ensures out.chunks == all
    ensures out.response == Response(200, false, Stats(|all|))
    ensures |all| == 0 ==> out.bucket == bucket
    ensures |all| > 0 ==>
            out.bucket == bucket[IndexKey(namespace) := IndexFile]
                                [MetaKey(namespace) := MetadataFile(FaissMetadata.Dump(FaissMetadata.CreateMetadata(all)))]
  {
    if |all| == 0 {
      return Ingested(bucket, Response(200, false, Stats(0)), all);
    }
    var meta := FaissMetadata.CreateMetadata(all);
    var written := bucket[IndexKey(namespace) := IndexFile][MetaKey(namespace) := MetadataFile(FaissMetadata.Dump(meta))];
    out := Ingested(written, Response(200, false, Stats(|all|)), all);
  }
}

=== FILE: json.dfy ===
/** Decoded JSON values as the Python handlers and the page see them, and the
    HTTP response shape the Lambda handlers return. */
module Json {

  /** A decoded JSON value. Numbers are integers: no value the model reads is
      fractional (scores are kept opaque elsewhere). */
  datatype Value =
    | Null
    | Bool(b: bool)
    | Num(n: int)
    | Str(s: string)
    | Arr(items: seq<Value>)
    | Obj(fields: map<string, Value>)

  /** Python truthiness: `None`, `False`, `0`, `""`, `[]` and `{}` are false. */
  predicate Truthy(v: Value) {
    match v
    case Null => false
    case Bool(b) => b
    case Num(n) => n != 0
    case Str(s) => |s| > 0
    case Arr(items) => |items| > 0
    case Obj(fields) => |fields| > 0
  }

  /** `d.get(key, default)`. */
  function Get(d: map<string, Value>, key: string, default: Value): Value {
    if key in d then d[key] else default
  }

  /** A Lambda proxy response: the status code, whether it carries a
      `Content-Type: application/json` header, and the JSON body. */
  datatype Response = Response(statusCode: nat, jsonHeader: bool, body: map<string, Value>)

  /** `{"error": message}` with the given status and header choice. */
  function ErrorResponse(statusCode: nat, jsonHeader: bool, message: string): Response {
    Response(statusCode, jsonHeader, map["error" := Str(message)])
  }
}

=== FILE: legacy_message_store.dfy ===
/** The older, S3-only copy of the chat-history helpers. */
module LegacyMessageStore {
  import opened Wrappers
  import opened Json
  import opened Storage
  import MessageStore

  /** `save_message` of the S3-only copy: build the record (chunks only on an
      assistant message with a non-empty list), load the session's file
      (starting afresh when it is missing or unreadable), append, write back,
      and return the record. */
  function SaveMessage(
    bucket: Bucket, sessionId: string, role: string, content: string,
    chunks: Option<seq<Value>>, namespace: string, now: string
  ): (r: (Bucket, Message))
    ensures r.1.role == role && r.1.content == content && r.1.timestamp == now
    ensures r.1.chunks.Some? <==> role == "assistant" && chunks.Some? && |chunks.value| > 0
    ensures forall k :: k in bucket && k != MessageStore.MessagesKey(namespace, sessionId) ==> k in r.0 && r.0[k] == bucket[k]
  {
    var key := MessageStore.MessagesKey(namespace, sessionId);
    var withChunks := role == "assistant" && chunks.Some? && |chunks.value| > 0;
    var message := Message(role, content, now, if withChunks then chunks else None);
    var existing := if key in bucket then bucket[key] else Unreadable;
    var messages := match existing
      case MessageLog(ms) => ms
      case _ => [];
    (bucket[key := MessageLog(messages + [message])], message)
  }

  /** `get_messages` of the S3-only copy: no file means no history; a file
      that cannot be read raises. */
  function GetMessages(bucket: Bucket, sessionId: string, namespace: string): (r: Result<seq<Message>>)
    ensures MessageStore.MessagesKey(namespace, sessionId) !in bucket ==> r == Success([])
  {
    var key := MessageStore.MessagesKey(namespace, sessionId);
    if key !in bucket then Success([])
    else match bucket[key]
      case MessageLog(ms) => Success(ms)
      case _ => Failure("could not read " + key)
  }

  /** The S3-only copy saves exactly what the layered copy saves when no
      table name is configured: the same file contents and the same record. */
  lemma {:induction false} SaveAgreesWithLayer(
    bucket: Bucket, sessionId: string, role: string, content: string,
    chunks: Option<seq<Value>>, namespace: string, now: string, table: Table)
    ensures var legacy := SaveMessage(bucket, sessionId, role, content, chunks, namespace, now);
            var layered := MessageStore.SaveMessage(Store(bucket, table), sessionId, role, content, chunks, namespace, None, now);
            legacy.0 == layered.0.bucket && legacy.1 == layered.1
  {
    var legacy := SaveMessage(bucket, sessionId, role, content, chunks, namespace, now);
    var message := MessageStore.NewMessage(role, content, now, chunks);
    assert legacy.1 == message;
    var key := MessageStore.MessagesKey(namespace, sessionId);
    assert legacy.0[key] == MessageLog(MessageStore.StoredLog(bucket, key) + [message]);
  }

  /** The S3-only copy reads back exactly what the layered copy reads when no
      table name is configured. */
  lemma {:induction false} GetAgreesWithLayer(bucket: Bucket, sessionId: string, namespace: string, table: Table)
    ensures GetMessages(bucket, sessionId, namespace)
            == MessageStore.GetMessages(Store(bucket, table), sessionId, namespace, None)
  {
  }

  /** Reading back after a save gives the earlier history (empty when it was
      unreadable) followed by the saved record. */
  lemma {:induction false} GetAfterSave(
    bucket: Bucket, sessionId: string, role: string, content: string,
    chunks: Option<seq<Value>>, namespace: string, now: string)
    ensures var before := GetMessages(bucket, sessionId, namespace);
            var saved := SaveMessage(bucket, sessionId, role, content, chunks, namespace, now);
            GetMessages(saved.0, sessionId, namespace)
              == Success((if before.Success? then before.value else []) + [saved.1])
  {
    var table: Table := map[];
    SaveAgreesWithLayer(bucket, sessionId, role, content, chunks, namespace, now, table);
    var saved := SaveMessage(bucket, sessionId, role, content, chunks, namespace, now);
    GetAgreesWithLayer(bucket, sessionId, namespace, table);
    GetAgreesWithLayer(saved.0, sessionId, namespace, table);
    MessageStore.GetAfterSave(Store(bucket, table), sessionId, role, content, chunks, namespace, None, now);
  }
}

=== FILE: message_store.dfy ===
/** The chat-history helpers of the Lambda layer: messages go to a DynamoDB
    table when a table name is configured and to a per-session JSON file in
    S3 otherwise. */
module MessageStore {
  import opened Wrappers
  import opened Json
  import opened Storage

  // ---------------------------------------------------------------------------
  // Keys
  // ---------------------------------------------------------------------------

  /** The namespace actually used in partition keys: an empty one falls back
      to `"default"`. */
  function EffectiveNamespace(namespace: string): string {
    if namespace == "" then "default" else namespace
  }

  /** `_session_key`: the DynamoDB partition key of a session. */
  function SessionKey(namespace: string, sessionId: string): string {
    EffectiveNamespace(namespace) + "#" + sessionId
  }

  /** The position of the first `#` (the length when there is none). */
  function HashPos(s: string): nat
    decreases |s|
  {
    if |s| == 0 || s[0] == '#' then 0 else 1 + HashPos(s[1..])
  }

  /** In `a#b` with no `#` in `a`, the first `#` is the separator. */
  lemma {:induction false} HashPosJoin(a: string, b: string)
    requires '#' !in a
    ensures HashPos(a + "#" + b) == |a|
    decreases |a|
  {
    if |a| > 0 {
      assert (a + "#" + b)[1..] == a[1..] + "#" + b;
      HashPosJoin(a[1..], b);
    }
  }

  /** A key `a#b` with no `#` in `a` determines both halves. */
  lemma HashJoinInjective(a: string, b: string, c: string, d: string)
    requires '#' !in a && '#' !in c
    requires a + "#" + b == c + "#" + d
    ensures a == c && b == d
  {
    var s := a + "#" + b;
    HashPosJoin(a, b);
    HashPosJoin(c, d);
    assert a == s[..|a|] == c;
    assert b == s[|a| + 1..] == d;
  }

  /** Partition keys of sessions in namespaces without `#` never collide:
      equal keys mean the same effective namespace and the same session id. */
  lemma SessionKeyInjective(ns1: string, id1: string, ns2: string, id2: string)
    requires '#' !in ns1 && '#' !in ns2
    ensures SessionKey(ns1, id1) == SessionKey(ns2, id2)
            <==> EffectiveNamespace(ns1) == EffectiveNamespace(ns2) && id1 == id2
  {
    if SessionKey(ns1, id1) == SessionKey(ns2, id2) {
      HashJoinInjective(EffectiveNamespace(ns1), id1, EffectiveNamespace(ns2), id2);
    }
  }

  /** The S3 key of a session's message file. */
  function MessagesKey(namespace: string, sessionId: string): string {
    namespace + "/sessions/" + sessionId + "/messages.json"
  }

  // ---------------------------------------------------------------------------
  // Building a message
  // ---------------------------------------------------------------------------

  /** The record `save_message` stores: role, content and timestamp as given,
      and the chunks only for an assistant message with a non-empty list. */
  function NewMessage(role: string, content: string, timestamp: string, chunks: Option<seq<Value>>): (m: Message)
    ensures m.role == role && m.content == content && m.timestamp == timestamp
    ensures m.chunks.Some? <==> role == "assistant" && chunks.Some? && |chunks.value| > 0
    ensures m.chunks.Some? ==> m.chunks == chunks
  {
    var keep := role == "assistant" && chunks.Some? && |chunks.value| > 0;
    Message(role, content, timestamp, if keep then chunks else None)
  }

  // ---------------------------------------------------------------------------
  // S3 backend
  // ---------------------------------------------------------------------------

  /** The history `_save_message_s3` starts from: the stored list, or an empty
      one when the file is missing or cannot be read. */
  function StoredLog(bucket: Bucket, key: string): seq<Message> {
    if key in bucket && bucket[key].MessageLog? then bucket[key].messages else []
  }

  /** `_get_messages_s3`: an absent file is an empty history; a file that
      cannot be read raises. */
  function GetS3(bucket: Bucket, sessionId: string, namespace: string): Result<seq<Message>> {
    var key := MessagesKey(namespace, sessionId);
    if key !in bucket then Success([])
    else if bucket[key].MessageLog? then Success(bucket[key].messages)
    else Failure("could not read " + key)
  }

  /** `_save_message_s3`: append the message to the session's file. Only that
      one key is written, and reading the session back gives the earlier
      history (empty if it was unreadable) followed by the new message. */
  function SaveS3(bucket: Bucket, sessionId: string, namespace: string, message: Message): (r: Bucket)
    ensures forall k :: k in r <==> k in bucket || k == MessagesKey(namespace, sessionId)
    ensures forall k :: k in bucket && k != MessagesKey(namespace, sessionId) ==> r[k] == bucket[k]
    ensures var before := GetS3(bucket, sessionId, namespace);
            GetS3(r, sessionId, namespace) == Success((if before.Success? then before.value else []) + [message])
  {
    var key := MessagesKey(namespace, sessionId);
    bucket[key := MessageLog(StoredLog(bucket, key) + [message])]
  }

  // ---------------------------------------------------------------------------
  // DynamoDB backend
  // ---------------------------------------------------------------------------

  /** The projection `_get_messages_dynamo` applies to one item. */
  function MessageOf(item: Item): Message {
    Message(item.role, item.content, item.timestamp, item.chunks)
  }

  /** The item `_save_message_dynamo` writes: keyed by the session's partition
      key and the message timestamp, and projecting back to the message. */
  function ItemOf(namespace: string, sessionId: string, message: Message): (item: Item)
    ensures item.sessionKey == SessionKey(namespace, sessionId)
    ensures item.sessionId == sessionId && item.namespace == namespace
    ensures item.timestamp == message.timestamp
    ensures MessageOf(item) == message
  {
    Item(SessionKey(namespace, sessionId), sessionId, namespace,
         message.timestamp, message.role, message.content, message.chunks)
  }

  /** `_save_message_dynamo`: the item joins the session's partition. New
      items carry the latest timestamp, so they sort last. */
  function SaveDynamo(table: Table, sessionId: string, namespace: string, message: Message): (r: Table)
    ensures forall k :: k in r <==> k in table || k == SessionKey(namespace, sessionId)
    ensures forall k :: k in table && k != SessionKey(namespace, sessionId) ==> r[k] == table[k]
  {
    var key := SessionKey(namespace, sessionId);
    table[key := Partition(table, key) + [ItemOf(namespace, sessionId, message)]]
  }

  /** The pages of a paginated query, in order, as one list. */
  function Concat(pages: seq<seq<Item>>): seq<Item>
    decreases |pages|
  {
    if |pages| == 0 then [] else Concat(pages[..|pages| - 1]) + pages[|pages| - 1]
  }

  /** Every item projected to a message, in order. */
  function Project(items: seq<Item>): (messages: seq<Message>)
    ensures |messages| == |items|
    ensures forall i :: 0 <= i < |items| ==> messages[i] == MessageOf(items[i])
    decreases |items|
  {
    if |items| == 0 then []
    else Project(items[..|items| - 1]) + [MessageOf(items[|items| - 1])]
  }

  /** `_get_messages_dynamo`: collect the items of every page the paginated
      query returns, then project each to a message, keeping their order. */
  method GetDynamoPages(pages: seq<seq<Item>>) returns (messages: seq<Message>)
    ensures |messages| == |Concat(pages)|
    ensures forall i :: 0 <= i < |messages| ==> messages[i] == MessageOf(Concat(pages)[i])
  {
    var items: seq<Item> := [];
    var p := 0;
    while p < |pages|
      invariant p <= |pages|
      invariant items == Concat(pages[..p])
    {
      assert pages[..p + 1][..p] == pages[..p];
      items := items + pages[p];
      p := p + 1;
    }
    assert pages[..|pages|] == pages;
    messages := [];
    var i := 0;
    while i < |items|
      invariant i <= |items|
      invariant |messages| == i
      invariant forall j :: 0 <= j < i ==> messages[j] == MessageOf(items[j])
    {
      messages := messages + [MessageOf(items[i])];
      i := i + 1;
    }
  }

  /** The history a complete query returns for a session. */
  function GetDynamo(table: Table, sessionId: string, namespace: string): seq<Message> {
    Project(Partition(table, SessionKey(namespace, sessionId)))
  }

  /** Reading back after a DynamoDB save gives the earlier history followed by
      the new message. */
  lemma GetAfterSaveDynamo(table: Table, sessionId: string, namespace: string, message: Message)
    ensures GetDynamo(SaveDynamo(table, sessionId, namespace, message), sessionId, namespace)
            == GetDynamo(table, sessionId, namespace) + [message]
  {
    var items := Partition(table, SessionKey(namespace, sessionId));
    var after := items + [ItemOf(namespace, sessionId, message)];
    assert after[..|after| - 1] == items;
  }

  // ---------------------------------------------------------------------------
  // Dispatch
  // ---------------------------------------------------------------------------

  /** A table name is used only when it is truthy. */
  predicate UsesTable(tableName: Option<string>) {
    tableName.Some? && |tableName.value| > 0
  }

  /** `save_message`: build the record with the current time, then store it
      in the backend the table name selects. Returns the new stores and the
      stored record. */
  function SaveMessage(
    store: Store, sessionId: string, role: string, content: string,
    chunks: Option<seq<Value>>, namespace: string, tableName: Option<string>, now: string
  ): (r: (Store, Message))
    ensures r.1 == NewMessage(role, content, now, chunks)
    ensures UsesTable(tableName) ==> r.0.bucket == store.bucket
    ensures !UsesTable(tableName) ==> r.0.table == store.table
    ensures forall otherId, otherNamespace ::
              MessagesKey(otherNamespace, otherId) != MessagesKey(namespace, sessionId) &&
              SessionKey(otherNamespace, otherId) != SessionKey(namespace, sessionId)
              ==> GetMessages(r.0, otherId, otherNamespace, tableName)
                  == GetMessages(store, otherId, otherNamespace, tableName)
  {
    var message := NewMessage(role, content, now, chunks);
    if UsesTable(tableName) then
      (store.(table := SaveDynamo(store.table, sessionId, namespace, message)), message)
    else
      (store.(bucket := SaveS3(store.bucket, sessionId, namespace, message)), message)
  }

  /** `get_messages`, with the DynamoDB query read to its last page. */
  function GetMessages(store: Store, sessionId: string, namespace: string, tableName: Option<string>): Result<seq<Message>> {
    if UsesTable(tableName) then Success(GetDynamo(store.table, sessionId, namespace))
    else GetS3(store.bucket, sessionId, namespace)
  }

  /** Whichever backend is configured, reading a session back after saving a
      message to it gives the earlier history (empty when the S3 file was
      unreadable) with the new record last. */
  lemma {:induction false} GetAfterSave(
    store: Store, sessionId: string, role: string, content: string,
    chunks: Option<seq<Value>>, namespace: string, tableName: Option<string>, now: string)
    ensures var before := GetMessages(store, sessionId, namespace, tableName);
            var saved := SaveMessage(store, sessionId, role, content, chunks, namespace, tableName, now);
            GetMessages(saved.0, sessionId, namespace, tableName)
              == Success((if before.Success? then before.value else []) + [saved.1])
  {
    var message := NewMessage(role, content, now, chunks);
    var saved := SaveMessage(store, sessionId, role, content, chunks, namespace, tableName, now);
    if UsesTable(tableName) {
      GetAfterSaveDynamo(store.table, sessionId, namespace, message);
    } else {
      assert saved.0.bucket == SaveS3(store.bucket, sessionId, namespace, message);
    }
  }

  // ---------------------------------------------------------------------------
  // Chat-completion input
  // ---------------------------------------------------------------------------

  /** One entry of the chat-completion message list. */
  datatype ChatTurn = ChatTurn(role: string, content: string)

  /** `openai_messages`: the system prompt first, then each stored message's
      role and content in order; timestamps and chunks are dropped. */
  method OpenAiMessages(history: seq<Message>, systemPrompt: string) returns (turns: seq<ChatTurn>)
    ensures |turns| == |history| + 1
    ensures turns[0] == ChatTurn("system", systemPrompt)
    ensures forall i :: 0 <= i < |history| ==> turns[i + 1] == ChatTurn(history[i].role, history[i].content)
  {
    turns := [ChatTurn("system", systemPrompt)];
    var i := 0;
    while i < |history|
      invariant i <= |history|
      invariant |turns| == i + 1 && turns[0] == ChatTurn("system", systemPrompt)
      invariant forall j :: 0 <= j < i ==> turns[j + 1] == ChatTurn(history[j].role, history[j].content)
    {
      turns := turns + [ChatTurn(history[i].role, history[i].content)];
      i := i + 1;
    }
  }
}

=== FILE: page_model.dfy ===
/** The chat page's state and its pure helpers: session labels, the pending
    file list, and the remote calls a handler can issue. */
module PageModel {
  import opened Wrappers
  import opened Text
  import opened Json

  // ---------------------------------------------------------------------------
  // Records
  // ---------------------------------------------------------------------------

  datatype Role = User | Assistant

  /** A message in the page's history cache. */
  datatype ChatMessage = ChatMessage(role: Role, content: string, timestamp: string, chunks: Option<seq<Value>>)

  /** A chat session as the page keeps it. */
  datatype Session = Session(
    sessionId: string,
    createdAt: Option<string>,
    manifestKey: Option<string>,
    metadata: Option<map<string, Value>>,
    namespace: Option<string>)

  /** A file picked for upload: the fields the page reads. */
  datatype PendingFile = PendingFile(name: string, size: nat, lastModified: int, mimeType: string)

  /** The page state. The loading flag for history fetches is left out: it
      only drives rendering. */
  datatype PageState = PageState(
    pendingFiles: seq<PendingFile>,
    sessionUploads: map<string, seq<string>>,
    message: string,
    status: Option<string>,
    error: Option<string>,
    isUploading: bool,
    isQuerying: bool,
    isCreatingSession: bool,
    hasSessionAttempted: bool,
    sessions: seq<Session>,
    activeSessionId: Option<string>,
    sessionMessages: map<string, seq<ChatMessage>>)

  /** The state of a freshly mounted page. */
  const Initial := PageState([], map[], "", None, None, false, false, false, false, [], None, map[])

  /** The outcome of a remote call: a parsed reply, a non-OK HTTP status
      (with its status text), or a rejected promise (network failure or an
      unparsable body, with its message). */
  datatype Remote<+T> = Ok(value: T) | HttpError(statusText: string) | Rejected(message: string)

  /** A remote call a handler issues. */
  datatype Call =
    | CreateSessionCall
    | LoadMessagesCall(sessionId: string)
    | UploadUrlCall(sessionId: string, filename: string, contentType: string)
    | PutCall(url: string, headers: map<string, string>)
    | IngestCall(sessionId: string)
    | QueryCall(question: string, sessionId: string)

  /** The result of one handler: the next state and the calls it issued, in
      order. */
  datatype Step = Step(state: PageState, calls: seq<Call>)

  const MissingApiBase := "NEXT_PUBLIC_API_BASE_URL is not set."
  const NoSession := "Create or select a chat session first."

  // ---------------------------------------------------------------------------
  // Derived state
  // ---------------------------------------------------------------------------

  /** The first session with the given id. */
  function FindSession(sessions: seq<Session>, sessionId: string): (r: Option<Session>)
    ensures r.Some? ==> r.value in sessions && r.value.sessionId == sessionId
    ensures r.None? ==> forall i :: 0 <= i < |sessions| ==> sessions[i].sessionId != sessionId
    ensures r.Some? ==> exists i :: 0 <= i < |sessions| && r.value == sessions[i] &&
                          forall j :: 0 <= j < i ==> sessions[j].sessionId != sessionId
    decreases |sessions|
  {
    if |sessions| == 0 then None
    else if sessions[0].sessionId == sessionId then Some(sessions[0])
    else FindSession(sessions[1..], sessionId)
  }

  /** The active session, when the active id names a listed session. */
  function ActiveSession(s: PageState): Option<Session> {
    if s.activeSessionId.None? then None else FindSession(s.sessions, s.activeSessionId.value)
  }

  predicate HasSession(s: PageState) {
    s.activeSessionId.Some?
  }

  /** Uploading, querying or creating a session. */
  predicate Busy(s: PageState) {
    s.isUploading || s.isQuerying || s.isCreatingSession
  }

  // ---------------------------------------------------------------------------
  // Session labels
  // ---------------------------------------------------------------------------

  /** The session's metadata title, when it is a string that is not blank. */
  function Title(session: Session): Option<string> {
    if session.metadata.Some? && "title" in session.metadata.value
       && session.metadata.value["title"].Str?
       && Trim(session.metadata.value["title"].s) != ""
    then Some(session.metadata.value["title"].s)
    else None
  }

  /** `formatSessionLabel`: "session" for no session, else the title, else
      "chat " and the first eight characters of the id. The label is never
      blank. */
  function FormatSessionLabel(session: Option<Session>): (text: string)
    ensures session.None? ==> text == "session"
    ensures session.Some? && Title(session.value).Some? ==> text == Title(session.value).value
    ensures session.Some? && Title(session.value).None? ==>
            var id := session.value.sessionId;
            |text| == 5 + (if |id| < 8 then |id| else 8) && text[..5] == "chat " && StartsWith(id, text[5..])
    ensures Trim(text) != ""
  {
    match session
    case None =>
      TrimEmptyIffBlank("session");
      "session"
    case Some(sess) =>
      match Title(sess)
      case Some(title) => title
      case None =>
        var id := sess.sessionId;
        var text := "chat " + id[..if |id| < 8 then |id| else 8];
        assert text[5..] == id[..|text| - 5];
        assert !IsJsWhitespace(text[0]);
        TrimEmptyIffBlank(text);
        text
  }

  // ---------------------------------------------------------------------------
  // Pending files
  // ---------------------------------------------------------------------------

  /** The string the page de-duplicates pending files by. */
  function FileKey(f: PendingFile): string {
    f.name + "-" + NatToDecimal(f.size) + "-" + IntToDecimal(f.lastModified)
  }

  /** The comparison the remove button uses. */
  predicate SameFile(a: PendingFile, b: PendingFile) {
    a.name == b.name && a.size == b.size && a.lastModified == b.lastModified
  }

  /** The length of the run of digits at the end of a string. */
  function DigitRun(s: string): (n: nat)
    ensures n <= |s|
    decreases |s|
  {
    if |s| > 0 && IsDigit(s[|s| - 1]) then 1 + DigitRun(s[..|s| - 1]) else 0
  }

  lemma {:induction false} DigitRunAfterDash(x: string, d: string)
    requires AllDigits(d)
    ensures DigitRun(x + "-" + d) == |d|
    decreases |d|
  {
    var s := x + "-" + d;
    if |d| > 0 {
      assert s[..|s| - 1] == x + "-" + d[..|d| - 1];
      DigitRunAfterDash(x, d[..|d| - 1]);
    } else {
      assert s[|s| - 1] == '-';
    }
  }

  /** `x-d` with `d` all digits splits uniquely at its last dash. */
  lemma {:induction false} SplitAtDigits(x1: string, d1: string, x2: string, d2: string)
    requires AllDigits(d1) && AllDigits(d2)
    requires x1 + "-" + d1 == x2 + "-" + d2
    ensures x1 == x2 && d1 == d2
  {
    var s := x1 + "-" + d1;
    DigitRunAfterDash(x1, d1);
    DigitRunAfterDash(x2, d2);
    assert d1 == s[|s| - |d1|..] == d2;
    assert x1 == s[..|x1|] == x2;
  }

  function KeyHead(f: PendingFile): string {
    f.name + "-" + NatToDecimal(f.size)
  }

  lemma HeadEndsInDigit(f: PendingFile)
    ensures |KeyHead(f)| > 0 && IsDigit(KeyHead(f)[|KeyHead(f)| - 1])
  {
    var n := NatToDecimal(f.size);
    assert KeyHead(f)[|KeyHead(f)| - 1] == n[|n| - 1];
  }

  lemma NotDashEnded(x: string, y: string)
    requires |x| > 0 && IsDigit(x[|x| - 1])
    ensures x != y + "-"
  {
    assert (y + "-")[|y|] == '-';
  }

  /** Two files have the same key exactly when they have the same name, size
      and modification time, so the key the selection de-duplicates by and
      the fields the remove button compares agree. */
  lemma {:induction false} FileKeyInjective(a: PendingFile, b: PendingFile)
    ensures FileKey(a) == FileKey(b) <==> SameFile(a, b)
  {
    if FileKey(a) == FileKey(b) {
      var ha, hb := KeyHead(a), KeyHead(b);
      assert FileKey(a) == ha + "-" + IntToDecimal(a.lastModified);
      assert FileKey(b) == hb + "-" + IntToDecimal(b.lastModified);
      var na, nb := NatToDecimal(a.size), NatToDecimal(b.size);
      if a.lastModified >= 0 && b.lastModified >= 0 {
        SplitAtDigits(ha, NatToDecimal(a.lastModified), hb, NatToDecimal(b.lastModified));
        RenderInjective(a.lastModified, b.lastModified);
      } else if a.lastModified < 0 && b.lastModified < 0 {
        assert FileKey(a) == (ha + "-") + "-" + NatToDecimal(-a.lastModified);
        assert FileKey(b) == (hb + "-") + "-" + NatToDecimal(-b.lastModified);
        SplitAtDigits(ha + "-", NatToDecimal(-a.lastModified), hb + "-", NatToDecimal(-b.lastModified));
        RenderInjective(-a.lastModified, -b.lastModified);
        assert ha == (ha + "-")[..|ha|] == hb;
      } else if a.lastModified >= 0 {
        assert FileKey(b) == (hb + "-") + "-" + NatToDecimal(-b.lastModified);
        HeadEndsInDigit(a);
        NotDashEnded(ha, hb);
        SplitAtDigits(ha, NatToDecimal(a.lastModified), hb + "-", NatToDecimal(-b.lastModified));
        assert false;
      } else {
        assert FileKey(a) == (ha + "-") + "-" + NatToDecimal(-a.lastModified);
        HeadEndsInDigit(b);
        NotDashEnded(hb, ha);
        SplitAtDigits(ha + "-", NatToDecimal(-a.lastModified), hb, NatToDecimal(b.lastModified));
        assert false;
      }
      SplitAtDigits(a.name, na, b.name, nb);
      RenderInjective(a.size, b.size);
    }
  }
}

=== FILE: pending_files.dfy ===
/** The pending-file list and the uploaded-name lists of the chat page. */
module PendingFiles {
  import opened PageModel

  /** The keys of a file list. */
  function KeySet(files: seq<PendingFile>): set<string> {
    set f | f in files :: FileKey(f)
  }

  /** No two entries share a key. */
  predicate NoDupKeys(files: seq<PendingFile>) {
    forall i, j :: 0 <= i < j < |files| ==> FileKey(files[i]) != FileKey(files[j])
  }

  lemma KeySetSnoc(files: seq<PendingFile>, f: PendingFile)
    ensures KeySet(files + [f]) == KeySet(files) + {FileKey(f)}
  {
    assert forall g :: g in files + [f] <==> g in files || g == f;
  }

  /** Appending a file whose key is new keeps the keys distinct. */
  lemma NoDupSnoc(files: seq<PendingFile>, f: PendingFile)
    requires NoDupKeys(files) && FileKey(f) !in KeySet(files)
    ensures NoDupKeys(files + [f])
  {
    forall i | 0 <= i < |files| ensures FileKey(files[i]) != FileKey(f) {
      assert files[i] in files;
    }
  }

  /** Merging a selection into the pending list, one selected file at a time:
      a file is appended when its key is not yet in the list. */
  function MergePending(prev: seq<PendingFile>, selected: seq<PendingFile>): seq<PendingFile>
    decreases |selected|
  {
    if |selected| == 0 then prev
    else
      var m := MergePending(prev, selected[..|selected| - 1]);
      var f := selected[|selected| - 1];
      if FileKey(f) in KeySet(m) then m else m + [f]
  }

  /** The existing entries stay first, in their order. */
  lemma {:induction false} MergeKeepsPrefix(prev: seq<PendingFile>, selected: seq<PendingFile>)
    ensures |MergePending(prev, selected)| >= |prev|
    ensures MergePending(prev, selected)[..|prev|] == prev
    decreases |selected|
  {
    if |selected| > 0 {
      MergeKeepsPrefix(prev, selected[..|selected| - 1]);
    }
  }

  /** The merged keys are the old keys plus the selected ones: every selected
      file is represented, by itself or by an entry with the same key. */
  lemma {:induction false} MergeKeys(prev: seq<PendingFile>, selected: seq<PendingFile>)
    ensures KeySet(MergePending(prev, selected)) == KeySet(prev) + KeySet(selected)
    decreases |selected|
  {
    if |selected| > 0 {
      var init := selected[..|selected| - 1];
      var f := selected[|selected| - 1];
      assert selected == init + [f];
      KeySetSnoc(init, f);
      MergeKeys(prev, init);
      KeySetSnoc(MergePending(prev, init), f);
    }
  }

  /** Every appended entry is a selected file whose key was not already
      pending. */
  lemma {:induction false} MergeAppendsNew(prev: seq<PendingFile>, selected: seq<PendingFile>)
    ensures var merged := MergePending(prev, selected);
            forall i :: |prev| <= i < |merged| ==> merged[i] in selected && FileKey(merged[i]) !in KeySet(prev)
    decreases |selected|
  {
    if |selected| > 0 {
      var init := selected[..|selected| - 1];
      var f := selected[|selected| - 1];
      assert selected == init + [f];
      MergeAppendsNew(prev, init);
      MergeKeys(prev, init);
      MergeKeepsPrefix(prev, init);
    }
  }

  /** The merge never creates two entries with the same key. */
  lemma {:induction false} MergeNoDup(prev: seq<PendingFile>, selected: seq<PendingFile>)
    requires NoDupKeys(prev)
    ensures NoDupKeys(MergePending(prev, selected))
    decreases |selected|
  {
    if |selected| > 0 {
      var init := selected[..|selected| - 1];
      var f := selected[|selected| - 1];
      MergeNoDup(prev, init);
      var m := MergePending(prev, init);
      if FileKey(f) !in KeySet(m) {
        NoDupSnoc(m, f);
      }
    }
  }

  /** The merge loop of the file-selection handler: a key set seeded with the
      existing keys, and each selected file appended when its key is new. It
      computes exactly `MergePending`. */
  method MergeSelection(prev: seq<PendingFile>, selected: seq<PendingFile>) returns (merged: seq<PendingFile>)
    ensures merged == MergePending(prev, selected)
  {
    var existingKeys := set f | f in prev :: FileKey(f);
    merged := prev;
    var i := 0;
    while i < |selected|
      invariant i <= |selected|
      invariant merged == MergePending(prev, selected[..i])
      invariant existingKeys == KeySet(merged)
    {
      var key := FileKey(selected[i]);
      assert selected[..i + 1][..i] == selected[..i];
      if key !in existingKeys {
        KeySetSnoc(merged, selected[i]);
        merged := merged + [selected[i]];
        existingKeys := existingKeys + {key};
      }
      i := i + 1;
    }
    assert selected[..|selected|] == selected;
  }

  /** The remove button's filter: drop every entry with the target's name,
      size and modification time. */
  function RemovePending(prev: seq<PendingFile>, target: PendingFile): seq<PendingFile>
    decreases |prev|
  {
    if |prev| == 0 then []
    else
      var r := RemovePending(prev[..|prev| - 1], target);
      var f := prev[|prev| - 1];
      if SameFile(f, target) then r else r + [f]
  }

  /** Exactly the matching entries go: none is left, and every other file
      keeps its number of occurrences. */
  lemma {:induction false} RemoveExact(prev: seq<PendingFile>, target: PendingFile)
    ensures var r := RemovePending(prev, target);
            && (forall i :: 0 <= i < |r| ==> !SameFile(r[i], target))
            && (forall f :: !SameFile(f, target) ==> multiset(r)[f] == multiset(prev)[f])
    decreases |prev|
  {
    if |prev| > 0 {
      var init := prev[..|prev| - 1];
      assert prev == init + [prev[|prev| - 1]];
      RemoveExact(init, target);
    }
  }

  /** Removal works piecewise: survivors keep their relative order. */
  lemma {:induction false} RemoveConcat(a: seq<PendingFile>, b: seq<PendingFile>, target: PendingFile)
    ensures RemovePending(a + b, target) == RemovePending(a, target) + RemovePending(b, target)
    decreases |b|
  {
    if |b| > 0 {
      var init := b[..|b| - 1];
      assert (a + b)[..|a + b| - 1] == a + init;
      assert (a + b)[|a + b| - 1] == b[|b| - 1];
      RemoveConcat(a, init, target);
    } else {
      assert a + b == a;
    }
  }

  /** Removal only drops entries: whatever is left was there before, so the
      keys left are keys of the original list. */
  lemma {:induction false} RemoveSubset(prev: seq<PendingFile>, target: PendingFile)
    ensures forall g :: g in RemovePending(prev, target) ==> g in prev
    ensures KeySet(RemovePending(prev, target)) <= KeySet(prev)
    decreases |prev|
  {
    if |prev| > 0 {
      var init := prev[..|prev| - 1];
      assert prev == init + [prev[|prev| - 1]];
      RemoveSubset(init, target);
    }
  }

  /** Distinct keys stay distinct after a removal. */
  lemma {:induction false} RemoveNoDup(prev: seq<PendingFile>, target: PendingFile)
    requires NoDupKeys(prev)
    ensures NoDupKeys(RemovePending(prev, target))
    decreases |prev|
  {
    if |prev| > 0 {
      var init := prev[..|prev| - 1];
      var f := prev[|prev| - 1];
      assert prev == init + [f];
      assert NoDupKeys(init) by {
        forall i, j | 0 <= i < j < |init| ensures FileKey(init[i]) != FileKey(init[j]) {
          assert init[i] == prev[i] && init[j] == prev[j];
        }
      }
      RemoveNoDup(init, target);
      var r := RemovePending(init, target);
      if !SameFile(f, target) {
        RemoveSubset(init, target);
        assert FileKey(f) !in KeySet(r) by {
          forall g | g in r ensures FileKey(g) != FileKey(f) {
            var j :| 0 <= j < |init| && init[j] == g;
            assert prev[j] == g;
          }
        }
        NoDupSnoc(r, f);
      }
    }
  }

  // ---------------------------------------------------------------------------
  // Uploaded names
  // ---------------------------------------------------------------------------

  predicate NoDup(xs: seq<string>) {
    forall i, j :: 0 <= i < j < |xs| ==> xs[i] != xs[j]
  }

  /** `Array.from(new Set(xs))`: each name once, at its first occurrence. */
  function Dedup(xs: seq<string>): (r: seq<string>)
    ensures NoDup(r)
    ensures forall x :: x in r <==> x in xs
    decreases |xs|
  {
    if |xs| == 0 then []
    else
      var init := xs[..|xs| - 1];
      var x := xs[|xs| - 1];
      assert xs == init + [x];
      var d := Dedup(init);
      if x in d then d else d + [x]
  }

  /** De-duplicating a longer list keeps the de-duplicated prefix in place:
      names uploaded earlier keep their order. */
  lemma {:induction false} DedupPrefix(a: seq<string>, b: seq<string>)
    ensures |Dedup(a + b)| >= |Dedup(a)| && Dedup(a + b)[..|Dedup(a)|] == Dedup(a)
    decreases |b|
  {
    if |b| > 0 {
      var init := b[..|b| - 1];
      assert (a + b)[..|a + b| - 1] == a + init;
      DedupPrefix(a, init);
    } else {
      assert a + b == a;
    }
  }

  /** A list without repeats is its own de-duplication. */
  lemma {:induction false} DedupFixed(xs: seq<string>)
    requires NoDup(xs)
    ensures Dedup(xs) == xs
    decreases |xs|
  {
    if |xs| > 0 {
      var init := xs[..|xs| - 1];
      DedupFixed(init);
      assert xs == init + [xs[|xs| - 1]];
    }
  }
}

=== FILE: pipeline.dfy ===
/** Facts that span several handlers: where the session files live relative
    to the folder ingest reads, and how a query hit finds the metadata ingest
    wrote. */
module Pipeline {
  import opened Wrappers
  import opened Text
  import opened Json
  import FaissMetadata
  import MessageStore
  import CreateSessionHandler
  import UploadUrlHandler
  import IngestHandler
  import QueryHandler

  /** The folder holding every per-session object. */
  function SessionsPrefix(namespace: string): string {
    namespace + "/sessions/"
  }

  /** The manifest, the message file and every upload of a session all lie in
      the sessions folder. */
  lemma {:induction false} SessionFilesInSessionsFolder(namespace: string, sessionId: string, filename: string)
    ensures StartsWith(CreateSessionHandler.ManifestKey(namespace, sessionId), SessionsPrefix(namespace))
    ensures StartsWith(MessageStore.MessagesKey(namespace, sessionId), SessionsPrefix(namespace))
    ensures StartsWith(UploadUrlHandler.UploadKey(namespace, sessionId, filename), SessionsPrefix(namespace))
  {
    var p := SessionsPrefix(namespace);
    assert CreateSessionHandler.ManifestKey(namespace, sessionId)[..|p|] == p;
    assert MessageStore.MessagesKey(namespace, sessionId)[..|p|] == p;
    assert UploadUrlHandler.UploadKey(namespace, sessionId, filename)[..|p|] == p;
  }

  /** Nothing in the sessions folder is in the folder ingest lists. */
  lemma {:induction false} SessionsNotUploads(namespace: string, key: string)
    requires StartsWith(key, SessionsPrefix(namespace))
    ensures !StartsWith(key, IngestHandler.UploadsPrefix(namespace))
  {
    var n := |namespace| + 1;
    assert key[n] == SessionsPrefix(namespace)[n] == 's';
    assert IngestHandler.UploadsPrefix(namespace)[n] == 'u';
  }

  /** A presigned upload from the page never lands where ingest looks. */
  lemma {:induction false} UploadsNeverIngested(namespace: string, sessionId: string, filename: string)
    ensures !StartsWith(UploadUrlHandler.UploadKey(namespace, sessionId, filename), IngestHandler.UploadsPrefix(namespace))
  {
    SessionFilesInSessionsFolder(namespace, sessionId, filename);
    SessionsNotUploads(namespace, UploadUrlHandler.UploadKey(namespace, sessionId, filename));
  }

  /** `listing` is a listing of the bucket's keys under `prefix`. */
  ghost predicate ListsUnder(listing: seq<string>, keys: set<string>, prefix: string) {
    forall k :: k in listing <==> k in keys && StartsWith(k, prefix)
  }

  /** When every object in the bucket belongs to some session (manifests,
      message files, uploads through presigned URLs), ingest finds no key to
      process, so by its contract it indexes nothing and writes nothing. */
  lemma {:induction false} IngestSeesNoSessionFiles(namespace: string, keys: set<string>, listing: seq<string>)
    requires ListsUnder(listing, keys, IngestHandler.UploadsPrefix(namespace))
    requires forall k :: k in keys ==> StartsWith(k, SessionsPrefix(namespace))
    ensures IngestHandler.TxtKeys(listing) == []
  {
    if |IngestHandler.TxtKeys(listing)| > 0 {
      var k := IngestHandler.TxtKeys(listing)[0];
      assert k in listing;
      SessionsNotUploads(namespace, k);
      assert false;
    }
  }

  /** The metadata record a query finds for vector id `id` in the metadata
      that ingest saved for `chunks`: the id-th chunk's record when the id is
      one of the chunk positions, and none otherwise (including FAISS's -1
      for an unfilled slot). */
  lemma {:induction false} QueryFindsIngested(chunks: seq<map<string, Value>>, id: int)
    ensures var meta := FaissMetadata.Dump(FaissMetadata.CreateMetadata(chunks));
            QueryHandler.RecordFor(meta, id)
              == if 0 <= id < |chunks| then Some(FaissMetadata.EntryOf(chunks[id])) else None
  {
    var metadata := FaissMetadata.CreateMetadata(chunks);
    var meta := FaissMetadata.Dump(metadata);
    var key := IntToDecimal(id);
    if 0 <= id < |chunks| {
      assert key == NatToDecimal(id);
    } else if key in meta {
      FaissMetadata.DumpKeys(metadata, key);
      if id >= 0 {
        RenderInjective(id, ParseDecimal(key));
      }
      assert false;
    }
  }

  /** A query hit on the vector of chunk `i` cites the file that chunk was cut
      from. */
  lemma {:induction false} HitCitesIngestedFile(chunks: seq<map<string, Value>>, i: nat, score: real)
    requires i < |chunks| && "source" in chunks[i]
    ensures var meta := FaissMetadata.Dump(FaissMetadata.CreateMetadata(chunks));
            QueryHandler.CiteHit(meta, QueryHandler.Hit(score, i)).source == chunks[i]["source"]
  {
    QueryFindsIngested(chunks, i);
  }
}

=== FILE: query.dfy ===
/** The query Lambda: nearest-chunk search over the saved index, answered
    with one citation per hit. */
module QueryHandler {
  import opened Wrappers
  import opened Text
  import opened Json
  import FaissMetadata

  /** The request fields the handler reads; `None` for a missing field. */
  datatype Request = Request(question: Option<string>, k: Option<int>)

  /** The number of neighbours asked for when the request gives none. */
  const DefaultK := 5

  /** One search result: a similarity score and a vector id (FAISS reports
      -1 for a slot it could not fill). */
  datatype Hit = Hit(score: real, id: int)

  /** One citation in the answer. `source` and `page` are `Null` when the id
      has no metadata record. */
  datatype Citation = Citation(source: Value, page: Value, score: real)

  /** The answer: a 400 with an error, or a 200 whose `answer` is always
      `null` and whose `chunks` are the citations. */
  datatype Reply = BadRequest(error: string) | Found(chunks: seq<Citation>)

  function StatusCode(reply: Reply): nat {
    if reply.BadRequest? then 400 else 200
  }

  /** The metadata record saved for a vector id: the loaded metadata is keyed
      by the id's decimal text. */
  function RecordFor(meta: map<string, FaissMetadata.Entry>, id: int): Option<FaissMetadata.Entry> {
    var key := IntToDecimal(id);
    if key in meta then Some(meta[key]) else None
  }

  /** The citation for one hit: source and page of its record, or `Null`s
      when there is none, with the hit's score. */
  function CiteHit(meta: map<string, FaissMetadata.Entry>, hit: Hit): (c: Citation)
    ensures c.score == hit.score
    ensures RecordFor(meta, hit.id).None? ==> c.source == Null && c.page == Null
    ensures RecordFor(meta, hit.id).Some? ==>
            c.source == RecordFor(meta, hit.id).value.source && c.page == RecordFor(meta, hit.id).value.page
  {
    match RecordFor(meta, hit.id)
    case None => Citation(Null, Null, hit.score)
    case Some(entry) => Citation(entry.source, entry.page, hit.score)
  }

  /** The search the handler asks for: the question and the neighbour count. */
  datatype Search = Search(question: string, k: int)

  /** The handler. `meta` is the loaded metadata (the cached copy on a warm
      start) and `search` stands for embedding the question and querying the
      index. Returns the reply and the search performed, if any. An absent or
      empty question is a 400 and no search is made. Otherwise the search uses
      the given `k` (5 when absent), and the reply holds one citation per hit,
      in the order the index returned them. */
  function Handle(request: Request, meta: map<string, FaissMetadata.Entry>, search: Search -> seq<Hit>)
    : (r: (Reply, Option<Search>))
    ensures request.question.None? || request.question.value == "" <==> r.0.BadRequest?
    ensures r.0.BadRequest? ==> r.0.error == "question required" && r.1.None?
    ensures r.0.Found? ==>
            && r.1 == Some(Search(request.question.value, request.k.GetOr(DefaultK)))
            && |r.0.chunks| == |search(r.1.value)|
            && forall i :: 0 <= i < |r.0.chunks| ==> r.0.chunks[i] == CiteHit(meta, search(r.1.value)[i])
  {
    var question := request.question.GetOr("");
    var k := request.k.GetOr(DefaultK);
    if question == "" then (BadRequest("question required"), None)
    else
      var hits := search(Search(question, k));
      (Found(seq(|hits|, i requires 0 <= i < |hits| => CiteHit(meta, hits[i]))), Some(Search(question, k)))
  }
}

=== FILE: session_flow.dfy ===
/** The session side of the chat page: creating a session, the first-load
    bootstrap, switching sessions, loading history, and picking files. */
module SessionFlow {
  import opened Wrappers
  import opened Text
  import opened Json
  import opened PageModel
  import opened PendingFiles

  // ---------------------------------------------------------------------------
  // The page invariant
  // ---------------------------------------------------------------------------

  /** No two listed sessions share an id. */
  predicate UniqueIds(sessions: seq<Session>) {
    forall i, j :: 0 <= i < j < |sessions| ==> sessions[i].sessionId != sessions[j].sessionId
  }

  /** What every handler keeps: pending files have distinct keys, listed
      sessions have distinct ids, and the active session has an uploads
      entry. */
  predicate Consistent(s: PageState) {
    && NoDupKeys(s.pendingFiles)
    && UniqueIds(s.sessions)
    && (s.activeSessionId.Some? ==> s.activeSessionId.value in s.sessionUploads)
  }

  lemma InitialConsistent()
    ensures Consistent(Initial)
  {
  }

  // ---------------------------------------------------------------------------
  // Creating a session
  // ---------------------------------------------------------------------------

  /** The session list without any entry for `sessionId`, order kept. */
  function WithoutSession(sessions: seq<Session>, sessionId: string): (r: seq<Session>)
    ensures forall x :: x in r <==> x in sessions && x.sessionId != sessionId
    decreases |sessions|
  {
    if |sessions| == 0 then []
    else
      var init := sessions[..|sessions| - 1];
      var last := sessions[|sessions| - 1];
      assert sessions == init + [last];
      var r := WithoutSession(init, sessionId);
      if last.sessionId == sessionId then r else r + [last]
  }

  /** Filtering keeps ids distinct. */
  lemma {:induction false} WithoutUnique(sessions: seq<Session>, sessionId: string)
    requires UniqueIds(sessions)
    ensures UniqueIds(WithoutSession(sessions, sessionId))
    decreases |sessions|
  {
    if |sessions| > 0 {
      var n := |sessions| - 1;
      var init := sessions[..n];
      var last := sessions[n];
      assert forall i :: 0 <= i < n ==> init[i] == sessions[i];
      WithoutUnique(init, sessionId);
      var r := WithoutSession(init, sessionId);
      if last.sessionId != sessionId {
        var r2 := r + [last];
        forall i, j | 0 <= i < j < |r2| ensures r2[i].sessionId != r2[j].sessionId {
          if j == |r| {
            assert r2[i] == r[i] && r[i] in init;
            var k :| 0 <= k < n && init[k] == r[i];
            assert sessions[k] == r2[i];
          } else {
            assert r2[i] == r[i] && r2[j] == r[j];
          }
        }
      }
    }
  }

  /** Filtering a list with distinct ids and putting the session in front
      gives a list with distinct ids again. */
  lemma {:induction false} PrependUnique(sessions: seq<Session>, session: Session)
    requires UniqueIds(sessions)
    ensures UniqueIds([session] + WithoutSession(sessions, session.sessionId))
  {
    var rest := WithoutSession(sessions, session.sessionId);
    WithoutUnique(sessions, session.sessionId);
    var r := [session] + rest;
    forall i, j | 0 <= i < j < |r| ensures r[i].sessionId != r[j].sessionId {
      assert r[j] == rest[j - 1];
      if i == 0 {
        assert rest[j - 1] in rest;
      } else {
        assert r[i] == rest[i - 1];
      }
    }
  }

  /** The upload map with an entry for `sessionId`, an existing one kept. */
  function EnsureUploads(uploads: map<string, seq<string>>, sessionId: string): map<string, seq<string>> {
    if sessionId in uploads then uploads else uploads[sessionId := []]
  }

  /** `createSession`. Without an API base URL only the error is set and no
      call is made. Otherwise one create call is made; on success the new
      session goes first (any older entry with its id removed) and becomes
      active with an empty history and a kept-or-empty uploads entry, the
      input and pending files are cleared and the status names the session;
      on failure the status is cleared, the error shown, and the attempt
      recorded so the bootstrap does not fire again. */
  function CreateSession(s: PageState, apiBase: string, outcome: Remote<Session>): Step {
    if apiBase == "" then Step(s.(error := Some(MissingApiBase)), [])
    else match outcome
      case Ok(session) =>
        var id := session.sessionId;
        Step(s.(
          sessions := [session] + WithoutSession(s.sessions, id),
          activeSessionId := Some(id),
          sessionUploads := EnsureUploads(s.sessionUploads, id),
          sessionMessages := s.sessionMessages[id := []],
          message := "",
          pendingFiles := [],
          status := Some("Created " + FormatSessionLabel(Some(session)) + "."),
          error := None,
          isCreatingSession := false), [CreateSessionCall])
      case HttpError(statusText) => CreateFailed(s, "Failed to create session: " + statusText)
      case Rejected(message) => CreateFailed(s, message)
  }

  function CreateFailed(s: PageState, details: string): Step {
    Step(s.(status := None, error := Some(details), hasSessionAttempted := true, isCreatingSession := false),
         [CreateSessionCall])
  }

  /** A successful create puts the session first, alone with its id, makes it
      active with an empty history, keeps or creates its uploads entry, keeps
      every other session in order, and clears input and pending files. */
  lemma {:induction false} CreateSessionSucceeds(s: PageState, apiBase: string, session: Session)
    requires apiBase != ""
    ensures var r := CreateSession(s, apiBase, Ok(session));
            var id := session.sessionId;
            && r.calls == [CreateSessionCall]
            && r.state.sessions[0] == session
            && (forall i :: 1 <= i < |r.state.sessions| ==> r.state.sessions[i].sessionId != id)
            && (forall x :: x in r.state.sessions[1..] <==> x in s.sessions && x.sessionId != id)
            && r.state.activeSessionId == Some(id)
            && id in r.state.sessionUploads
            && r.state.sessionUploads[id] == (if id in s.sessionUploads then s.sessionUploads[id] else [])
            && r.state.sessionMessages[id] == []
            && r.state.message == "" && r.state.pendingFiles == []
            && r.state.error == None && !r.state.isCreatingSession
  {
    var r := CreateSession(s, apiBase, Ok(session));
    var rest := WithoutSession(s.sessions, session.sessionId);
    assert r.state.sessions[1..] == rest;
    forall i | 1 <= i < |r.state.sessions| ensures r.state.sessions[i].sessionId != session.sessionId {
      assert r.state.sessions[i] in rest;
    }
  }

  /** A failed create changes no session data, shows the error, clears the
      status and records the attempt. */
  lemma CreateSessionFails(s: PageState, apiBase: string, outcome: Remote<Session>)
    requires apiBase != "" && !outcome.Ok?
    ensures var r := CreateSession(s, apiBase, outcome);
            && r.calls == [CreateSessionCall]
            && r.state == s.(status := None, error := r.state.error, hasSessionAttempted := true, isCreatingSession := false)
            && r.state.error == Some(if outcome.HttpError? then "Failed to create session: " + outcome.statusText else outcome.message)
  {
  }

  /** The new-chat button: creates a session unless the page is busy. */
  function NewChat(s: PageState, apiBase: string, outcome: Remote<Session>): (r: Step)
    ensures Busy(s) ==> r == Step(s, [])
    ensures !Busy(s) && apiBase == "" ==> r == Step(s.(error := Some(MissingApiBase)), [])
    ensures !Busy(s) && apiBase != "" ==>
            && r.calls == [CreateSessionCall] && !r.state.isCreatingSession
            && (r.state.error.None? <==> outcome.Ok?)
            && (outcome.Ok? ==> r.state.activeSessionId == Some(outcome.value.sessionId))
            && (!outcome.Ok? ==> r.state.hasSessionAttempted)
  {
    if Busy(s) then Step(s, []) else CreateSession(s, apiBase, outcome)
  }

  // ---------------------------------------------------------------------------
  // Bootstrap
  // ---------------------------------------------------------------------------

  /** The condition under which the page creates a first session by itself. */
  predicate BootstrapDue(s: PageState) {
    !s.hasSessionAttempted && |s.sessions| == 0 && !s.isCreatingSession
  }

  /** The bootstrap effect: without an API base URL it only sets the error;
      when due it records the attempt and then creates a session; otherwise
      it does nothing. */
  function Bootstrap(s: PageState, apiBase: string, outcome: Remote<Session>): (r: Step)
    ensures |r.calls| <= 1
    ensures r.calls != [] <==> apiBase != "" && BootstrapDue(s)
  {
    if apiBase == "" then Step(s.(error := Some(MissingApiBase)), [])
    else if BootstrapDue(s) then CreateSession(s.(hasSessionAttempted := true), apiBase, outcome)
    else Step(s, [])
  }

  /** However the first attempt ends, the bootstrap never creates a second
      session: after it, the effect is no longer due. */
  lemma {:induction false} BootstrapOnce(s: PageState, apiBase: string, first: Remote<Session>, second: Remote<Session>)
    ensures var r := Bootstrap(s, apiBase, first);
            !BootstrapDue(r.state) || apiBase == "" || !BootstrapDue(s)
    ensures var r := Bootstrap(s, apiBase, first);
            BootstrapDue(s) && apiBase != "" ==> Bootstrap(r.state, apiBase, second).calls == []
  {
    if apiBase != "" && BootstrapDue(s) {
      var s1 := s.(hasSessionAttempted := true);
      match first
      case Ok(session) =>
        CreateSessionSucceeds(s1, apiBase, session);
      case HttpError(_) =>
        CreateSessionFails(s1, apiBase, first);
      case Rejected(_) =>
        CreateSessionFails(s1, apiBase, first);
    }
  }

  // ---------------------------------------------------------------------------
  // History and switching
  // ---------------------------------------------------------------------------

  /** `loadMessages`: without an API base URL nothing happens; otherwise one
      fetch is made and the session's cache entry is set to the returned
      list (empty when the reply has none) or to the empty list when the
      fetch fails. Nothing else changes. */
  function LoadMessages(s: PageState, apiBase: string, sessionId: string, outcome: Remote<Option<seq<ChatMessage>>>): (r: Step)
    ensures apiBase == "" ==> r == Step(s, [])
    ensures apiBase != "" ==>
            && r.calls == [LoadMessagesCall(sessionId)]
            && r.state == s.(sessionMessages := r.state.sessionMessages)
            && r.state.sessionMessages.Keys == s.sessionMessages.Keys + {sessionId}
            && (forall k :: k in s.sessionMessages && k != sessionId ==> r.state.sessionMessages[k] == s.sessionMessages[k])
            && r.state.sessionMessages[sessionId] == (if outcome.Ok? then outcome.value.GetOr([]) else [])
  {
    if apiBase == "" then Step(s, [])
    else
      var loaded := match outcome
        case Ok(messages) => messages.GetOr([])
        case _ => [];
      Step(s.(sessionMessages := s.sessionMessages[sessionId := loaded]), [LoadMessagesCall(sessionId)])
  }

  /** `handleSelectSession`. */
  function SelectSession(s: PageState, apiBase: string, sessionId: string, outcome: Remote<Option<seq<ChatMessage>>>): Step {
    if s.activeSessionId == Some(sessionId) || Busy(s) then Step(s, [])
    else
      var found := FindSession(s.sessions, sessionId);
      var s1 := s.(
        activeSessionId := Some(sessionId),
        message := "",
        pendingFiles := [],
        error := None,
        sessionUploads := EnsureUploads(s.sessionUploads, sessionId),
        status := if found.Some? then Some("Switched to " + FormatSessionLabel(found) + ".") else None);
      if sessionId !in s.sessionMessages then LoadMessages(s1, apiBase, sessionId, outcome)
      else Step(s1, [])
  }

  /** Selecting the active session, or any session while busy, changes
      nothing. Otherwise the session becomes active with input, pending files
      and error cleared and an uploads entry ensured (an existing one kept);
      its history is fetched exactly when it has no cache entry, and a failed
      fetch caches an empty history. */
  lemma {:induction false} SelectSessionEffect(s: PageState, apiBase: string, sessionId: string, outcome: Remote<Option<seq<ChatMessage>>>)
    ensures var r := SelectSession(s, apiBase, sessionId, outcome);
            s.activeSessionId == Some(sessionId) || Busy(s) ==> r == Step(s, [])
    ensures var r := SelectSession(s, apiBase, sessionId, outcome);
            s.activeSessionId != Some(sessionId) && !Busy(s) ==>
            && r.state.activeSessionId == Some(sessionId)
            && r.state.message == "" && r.state.pendingFiles == [] && r.state.error == None
            && r.state.sessions == s.sessions
            && r.state.sessionUploads == EnsureUploads(s.sessionUploads, sessionId)
            && (r.calls != [] <==> sessionId !in s.sessionMessages && apiBase != "")
            && (sessionId in s.sessionMessages ==> r.state.sessionMessages == s.sessionMessages)
            && (r.calls != [] && !outcome.Ok? ==> r.state.sessionMessages[sessionId] == [])
  {
  }

  // ---------------------------------------------------------------------------
  // Picking files
  // ---------------------------------------------------------------------------

  const AttachNeedsSession := "Create or select a chat session before attaching files."

  /** `handleFileSelection`: without an active session only the error is
      set; an empty selection changes nothing; otherwise the selection is
      merged into the pending list and status and error are cleared. */
  function HandleFileSelection(s: PageState, selected: seq<PendingFile>): PageState {
    if !HasSession(s) then s.(error := Some(AttachNeedsSession))
    else if |selected| == 0 then s
    else s.(pendingFiles := MergePending(s.pendingFiles, selected), status := None, error := None)
  }

  /** `handleRemovePendingFile`. */
  function HandleRemovePendingFile(s: PageState, target: PendingFile): PageState {
    s.(pendingFiles := RemovePending(s.pendingFiles, target))
  }

  /** `handleOpenFilePicker`: without an active session only the error is
      set; otherwise the state is unchanged (the picker opens). */
  function OpenFilePicker(s: PageState): (r: PageState)
    ensures HasSession(s) ==> r == s
    ensures !HasSession(s) ==> r == s.(error := Some(NoSession))
  {
    if HasSession(s) then s else s.(error := Some(NoSession))
  }

  /** A selection keeps the pending list's order and merges only new keys;
      without a session it changes only the error. */
  lemma {:induction false} FileSelectionEffect(s: PageState, selected: seq<PendingFile>)
    ensures !HasSession(s) ==> HandleFileSelection(s, selected) == s.(error := Some(AttachNeedsSession))
    ensures var r := HandleFileSelection(s, selected);
            && |r.pendingFiles| >= |s.pendingFiles|
            && r.pendingFiles[..|s.pendingFiles|] == s.pendingFiles
            && KeySet(r.pendingFiles) == KeySet(s.pendingFiles) + (if HasSession(s) then KeySet(selected) else {})
  {
    if HasSession(s) {
      MergeKeepsPrefix(s.pendingFiles, selected);
      MergeKeys(s.pendingFiles, selected);
    }
  }

  // ---------------------------------------------------------------------------
  // The invariant is kept
  // ---------------------------------------------------------------------------

  lemma {:induction false} CreateSessionConsistent(s: PageState, apiBase: string, outcome: Remote<Session>)
    requires Consistent(s)
    ensures Consistent(CreateSession(s, apiBase, outcome).state)
  {
    if apiBase != "" && outcome.Ok? {
      PrependUnique(s.sessions, outcome.value);
    }
  }

  lemma {:induction false} NewChatConsistent(s: PageState, apiBase: string, outcome: Remote<Session>)
    requires Consistent(s)
    ensures Consistent(NewChat(s, apiBase, outcome).state)
  {
    if !Busy(s) {
      CreateSessionConsistent(s, apiBase, outcome);
    }
  }

  lemma {:induction false} BootstrapConsistent(s: PageState, apiBase: string, outcome: Remote<Session>)
    requires Consistent(s)
    ensures Consistent(Bootstrap(s, apiBase, outcome).state)
  {
    if apiBase != "" && BootstrapDue(s) {
      CreateSessionConsistent(s.(hasSessionAttempted := true), apiBase, outcome);
    }
  }

  lemma {:induction false} SelectSessionConsistent(s: PageState, apiBase: string, sessionId: string, outcome: Remote<Option<seq<ChatMessage>>>)
    requires Consistent(s)
    ensures Consistent(SelectSession(s, apiBase, sessionId, outcome).state)
  {
    SelectSessionEffect(s, apiBase, sessionId, outcome);
  }

  lemma {:induction false} FileSelectionConsistent(s: PageState, selected: seq<PendingFile>)
    requires Consistent(s)
    ensures Consistent(HandleFileSelection(s, selected))
  {
    if HasSession(s) && |selected| > 0 {
      MergeNoDup(s.pendingFiles, selected);
    }
  }

  lemma {:induction false} RemoveConsistent(s: PageState, target: PendingFile)
    requires Consistent(s)
    ensures Consistent(HandleRemovePendingFile(s, target))
  {
    RemoveNoDup(s.pendingFiles, target);
  }
}

=== FILE: storage.dfy ===
/** What the handlers keep in S3 and DynamoDB, as values: a bucket is a map
    from object key to object, a table a map from partition key to items. */
module Storage {
  import opened Wrappers
  import opened Json
  import FaissMetadata

  /** A stored chat message. `chunks` is `None` when the record has no
      `chunks` field. */
  datatype Message = Message(role: string, content: string, timestamp: string, chunks: Option<seq<Value>>)

  /** The kinds of object the handlers read and write. `Unreadable` stands for
      any content the reading code fails to download or decode. */
  datatype Object =
    | MessageLog(messages: seq<Message>)              // `{ns}/sessions/{id}/messages.json`
    | Manifest(fields: map<string, Value>)            // `{ns}/sessions/{id}/manifest.json`
    | TextFile(text: string)                          // an upload, decoded as text
    | IndexFile                                       // a serialised FAISS index
    | MetadataFile(entries: map<string, FaissMetadata.Entry>)  // `{ns}/index/meta.json`, as loaded
    | Unreadable

  type Bucket = map<string, Object>

  /** A row of the messages table: partition key `sessionKey`, sort key
      `timestamp`. */
  datatype Item = Item(
    sessionKey: string,
    sessionId: string,
    namespace: string,
    timestamp: string,
    role: string,
    content: string,
    chunks: Option<seq<Value>>)

  /** Each partition's items in ascending sort-key order. */
  type Table = map<string, seq<Item>>

  /** The items stored under one partition key. */
  function Partition(table: Table, key: string): seq<Item> {
    if key in table then table[key] else []
  }

  /** Both stores the message helpers may use. */
  datatype Store = Store(bucket: Bucket, table: Table)
}

=== FILE: submit_flow.dfy ===
/** The chat page's submit path: validation, the optimistic user message,
    the per-file upload (presign then PUT), ingestion, and the query. */
module SubmitFlow {
  import opened Wrappers
  import opened Text
  import opened Json
  import opened PageModel
  import opened PendingFiles
  import opened SessionFlow

  // ---------------------------------------------------------------------------
  // What the network answers
  // ---------------------------------------------------------------------------

  /** An upload-url reply: the presigned URL and the headers to send with
      the PUT, when the backend gives any. */
  datatype UploadSlot = UploadSlot(url: string, putHeaders: Option<map<string, string>>)

  /** A query reply: a 404 (with the payload's error text, if any), another
      non-OK status, a rejected fetch, or an answer carrying the updated
      history when the backend sends one. */
  datatype QueryOutcome =
    | NotFound(payloadError: Option<string>)
    | QueryHttpError(statusText: string)
    | QueryRejected(message: string)
    | Answered(messages: Option<seq<ChatMessage>>)

  /** Everything the submit path hears back, by position: the upload-url and
      PUT replies for the i-th pending file, the ingest reply and the query
      reply. */
  datatype Network = Network(
    slots: nat -> Remote<UploadSlot>,
    puts: nat -> Remote<()>,
    ingest: Remote<()>,
    query: QueryOutcome)

  const EmptyQuestion := "Type a question before asking."
  const NoIndex := "No index found for this chat. Upload documents and ingest first."

  /** JavaScript's `a || b` on strings: the empty string is falsy. */
  function OrElse(a: string, b: string): string {
    if a == "" then b else a
  }

  // ---------------------------------------------------------------------------
  // Query
  // ---------------------------------------------------------------------------

  /** `runQuery`: one query call; the busy flag and status are cleared
      whatever happens; a 404 shows the payload's error or a fixed hint, a
      failure shows its message, and an answer with a non-empty history
      replaces the session's cached history. */
  function RunQuery(s: PageState, apiBase: string, question: string, session: Session, outcome: QueryOutcome): (r: Step)
    ensures apiBase == "" ==> r == Step(s.(error := Some(MissingApiBase)), [])
    ensures apiBase != "" ==> r.calls == [QueryCall(question, session.sessionId)]
    ensures apiBase != "" ==> r.state.status.None? && !r.state.isQuerying
    ensures apiBase != "" ==> (r.state.error.None? <==> outcome.Answered?)
  {
    if apiBase == "" then Step(s.(error := Some(MissingApiBase)), [])
    else
      var calls := [QueryCall(question, session.sessionId)];
      var done := s.(error := None, status := None, isQuerying := false);
      match outcome
      case NotFound(payloadError) => Step(done.(error := Some(payloadError.GetOr(NoIndex))), calls)
      case QueryHttpError(statusText) => Step(done.(error := Some("Query failed: " + statusText)), calls)
      case QueryRejected(message) => Step(done.(error := Some(message)), calls)
      case Answered(messages) =>
        if messages.Some? && |messages.value| > 0 then
          Step(done.(sessionMessages := s.sessionMessages[session.sessionId := messages.value]), calls)
        else Step(done, calls)
  }

  /** Only an answer with a non-empty history touches the message cache, and
      then only the queried session's entry, which becomes that history. */
  lemma QueryHistory(s: PageState, apiBase: string, question: string, session: Session, outcome: QueryOutcome)
    requires apiBase != ""
    ensures var r := RunQuery(s, apiBase, question, session, outcome).state;
            && r.pendingFiles == s.pendingFiles && r.sessions == s.sessions
            && r.activeSessionId == s.activeSessionId && r.sessionUploads == s.sessionUploads
            && (if outcome.Answered? && outcome.messages.Some? && |outcome.messages.value| > 0
                then r.sessionMessages == s.sessionMessages[session.sessionId := outcome.messages.value]
                else r.sessionMessages == s.sessionMessages)
    ensures outcome.NotFound? ==>
            RunQuery(s, apiBase, question, session, outcome).state.error == Some(outcome.payloadError.GetOr(NoIndex))
  {
  }

  // ---------------------------------------------------------------------------
  // Uploads
  // ---------------------------------------------------------------------------

  /** The upload-url call for a pending file. */
  function SlotCall(sessionId: string, f: PendingFile): Call {
    UploadUrlCall(sessionId, f.name, OrElse(f.mimeType, "text/plain"))
  }

  /** The PUT for a pending file: the backend's headers, or a content type
      taken from the file. */
  function PutFor(slot: UploadSlot, f: PendingFile): Call {
    PutCall(slot.url, slot.putHeaders.GetOr(map["Content-Type" := OrElse(f.mimeType, "application/octet-stream")]))
  }

  /** The upload loop from file `k` on: for each file an upload-url call and,
      if it succeeds, a PUT; the first failure ends the loop with its
      message. */
  function Uploads(files: seq<PendingFile>, k: nat, sessionId: string, net: Network): (r: (seq<Call>, Option<string>))
    requires k <= |files|
    decreases |files| - k
  {
    if k == |files| then ([], None)
    else
      var f := files[k];
      var slotCall := SlotCall(sessionId, f);
      match net.slots(k)
      case HttpError(statusText) => ([slotCall], Some("Failed to get upload URL for " + f.name + ": " + statusText))
      case Rejected(message) => ([slotCall], Some(message))
      case Ok(slot) =>
        var putCall := PutFor(slot, f);
        match net.puts(k)
        case HttpError(statusText) => ([slotCall, putCall], Some("PUT to S3 failed for " + f.name + ": " + statusText))
        case Rejected(message) => ([slotCall, putCall], Some(message))
        case Ok(_) =>
          var rest := Uploads(files, k + 1, sessionId, net);
          ([slotCall, putCall] + rest.0, rest.1)
  }

  /** Both replies for file `j` are OK. */
  predicate Delivered(net: Network, j: nat) {
    net.slots(j).Ok? && net.puts(j).Ok?
  }

  /** The loop fails exactly when some file's upload-url or PUT reply is not
      OK; it only ever issues upload-url and PUT calls. */
  lemma {:induction false} UploadsFail(files: seq<PendingFile>, k: nat, sessionId: string, net: Network)
    requires k <= |files|
    ensures var r := Uploads(files, k, sessionId, net);
            r.1.None? <==> forall j :: k <= j < |files| ==> Delivered(net, j)
    ensures var r := Uploads(files, k, sessionId, net);
            r.1.Some? ==> r.0 != []
    ensures forall c :: c in Uploads(files, k, sessionId, net).0 ==> c.UploadUrlCall? || c.PutCall?
    decreases |files| - k
  {
    if k < |files| && Delivered(net, k) {
      UploadsFail(files, k + 1, sessionId, net);
    }
  }

  /** One delivered file: its two calls, then the rest of the loop. */
  lemma UploadsHead(files: seq<PendingFile>, k: nat, sessionId: string, net: Network)
    requires k < |files| && Delivered(net, k)
    ensures var rest := Uploads(files, k + 1, sessionId, net);
            Uploads(files, k, sessionId, net)
              == ([SlotCall(sessionId, files[k]), PutFor(net.slots(k).value, files[k])] + rest.0, rest.1)
  {
  }

  /** The calls of an upload loop in which every reply is OK, from file `k`
      on: each file's upload-url call, then its PUT. */
  function Expected(files: seq<PendingFile>, k: nat, sessionId: string, net: Network): seq<Call>
    requires k <= |files|
    requires forall i :: k <= i < |files| ==> Delivered(net, i)
    decreases |files| - k
  {
    if k == |files| then []
    else
      assert Delivered(net, k);
      [SlotCall(sessionId, files[k]), PutFor(net.slots(k).value, files[k])] + Expected(files, k + 1, sessionId, net)
  }

  /** When every reply is OK the loop makes exactly the expected calls and
      reports no failure. */
  lemma {:induction false} UploadsExpected(files: seq<PendingFile>, k: nat, sessionId: string, net: Network)
    requires k <= |files|
    requires forall i :: k <= i < |files| ==> Delivered(net, i)
    ensures Uploads(files, k, sessionId, net) == (Expected(files, k, sessionId, net), None)
    decreases |files| - k
  {
    if k < |files| {
      UploadsHead(files, k, sessionId, net);
      UploadsExpected(files, k + 1, sessionId, net);
    }
  }

  /** The message shown when file `j`'s upload fails: the upload-url
      reply's status text or rejection message, or else the PUT's. */
  function FailureMessage(f: PendingFile, j: nat, net: Network): string
    requires !Delivered(net, j)
  {
    match net.slots(j)
    case HttpError(statusText) => "Failed to get upload URL for " + f.name + ": " + statusText
    case Rejected(message) => message
    case Ok(_) =>
      match net.puts(j)
      case HttpError(statusText) => "PUT to S3 failed for " + f.name + ": " + statusText
      case Rejected(message) => message
      case Ok(_) => assert false; ""
  }

  /** The calls made for a file whose upload fails: its upload-url call and,
      when that succeeded, the PUT. */
  function FailedCalls(sessionId: string, f: PendingFile, j: nat, net: Network): seq<Call> {
    [SlotCall(sessionId, f)] + (if net.slots(j).Ok? then [PutFor(net.slots(j).value, f)] else [])
  }

  /** A file whose replies are not both OK ends the loop with its failed
      calls and its message. */
  lemma UploadsFailHere(files: seq<PendingFile>, j: nat, sessionId: string, net: Network)
    requires j < |files| && !Delivered(net, j)
    ensures Uploads(files, j, sessionId, net) == (FailedCalls(sessionId, files[j], j, net), Some(FailureMessage(files[j], j, net)))
  {
    var slotCall := SlotCall(sessionId, files[j]);
    if net.slots(j).Ok? {
      var putCall := PutFor(net.slots(j).value, files[j]);
      assert FailedCalls(sessionId, files[j], j, net) == [slotCall, putCall];
      if net.puts(j).HttpError? {
        assert FailureMessage(files[j], j, net) == "PUT to S3 failed for " + files[j].name + ": " + net.puts(j).statusText;
      }
    } else {
      assert FailedCalls(sessionId, files[j], j, net) == [slotCall];
    }
  }

  /** When file `j` is the first (from `k` on) whose replies are not both
      OK, the loop makes the expected calls for the files before it, then
      file `j`'s failed calls, and nothing after them; it shows file `j`'s
      message. */
  lemma {:induction false} UploadsStop(files: seq<PendingFile>, k: nat, j: nat, sessionId: string, net: Network)
    requires k <= j < |files|
    requires forall i :: k <= i < j ==> Delivered(net, i)
    requires !Delivered(net, j)
    ensures Uploads(files, k, sessionId, net)
              == (Expected(files[..j], k, sessionId, net) + FailedCalls(sessionId, files[j], j, net),
                  Some(FailureMessage(files[j], j, net)))
    decreases j - k
  {
    if k < j {
      assert Delivered(net, k);
      UploadsHead(files, k, sessionId, net);
      UploadsStop(files, k + 1, j, sessionId, net);
      assert files[..j][k] == files[k];
      var head := [SlotCall(sessionId, files[k]), PutFor(net.slots(k).value, files[k])];
      var rest := Expected(files[..j], k + 1, sessionId, net);
      assert Expected(files[..j], k, sessionId, net) == head + rest;
      assert head + (rest + FailedCalls(sessionId, files[j], j, net))
          == (head + rest) + FailedCalls(sessionId, files[j], j, net);
    } else {
      assert Expected(files[..j], k, sessionId, net) == [];
      assert [] + FailedCalls(sessionId, files[j], j, net) == FailedCalls(sessionId, files[j], j, net);
      UploadsFailHere(files, j, sessionId, net);
    }
  }

  /** The expected calls: two per file, file `j`'s at 2(j - k) and
      2(j - k) + 1. */
  lemma {:induction false} ExpectedAt(files: seq<PendingFile>, k: nat, j: nat, sessionId: string, net: Network)
    requires k <= j < |files|
    requires forall i :: k <= i < |files| ==> Delivered(net, i)
    ensures Delivered(net, j)
    ensures var calls := Expected(files, k, sessionId, net);
            && |calls| == 2 * (|files| - k)
            && calls[2 * (j - k)] == SlotCall(sessionId, files[j])
            && calls[2 * (j - k) + 1] == PutFor(net.slots(j).value, files[j])
    decreases |files| - k
  {
    assert Delivered(net, k);
    var rest := Expected(files, k + 1, sessionId, net);
    var calls := Expected(files, k, sessionId, net);
    assert calls == [SlotCall(sessionId, files[k]), PutFor(net.slots(k).value, files[k])] + rest;
    if j > k {
      ExpectedAt(files, k + 1, j, sessionId, net);
      var m := 2 * (j - (k + 1));
      assert calls[m + 2] == rest[m] && calls[m + 3] == rest[m + 1];
    } else if k + 1 < |files| {
      ExpectedAt(files, k + 1, k + 1, sessionId, net);
    }
  }

  /** `calls` starts with, for each file in order, its upload-url call and
      then a PUT to the URL the backend gave for it. */
  predicate Traced(calls: seq<Call>, files: seq<PendingFile>, sessionId: string, net: Network) {
    && |calls| >= 2 * |files|
    && forall j :: 0 <= j < |files| ==>
         && Delivered(net, j)
         && calls[2 * j] == SlotCall(sessionId, files[j])
         && calls[2 * j + 1] == PutFor(net.slots(j).value, files[j])
  }

  /** A successful upload loop issues exactly the traced calls. */
  lemma UploadsTraced(files: seq<PendingFile>, sessionId: string, net: Network)
    requires forall j :: 0 <= j < |files| ==> Delivered(net, j)
    ensures var calls := Uploads(files, 0, sessionId, net).0;
            |calls| == 2 * |files| && Traced(calls, files, sessionId, net)
  {
    UploadsExpected(files, 0, sessionId, net);
    var calls := Expected(files, 0, sessionId, net);
    if |files| > 0 {
      ExpectedAt(files, 0, 0, sessionId, net);
    }
    forall j | 0 <= j < |files|
      ensures Delivered(net, j)
      ensures calls[2 * j] == SlotCall(sessionId, files[j])
      ensures calls[2 * j + 1] == PutFor(net.slots(j).value, files[j])
    {
      ExpectedAt(files, 0, j, sessionId, net);
    }
  }

  /** Calls made later do not disturb the traced prefix. */
  lemma TracedAppend(calls: seq<Call>, more: seq<Call>, files: seq<PendingFile>, sessionId: string, net: Network)
    requires Traced(calls, files, sessionId, net)
    ensures Traced(calls + more, files, sessionId, net)
  {
    var all := calls + more;
    forall j | 0 <= j < |files|
      ensures all[2 * j] == calls[2 * j] && all[2 * j + 1] == calls[2 * j + 1]
    {
    }
  }

  /** The names of the pending files, in order. */
  function Names(files: seq<PendingFile>): (names: seq<string>)
    ensures |names| == |files|
    ensures forall i :: 0 <= i < |files| ==> names[i] == files[i].name
  {
    seq(|files|, i requires 0 <= i < |files| => files[i].name)
  }

  /** The uploaded-names entry after a successful ingest: earlier names
      first, then the new ones, each once. */
  function Recorded(uploads: map<string, seq<string>>, sessionId: string, files: seq<PendingFile>): seq<string> {
    Dedup((if sessionId in uploads then uploads[sessionId] else []) + Names(files))
  }

  // ---------------------------------------------------------------------------
  // Submit
  // ---------------------------------------------------------------------------

  /** Why a submit does nothing but show an error, if it does. */
  function Invalid(s: PageState, apiBase: string): Option<string> {
    if apiBase == "" then Some(MissingApiBase)
    else if ActiveSession(s).None? then Some(NoSession)
    else if Trim(s.message) == "" then Some(EmptyQuestion)
    else None
  }

  /** The user's turn as appended before any call is made. */
  function UserTurn(question: string, now: string): ChatMessage {
    ChatMessage(User, question, now, None)
  }

  /** The cached history of a session, empty when there is none. */
  function HistoryOf(s: PageState, sessionId: string): seq<ChatMessage> {
    if sessionId in s.sessionMessages then s.sessionMessages[sessionId] else []
  }

  /** After validation: the error cleared, the user's turn appended and the
      input cleared. */
  function Begin(s: PageState, sessionId: string, question: string, now: string): PageState {
    s.(error := None,
       sessionMessages := s.sessionMessages[sessionId := HistoryOf(s, sessionId) + [UserTurn(question, now)]],
       message := "")
  }

  /** An upload or ingest failure: the error shown, the status and the
      uploading flag cleared; the pending files stay for a retry. */
  function Abort(s: PageState, details: string): PageState {
    s.(error := Some(details), status := None, isUploading := false)
  }

  /** Where the upload phase leaves the page: its state, the calls it made,
      and whether the query is still to be sent. */
  datatype Staged = Staged(state: PageState, calls: seq<Call>, proceed: bool)

  /** The upload block of `handleSubmit`: nothing when no file is pending;
      otherwise every file is uploaded, ingestion is triggered, and the new
      names are recorded, the first failure aborting the submit. */
  function UploadPhase(begun: PageState, sessionId: string, net: Network): Staged {
    if |begun.pendingFiles| == 0 then Staged(begun, [], true)
    else Settle(begun, sessionId, Uploads(begun.pendingFiles, 0, sessionId, net), net.ingest)
  }

  /** What follows the upload loop, given its calls and failure: an abort,
      or the ingest call and, when it succeeds, the names recorded. */
  function Settle(begun: PageState, sessionId: string, up: (seq<Call>, Option<string>), ingest: Remote<()>): Staged {
    if up.1.Some? then Staged(Abort(begun, up.1.value), up.0, false)
    else
      var calls := up.0 + [IngestCall(sessionId)];
      match ingest
      case HttpError(statusText) => Staged(Abort(begun, "Ingest failed: " + statusText), calls, false)
      case Rejected(message) => Staged(Abort(begun, message), calls, false)
      case Ok(_) =>
        Staged(begun.(sessionUploads := begun.sessionUploads[sessionId := Recorded(begun.sessionUploads, sessionId, begun.pendingFiles)],
                      isUploading := false),
               calls, true)
  }

  /** Settling keeps the message cache, the pending files and the session
      list; an abort shows an error and leaves the uploaded names, a
      success records this batch's names. */
  lemma SettleKeeps(begun: PageState, sessionId: string, up: (seq<Call>, Option<string>), ingest: Remote<()>)
    ensures var p := Settle(begun, sessionId, up, ingest);
            && p.state.sessionMessages == begun.sessionMessages
            && p.state.pendingFiles == begun.pendingFiles
            && p.state.sessions == begun.sessions
            && p.state.activeSessionId == begun.activeSessionId
            && p.state.isCreatingSession == begun.isCreatingSession
            && (p.proceed <==> up.1.None? && ingest.Ok?)
            && p.calls == (if up.1.Some? then up.0 else up.0 + [IngestCall(sessionId)])
            && (!p.proceed ==> p.state.error.Some? && p.state == Abort(begun, p.state.error.value))
            && (!p.proceed ==> p.state.sessionUploads == begun.sessionUploads)
            && (p.proceed ==>
                  && p.state.sessionUploads == begun.sessionUploads[sessionId := Recorded(begun.sessionUploads, sessionId, begun.pendingFiles)]
                  && !p.state.isUploading)
  {
  }

  /** The upload phase goes on to the query exactly when no file is pending
      or every upload and the ingest succeed, and it never sends a query. */
  lemma {:induction false} UploadPhaseProceeds(begun: PageState, sessionId: string, net: Network)
    ensures var p := UploadPhase(begun, sessionId, net);
            var files := begun.pendingFiles;
            && (p.proceed <==> |files| == 0 || (net.ingest.Ok? && forall j :: 0 <= j < |files| ==> Delivered(net, j)))
            && (forall c :: c in p.calls ==> !c.QueryCall?)
            && (!p.proceed ==> p.calls != [])
  {
    if |begun.pendingFiles| > 0 {
      UploadsFail(begun.pendingFiles, 0, sessionId, net);
      SettleKeeps(begun, sessionId, Uploads(begun.pendingFiles, 0, sessionId, net), net.ingest);
    }
  }

  /** The upload phase keeps the message cache, the pending files and the
      session list; an abort shows an error and leaves the uploaded names,
      a success records this batch's names. */
  lemma UploadPhaseKeeps(begun: PageState, sessionId: string, net: Network)
    ensures var p := UploadPhase(begun, sessionId, net);
            var files := begun.pendingFiles;
            && p.state.sessionMessages == begun.sessionMessages
            && p.state.pendingFiles == files
            && p.state.sessions == begun.sessions
            && p.state.activeSessionId == begun.activeSessionId
            && p.state.isCreatingSession == begun.isCreatingSession
            && (|files| == 0 ==> p == Staged(begun, [], true))
            && (!p.proceed ==> p.state.error.Some? && p.state == Abort(begun, p.state.error.value))
            && (!p.proceed ==> p.state.sessionUploads == begun.sessionUploads)
            && (p.proceed && |files| > 0 ==>
                  && p.state.sessionUploads == begun.sessionUploads[sessionId := Recorded(begun.sessionUploads, sessionId, files)]
                  && !p.state.isUploading)
  {
    if |begun.pendingFiles| > 0 {
      SettleKeeps(begun, sessionId, Uploads(begun.pendingFiles, 0, sessionId, net), net.ingest);
    }
  }

  /** The calls of a successful upload phase: for each file its upload-url
      call and its PUT, then the ingest call. */
  lemma UploadPhaseTrace(begun: PageState, sessionId: string, net: Network)
    requires |begun.pendingFiles| > 0 && net.ingest.Ok?
    requires forall j :: 0 <= j < |begun.pendingFiles| ==> Delivered(net, j)
    ensures var calls := UploadPhase(begun, sessionId, net).calls;
            var files := begun.pendingFiles;
            && |calls| == 2 * |files| + 1
            && Traced(calls, files, sessionId, net)
            && calls[2 * |files|] == IngestCall(sessionId)
  {
    var files := begun.pendingFiles;
    var up := Uploads(files, 0, sessionId, net);
    UploadsFail(files, 0, sessionId, net);
    UploadsTraced(files, sessionId, net);
    SettleKeeps(begun, sessionId, up, net.ingest);
    TracedAppend(up.0, [IngestCall(sessionId)], files, sessionId, net);
  }

  /** The query and the clearing of the pending list that follows it. */
  function Finish(s: PageState, apiBase: string, question: string, session: Session, outcome: QueryOutcome, before: seq<Call>): Step {
    var q := RunQuery(s, apiBase, question, session, outcome);
    Step(q.state.(pendingFiles := []), before + q.calls)
  }

  /** After the query the pending list is empty, the query call follows the
      earlier calls, nothing is busy or in the status line, and only the
      queried session's history may have changed. */
  lemma FinishEffect(s: PageState, apiBase: string, question: string, session: Session, outcome: QueryOutcome, before: seq<Call>)
    requires apiBase != ""
    ensures var r := Finish(s, apiBase, question, session, outcome, before);
            && r.calls == before + [QueryCall(question, session.sessionId)]
            && r.state.pendingFiles == [] && r.state.status.None? && !r.state.isQuerying
            && r.state.isUploading == s.isUploading && r.state.isCreatingSession == s.isCreatingSession
            && r.state.sessions == s.sessions && r.state.activeSessionId == s.activeSessionId
            && r.state.sessionUploads == s.sessionUploads
            && (if outcome.Answered? && outcome.messages.Some? && |outcome.messages.value| > 0
                then r.state.sessionMessages == s.sessionMessages[session.sessionId := outcome.messages.value]
                else r.state.sessionMessages == s.sessionMessages)
  {
    QueryHistory(s, apiBase, question, session, outcome);
  }

  /** `handleSubmit`: validation, then the user's turn, the upload phase and,
      unless it aborted, the query. */
  function Submit(s: PageState, apiBase: string, now: string, net: Network): Step {
    if Invalid(s, apiBase).Some? then Step(s.(error := Invalid(s, apiBase)), [])
    else
      var session := ActiveSession(s).value;
      Proceed(Begin(s, session.sessionId, Trim(s.message), now), apiBase, Trim(s.message), session, net)
  }

  function Proceed(begun: PageState, apiBase: string, question: string, session: Session, net: Network): Step {
    var p := UploadPhase(begun, session.sessionId, net);
    if p.proceed then Finish(p.state, apiBase, question, session, net.query, p.calls)
    else Step(p.state, p.calls)
  }

  /** The calls of a submit past validation: the upload phase's, then the
      query exactly when the phase lets it through. */
  lemma ProceedCalls(begun: PageState, apiBase: string, question: string, session: Session, net: Network)
    requires apiBase != ""
    ensures var p := UploadPhase(begun, session.sessionId, net);
            Proceed(begun, apiBase, question, session, net).calls
              == if p.proceed then p.calls + [QueryCall(question, session.sessionId)] else p.calls
  {
  }

  /** The submitted question: the trimmed input. */
  function Question(s: PageState): string {
    Trim(s.message)
  }

  /** The session a valid submit works on. */
  function Target(s: PageState): Session
    requires ActiveSession(s).Some?
  {
    ActiveSession(s).value
  }

  /** The page after validation, for a valid submit. */
  function Begun(s: PageState, now: string): PageState
    requires ActiveSession(s).Some?
  {
    Begin(s, Target(s).sessionId, Question(s), now)
  }

  /** Beginning a submit clears the error and the input and appends the
      user's turn to that session's history; nothing else changes. */
  lemma BeginEffect(s: PageState, sessionId: string, question: string, now: string)
    ensures var b := Begin(s, sessionId, question, now);
            && b == s.(error := None, message := "", sessionMessages := b.sessionMessages)
            && b.sessionMessages.Keys == s.sessionMessages.Keys + {sessionId}
            && b.sessionMessages[sessionId] == HistoryOf(s, sessionId) + [UserTurn(question, now)]
            && (forall other :: other != sessionId && other in s.sessionMessages ==>
                  b.sessionMessages[other] == s.sessionMessages[other])
  {
  }

  /** A valid submit proceeds from the begun page. */
  lemma SubmitBegins(s: PageState, apiBase: string, now: string, net: Network)
    requires Invalid(s, apiBase).None?
    ensures Submit(s, apiBase, now, net) == Proceed(Begun(s, now), apiBase, Question(s), Target(s), net)
  {
  }

  /** The calls of a valid submit: the upload phase's, then the query when
      the phase lets it through. */
  lemma SubmitCalls(s: PageState, apiBase: string, now: string, net: Network)
    requires Invalid(s, apiBase).None?
    ensures var p := UploadPhase(Begun(s, now), Target(s).sessionId, net);
            Submit(s, apiBase, now, net).calls
              == if p.proceed then p.calls + [QueryCall(Question(s), Target(s).sessionId)] else p.calls
  {
    SubmitBegins(s, apiBase, now, net);
    ProceedCalls(Begun(s, now), apiBase, Question(s), Target(s), net);
  }

  /** An invalid submit only sets the error; a valid one always calls the
      backend. */
  lemma SubmitValidates(s: PageState, apiBase: string, now: string, net: Network)
    ensures var r := Submit(s, apiBase, now, net);
            Invalid(s, apiBase).Some? ==> r == Step(s.(error := Invalid(s, apiBase)), [])
    ensures Submit(s, apiBase, now, net).calls != [] <==> Invalid(s, apiBase).None?
  {
    if Invalid(s, apiBase).None? {
      SubmitCalls(s, apiBase, now, net);
      UploadPhaseProceeds(Begun(s, now), Target(s).sessionId, net);
    }
  }

  /** A valid submit has a question: the input is not all whitespace. */
  lemma QuestionNotBlank(s: PageState, apiBase: string)
    requires Invalid(s, apiBase).None?
    ensures Question(s) != ""
    ensures !AllWhitespace(s.message)
  {
    TrimEmptyIffBlank(s.message);
  }

  /** When every reply is OK the submit issues, in order, the upload-url call
      and PUT for each pending file and then the ingest call. */
  lemma SubmitTrace(s: PageState, apiBase: string, now: string, net: Network)
    requires Invalid(s, apiBase).None? && |s.pendingFiles| > 0
    requires forall j :: 0 <= j < |s.pendingFiles| ==> Delivered(net, j)
    requires net.ingest.Ok?
    ensures var r := Submit(s, apiBase, now, net);
            && Traced(r.calls, s.pendingFiles, Target(s).sessionId, net)
            && |r.calls| > 2 * |s.pendingFiles|
            && r.calls[2 * |s.pendingFiles|] == IngestCall(Target(s).sessionId)
  {
    var begun := Begun(s, now);
    var sessionId := Target(s).sessionId;
    SubmitCalls(s, apiBase, now, net);
    UploadPhaseProceeds(begun, sessionId, net);
    UploadPhaseTrace(begun, sessionId, net);
    var p := UploadPhase(begun, sessionId, net);
    TracedAppend(p.calls, [QueryCall(Question(s), sessionId)], s.pendingFiles, sessionId, net);
  }

  /** When every reply is OK the submit makes two calls per pending file, one
      ingest call if there were files, and ends with the query for the
      trimmed question. */
  lemma {:induction false} SubmitEndsWithQuery(s: PageState, apiBase: string, now: string, net: Network)
    requires Invalid(s, apiBase).None?
    requires forall j :: 0 <= j < |s.pendingFiles| ==> Delivered(net, j)
    requires |s.pendingFiles| > 0 ==> net.ingest.Ok?
    ensures var r := Submit(s, apiBase, now, net);
            var n := |s.pendingFiles|;
            && |r.calls| == (if n == 0 then 1 else 2 * n + 2)
            && r.calls[|r.calls| - 1] == QueryCall(Question(s), Target(s).sessionId)
  {
    var begun := Begun(s, now);
    SubmitCalls(s, apiBase, now, net);
    UploadPhaseProceeds(begun, Target(s).sessionId, net);
    if |s.pendingFiles| > 0 {
      UploadPhaseTrace(begun, Target(s).sessionId, net);
    } else {
      UploadPhaseKeeps(begun, Target(s).sessionId, net);
    }
  }

  /** A submit that reaches the query ends with nothing pending, no query
      running and no status; with files it also ends the upload, and
      without files the upload flag is as it was. A session being created
      stays so, so a submit from an idle page leaves it idle. */
  lemma {:induction false} SubmitSettles(s: PageState, apiBase: string, now: string, net: Network)
    requires Invalid(s, apiBase).None?
    requires forall j :: 0 <= j < |s.pendingFiles| ==> Delivered(net, j)
    requires |s.pendingFiles| > 0 ==> net.ingest.Ok?
    ensures var r := Submit(s, apiBase, now, net).state;
            && r.pendingFiles == [] && r.status.None? && !r.isQuerying
            && (|s.pendingFiles| > 0 ==> !r.isUploading)
            && (|s.pendingFiles| == 0 ==> r.isUploading == s.isUploading)
            && r.isCreatingSession == s.isCreatingSession
    ensures !Busy(s) ==> !Busy(Submit(s, apiBase, now, net).state)
  {
    SubmitBegins(s, apiBase, now, net);
    BeginEffect(s, Target(s).sessionId, Question(s), now);
    var begun := Begun(s, now);
    var session := Target(s);
    UploadPhaseProceeds(begun, session.sessionId, net);
    UploadPhaseKeeps(begun, session.sessionId, net);
    var p := UploadPhase(begun, session.sessionId, net);
    FinishEffect(p.state, apiBase, Question(s), session, net.query, p.calls);
  }

  /** When an upload or the ingest fails, the query is never sent, the error
      is shown, the pending files and uploaded names stay as they were, and
      the user's turn is already in the history. */
  lemma {:induction false} SubmitStopsOnFailure(s: PageState, apiBase: string, now: string, net: Network)
    requires Invalid(s, apiBase).None? && |s.pendingFiles| > 0
    requires !net.ingest.Ok? || exists j :: 0 <= j < |s.pendingFiles| && !Delivered(net, j)
    ensures var r := Submit(s, apiBase, now, net);
            var sessionId := Target(s).sessionId;
            && (forall c :: c in r.calls ==> !c.QueryCall?)
            && r.state.error.Some? && r.state.status.None? && !r.state.isUploading
            && r.state.pendingFiles == s.pendingFiles
            && r.state.sessionUploads == s.sessionUploads
            && sessionId in r.state.sessionMessages
            && r.state.sessionMessages[sessionId] == HistoryOf(s, sessionId) + [UserTurn(Question(s), now)]
  {
    SubmitBegins(s, apiBase, now, net);
    BeginEffect(s, Target(s).sessionId, Question(s), now);
    UploadPhaseProceeds(Begun(s, now), Target(s).sessionId, net);
    UploadPhaseKeeps(Begun(s, now), Target(s).sessionId, net);
  }

  /** When file `j` is the first pending file whose upload fails, the
      submit's calls are those of the files before it, then file `j`'s
      failed calls, and nothing more: no later file, no ingest and no query.
      The error shown is file `j`'s. */
  lemma {:induction false} SubmitStopsAt(s: PageState, apiBase: string, now: string, net: Network, j: nat)
    requires Invalid(s, apiBase).None?
    requires j < |s.pendingFiles|
    requires forall i :: 0 <= i < j ==> Delivered(net, i)
    requires !Delivered(net, j)
    ensures var r := Submit(s, apiBase, now, net);
            var files := s.pendingFiles;
            var sessionId := Target(s).sessionId;
            && r.calls == Expected(files[..j], 0, sessionId, net) + FailedCalls(sessionId, files[j], j, net)
            && r.state.error == Some(FailureMessage(files[j], j, net))
  {
    var begun := Begun(s, now);
    var sessionId := Target(s).sessionId;
    SubmitBegins(s, apiBase, now, net);
    UploadsStop(s.pendingFiles, 0, j, sessionId, net);
    SettleKeeps(begun, sessionId, Uploads(s.pendingFiles, 0, sessionId, net), net.ingest);
  }

  /** When every upload succeeds but the ingest fails, the submit makes each
      file's two calls and the ingest call, sends no query, and shows the
      ingest failure. */
  lemma {:induction false} SubmitIngestFails(s: PageState, apiBase: string, now: string, net: Network)
    requires Invalid(s, apiBase).None? && |s.pendingFiles| > 0
    requires forall j :: 0 <= j < |s.pendingFiles| ==> Delivered(net, j)
    requires !net.ingest.Ok?
    ensures var r := Submit(s, apiBase, now, net);
            var sessionId := Target(s).sessionId;
            && r.calls == Expected(s.pendingFiles, 0, sessionId, net) + [IngestCall(sessionId)]
            && r.state.error == Some(if net.ingest.HttpError? then "Ingest failed: " + net.ingest.statusText
                                     else net.ingest.message)
  {
    var begun := Begun(s, now);
    var sessionId := Target(s).sessionId;
    SubmitBegins(s, apiBase, now, net);
    UploadsExpected(s.pendingFiles, 0, sessionId, net);
  }

  /** The user's turn stays at the end of the session's history unless the
      query is sent and answers with a non-empty history, which then
      replaces it; no other session's history changes. */
  lemma {:induction false} SubmitHistory(s: PageState, apiBase: string, now: string, net: Network)
    requires Invalid(s, apiBase).None?
    ensures var r := Submit(s, apiBase, now, net);
            var sessionId := Target(s).sessionId;
            var answered := net.query.Answered? && net.query.messages.Some? && |net.query.messages.value| > 0;
            && sessionId in r.state.sessionMessages
            && (QueryCall(Question(s), sessionId) in r.calls && answered ==>
                  r.state.sessionMessages[sessionId] == net.query.messages.value)
            && (!answered ==> r.state.sessionMessages[sessionId] == HistoryOf(s, sessionId) + [UserTurn(Question(s), now)])
            && (forall other :: other != sessionId && other in s.sessionMessages ==>
                  other in r.state.sessionMessages && r.state.sessionMessages[other] == s.sessionMessages[other])
  {
    SubmitBegins(s, apiBase, now, net);
    BeginEffect(s, Target(s).sessionId, Question(s), now);
    var begun := Begun(s, now);
    var session := Target(s);
    UploadPhaseProceeds(begun, session.sessionId, net);
    UploadPhaseKeeps(begun, session.sessionId, net);
    var p := UploadPhase(begun, session.sessionId, net);
    if p.proceed {
      FinishEffect(p.state, apiBase, Question(s), session, net.query, p.calls);
    }
  }

  /** The recorded names: the earlier names, in their order when they were
      distinct, followed by the batch's names, each name once. */
  lemma RecordedNames(uploads: map<string, seq<string>>, sessionId: string, files: seq<PendingFile>)
    ensures var before := if sessionId in uploads then uploads[sessionId] else [];
            var r := Recorded(uploads, sessionId, files);
            && NoDup(r)
            && (forall name :: name in r <==> name in before || name in Names(files))
            && (NoDup(before) ==> |r| >= |before| && r[..|before|] == before)
  {
    var before := if sessionId in uploads then uploads[sessionId] else [];
    if NoDup(before) {
      DedupPrefix(before, Names(files));
      DedupFixed(before);
    }
  }

  /** After a successful ingest the session's uploaded names become the
      recorded names; other sessions' names are untouched. */
  lemma {:induction false} SubmitRecordsUploads(s: PageState, apiBase: string, now: string, net: Network)
    requires Invalid(s, apiBase).None? && |s.pendingFiles| > 0
    requires forall j :: 0 <= j < |s.pendingFiles| ==> Delivered(net, j)
    requires net.ingest.Ok?
    ensures Submit(s, apiBase, now, net).state.sessionUploads
              == s.sessionUploads[Target(s).sessionId := Recorded(s.sessionUploads, Target(s).sessionId, s.pendingFiles)]
  {
    SubmitBegins(s, apiBase, now, net);
    var begun := Begun(s, now);
    var session := Target(s);
    UploadPhaseProceeds(begun, session.sessionId, net);
    UploadPhaseKeeps(begun, session.sessionId, net);
    var p := UploadPhase(begun, session.sessionId, net);
    FinishEffect(p.state, apiBase, Question(s), session, net.query, p.calls);
  }

  /** Submitting keeps the page invariant. */
  lemma {:induction false} SubmitConsistent(s: PageState, apiBase: string, now: string, net: Network)
    requires Consistent(s)
    ensures Consistent(Submit(s, apiBase, now, net).state)
  {
    if Invalid(s, apiBase).None? {
      SubmitBegins(s, apiBase, now, net);
      BeginEffect(s, Target(s).sessionId, Question(s), now);
      var begun := Begun(s, now);
      var session := Target(s);
      UploadPhaseKeeps(begun, session.sessionId, net);
      var p := UploadPhase(begun, session.sessionId, net);
      if p.proceed {
        FinishEffect(p.state, apiBase, Question(s), session, net.query, p.calls);
      }
    }
  }

  // ---------------------------------------------------------------------------
  // The textarea's key handler
  // ---------------------------------------------------------------------------

  /** The textarea's key handler: Enter without Shift submits, except that
      without an active session it only sets the error and while the page is
      busy it does nothing; any other key does nothing. */
  function KeyDown(s: PageState, enter: bool, shift: bool, apiBase: string, now: string, net: Network): Step {
    if !enter || shift then Step(s, [])
    else if !HasSession(s) then Step(s.(error := Some(NoSession)), [])
    else if Busy(s) then Step(s, [])
    else Submit(s, apiBase, now, net)
  }

  /** A key press reaches the backend exactly when it is Enter without Shift
      on an idle page whose submit passes validation; otherwise it changes at
      most the error. */
  lemma {:induction false} KeyDownCalls(s: PageState, enter: bool, shift: bool, apiBase: string, now: string, net: Network)
    ensures KeyDown(s, enter, shift, apiBase, now, net).calls != []
            <==> enter && !shift && !Busy(s) && Invalid(s, apiBase).None?
    ensures KeyDown(s, enter, shift, apiBase, now, net).calls == [] ==>
            KeyDown(s, enter, shift, apiBase, now, net).state == s.(error := KeyDown(s, enter, shift, apiBase, now, net).state.error)
  {
    if enter && !shift && HasSession(s) && !Busy(s) {
      SubmitValidates(s, apiBase, now, net);
    }
  }
}

=== FILE: text.dfy ===
/** String operations the Python and TypeScript sources rely on: prefix and
    suffix tests, `str.split` and `str.join` with a separator, `rsplit("/", 1)[-1]`,
    JavaScript's `String.prototype.trim`, and decimal rendering of integers
    (`str(int)`, and the key conversion JSON performs on integer dictionary keys). */
module Text {
  import opened Wrappers

  predicate StartsWith(s: string, prefix: string) {
    |prefix| <= |s| && s[..|prefix|] == prefix
  }

  predicate EndsWith(s: string, suffix: string) {
    |suffix| <= |s| && s[|s| - |suffix|..] == suffix
  }

  /** `sep` occurs in `s` starting at position `i`. */
  predicate OccursAt(s: string, sep: string, i: nat) {
    i + |sep| <= |s| && s[i..i + |sep|] == sep
  }

  /** Python's `sep in s`. */
  ghost predicate Contains(s: string, sep: string) {
    exists i: nat :: OccursAt(s, sep, i)
  }

  // ---------------------------------------------------------------------------
  // Searching and splitting
  // ---------------------------------------------------------------------------

  /** First occurrence of `sep` in `s` at or after `from`. */
  function IndexFrom(s: string, sep: string, from: nat): (r: Option<nat>)
    requires |sep| > 0
    ensures r.Some? ==> from <= r.value && OccursAt(s, sep, r.value)
    ensures r.Some? ==> forall j: nat :: from <= j < r.value ==> !OccursAt(s, sep, j)
    ensures r.None? ==> forall j: nat :: from <= j ==> !OccursAt(s, sep, j)
    decreases |s| - from
  {
    if from + |sep| > |s| then None
    else if s[from..from + |sep|] == sep then Some(from)
    else IndexFrom(s, sep, from + 1)
  }

  /** Python's `s.split(sep)` for a non-empty separator: the pieces between
      the non-overlapping occurrences of `sep`, scanned left to right. */
  function Split(s: string, sep: string): (r: seq<string>)
    requires |sep| > 0
    ensures |r| >= 1
    decreases |s|
  {
    match IndexFrom(s, sep, 0)
    case None => [s]
    case Some(i) => [s[..i]] + Split(s[i + |sep|..], sep)
  }

  /** Python's `sep.join(xs)`. */
  function Join(xs: seq<string>, sep: string): string
    decreases |xs|
  {
    if |xs| == 0 then ""
    else if |xs| == 1 then xs[0]
    else xs[0] + sep + Join(xs[1..], sep)
  }

  /** Total length of the strings of `xs` (Python's `sum(len(s) for s in xs)`). */
  function SumLen(xs: seq<string>): nat
    decreases |xs|
  {
    if |xs| == 0 then 0 else SumLen(xs[..|xs| - 1]) + |xs[|xs| - 1]|
  }

  /** Joining the pieces of a split with the same separator gives the string back. */
  lemma {:induction false} JoinSplit(s: string, sep: string)
    requires |sep| > 0
    ensures Join(Split(s, sep), sep) == s
    decreases |s|
  {
    match IndexFrom(s, sep, 0)
    case None =>
    case Some(i) =>
      var rest := Split(s[i + |sep|..], sep);
      JoinSplit(s[i + |sep|..], sep);
      var r := [s[..i]] + rest;
      assert r == Split(s, sep);
      assert r[1..] == rest;
      calc {
        Join(r, sep);
        s[..i] + sep + Join(rest, sep);
        s[..i] + sep + s[i + |sep|..];
        { assert s[i..i + |sep|] == sep; }
        s;
      }
  }

  /** No piece of a split contains the separator. */
  lemma {:induction false} SplitPiecesFree(s: string, sep: string)
    requires |sep| > 0
    ensures forall k :: 0 <= k < |Split(s, sep)| ==> !Contains(Split(s, sep)[k], sep)
    decreases |s|
  {
    match IndexFrom(s, sep, 0)
    case None =>
      assert Split(s, sep) == [s];
      assert !Contains(s, sep);
    case Some(i) =>
      var rest := Split(s[i + |sep|..], sep);
      SplitPiecesFree(s[i + |sep|..], sep);
      assert Split(s, sep) == [s[..i]] + rest;
      forall j: nat ensures !OccursAt(s[..i], sep, j) {
        if j + |sep| <= i {
          assert s[..i][j..j + |sep|] == s[j..j + |sep|];
          assert !OccursAt(s, sep, j);
        }
      }
  }

  /** The length of a join: the pieces plus one separator between each pair. */
  lemma {:induction false} JoinLength(xs: seq<string>, sep: string)
    requires |xs| >= 1
    ensures |Join(xs, sep)| == SumLen(xs) + |sep| * (|xs| - 1)
    decreases |xs|
  {
    if |xs| > 1 {
      var tail := xs[1..];
      JoinLength(tail, sep);
      SumLenCons(xs);
      assert Join(xs, sep) == xs[0] + sep + Join(tail, sep);
      assert |sep| * (|xs| - 1) == |sep| * (|tail| - 1) + |sep|;
    }
  }

  /** `SumLen` peels off the first element as well as the last. */
  lemma {:induction false} SumLenCons(xs: seq<string>)
    requires |xs| >= 1
    ensures SumLen(xs) == |xs[0]| + SumLen(xs[1..])
    decreases |xs|
  {
    if |xs| > 1 {
      SumLenCons(xs[..|xs| - 1]);
      assert xs[..|xs| - 1][1..] == xs[1..][..|xs[1..]| - 1];
      assert xs[..|xs| - 1][0] == xs[0];
    }
  }

  /** The total length of a suffix is at most the total length. */
  lemma {:induction false} SumLenSuffix(xs: seq<string>, k: nat)
    requires k <= |xs|
    ensures SumLen(xs[k..]) <= SumLen(xs)
    decreases k
  {
    if k > 0 {
      SumLenSuffix(xs, k - 1);
      SumLenCons(xs[k - 1..]);
      assert xs[k - 1..][1..] == xs[k..];
    }
  }

  // ---------------------------------------------------------------------------
  // Paths
  // ---------------------------------------------------------------------------

  /** Position of the last occurrence of `c` in `s`. */
  function LastIndexOf(s: string, c: char): (r: Option<nat>)
    ensures r.Some? ==> r.value < |s| && s[r.value] == c
    ensures r.Some? ==> forall j :: r.value < j < |s| ==> s[j] != c
    ensures r.None? ==> c !in s
    decreases |s|
  {
    if |s| == 0 then None
    else if s[|s| - 1] == c then Some(|s| - 1)
    else LastIndexOf(s[..|s| - 1], c)
  }

  /** Python's `key.rsplit("/", 1)[-1]`: the text after the last `/`, or the
      whole key when it has none. */
  function Basename(s: string): (r: string)
    ensures |r| <= |s| && s[|s| - |r|..] == r
    ensures '/' !in r
    ensures |r| < |s| ==> s[|s| - |r| - 1] == '/'
  {
    match LastIndexOf(s, '/')
    case None => s
    case Some(i) =>
      s[i + 1..]
  }

  // ---------------------------------------------------------------------------
  // JavaScript String.prototype.trim
  // ---------------------------------------------------------------------------

  /** The characters ECMAScript's `trim` removes: WhiteSpace and LineTerminator. */
  predicate IsJsWhitespace(c: char) {
    var u := c as int;
    u == 0x09 || u == 0x0A || u == 0x0B || u == 0x0C || u == 0x0D || u == 0x20
    || u == 0xA0 || u == 0x1680 || (0x2000 <= u <= 0x200A)
    || u == 0x2028 || u == 0x2029 || u == 0x202F || u == 0x205F
    || u == 0x3000 || u == 0xFEFF
  }

  predicate AllWhitespace(s: string) {
    forall k :: 0 <= k < |s| ==> IsJsWhitespace(s[k])
  }

  function TrimStart(s: string): (r: string)
    ensures |r| <= |s| && r == s[|s| - |r|..]
    ensures AllWhitespace(s[..|s| - |r|])
    ensures |r| > 0 ==> !IsJsWhitespace(r[0])
    decreases |s|
  {
    if |s| > 0 && IsJsWhitespace(s[0]) then TrimStart(s[1..]) else s
  }

  function TrimEnd(s: string): (r: string)
    ensures |r| <= |s| && r == s[..|r|]
    ensures AllWhitespace(s[|r|..])
    ensures |r| > 0 ==> !IsJsWhitespace(r[|r| - 1])
    decreases |s|
  {
    if |s| > 0 && IsJsWhitespace(s[|s| - 1]) then TrimEnd(s[..|s| - 1]) else s
  }

  /** `s.trim()`: `s` without its leading and trailing whitespace. */
  function Trim(s: string): (r: string)
    ensures |r| <= |s|
    ensures |r| > 0 ==> !IsJsWhitespace(r[0]) && !IsJsWhitespace(r[|r| - 1])
  {
    TrimEnd(TrimStart(s))
  }

  /** The trimmed string sits inside `s` between two runs of whitespace. */
  lemma TrimSplit(s: string) returns (i: nat)
    ensures i + |Trim(s)| <= |s| && s[i..i + |Trim(s)|] == Trim(s)
    ensures AllWhitespace(s[..i]) && AllWhitespace(s[i + |Trim(s)|..])
  {
    var t := TrimStart(s);
    var r := TrimEnd(t);
    i := |s| - |t|;
    assert Trim(s) == r;
    assert s[i..i + |r|] == r by {
      assert t == s[i..] && r == t[..|r|];
    }
    assert s[i + |r|..] == t[|r|..] by {
      assert t == s[i..];
    }
  }

  /** A string trims to nothing exactly when every character is whitespace. */
  lemma TrimEmptyIffBlank(s: string)
    ensures Trim(s) == "" <==> AllWhitespace(s)
  {
    var t := TrimStart(s);
    if TrimEnd(t) == "" {
      assert AllWhitespace(t[0..]);
      assert |t| == 0;
      assert s[..|s|] == s;
    }
    if AllWhitespace(s) {
      assert |t| == 0;
    }
  }

  // ---------------------------------------------------------------------------
  // Decimal rendering
  // ---------------------------------------------------------------------------

  predicate IsDigit(c: char) { '0' <= c <= '9' }

  predicate AllDigits(s: string) {
    forall k :: 0 <= k < |s| ==> IsDigit(s[k])
  }

  function DigitChar(d: nat): (c: char)
    requires d < 10
    ensures IsDigit(c)
  {
    ['0', '1', '2', '3', '4', '5', '6', '7', '8', '9'][d]
  }

  function DigitValue(c: char): (d: nat)
    requires IsDigit(c)
    ensures d < 10
  {
    (c as int - '0' as int) as nat
  }

  /** Python's `str(n)` for a non-negative integer: canonical decimal, no leading zeros. */
  function NatToDecimal(n: nat): (r: string)
    ensures |r| >= 1 && AllDigits(r)
    ensures |r| > 1 ==> r[0] != '0'
    decreases n
  {
    if n < 10 then [DigitChar(n)]
    else NatToDecimal(n / 10) + [DigitChar(n % 10)]
  }

  /** Python's `str(i)` for any integer: a minus sign before negative values. */
  function IntToDecimal(i: int): (r: string)
    ensures i >= 0 ==> AllDigits(r)
    ensures i < 0 ==> |r| >= 2 && r[0] == '-'
  {
    if i < 0 then "-" + NatToDecimal(-i) else NatToDecimal(i)
  }

  /** Python's `int(s)` on a string of decimal digits. */
  function ParseDecimal(s: string): nat
    requires AllDigits(s)
    decreases |s|
  {
    if |s| == 0 then 0
    else ParseDecimal(s[..|s| - 1]) * 10 + DigitValue(s[|s| - 1])
  }

  /** Parsing the rendering of a number gives the number back. */
  lemma {:induction false} ParseRender(n: nat)
    ensures ParseDecimal(NatToDecimal(n)) == n
    decreases n
  {
    if n >= 10 {
      var r := NatToDecimal(n);
      ParseRender(n / 10);
      assert r[..|r| - 1] == NatToDecimal(n / 10);
      assert DigitValue(DigitChar(n % 10)) == n % 10;
    } else {
      assert DigitValue(DigitChar(n)) == n;
    }
  }

  /** Distinct numbers have distinct renderings. */
  lemma RenderInjective(m: nat, n: nat)
    ensures NatToDecimal(m) == NatToDecimal(n) ==> m == n
  {
    ParseRender(m);
    ParseRender(n);
  }
}

=== FILE: upload_url.dfy ===
/** The upload-URL Lambda: hands out a presigned PUT target inside the
    session's folder. */
module UploadUrlHandler {
  import opened Wrappers
  import opened Json

  /** The request fields the handler reads; `None` for a missing field. */
  datatype Request = Request(sessionId: Option<string>, filename: Option<string>)

  /** The name used when the request gives none. An empty name is kept. */
  const DefaultFilename := "upload.bin"

  /** Where an uploaded file is put. */
  function UploadKey(namespace: string, sessionId: string, filename: string): string {
    namespace + "/sessions/" + sessionId + "/uploads/" + filename
  }

  /** The handler. `sign` stands for the presigner: it maps an object key to
      the time-limited PUT URL for it. Without a non-empty session id the
      answer is 400 with no header; otherwise it is 200 with the URL for the
      upload key (default file name only when none was given), the fixed PUT
      header, the key itself and the session id. */
  function Handle(namespace: string, request: Request, sign: string -> string): (r: Response)
    ensures request.sessionId.None? || request.sessionId.value == ""
            ==> r == ErrorResponse(400, false, "sessionId required")
    ensures request.sessionId.Some? && request.sessionId.value != "" ==>
            var key := UploadKey(namespace, request.sessionId.value, request.filename.GetOr(DefaultFilename));
            && r.statusCode == 200 && r.jsonHeader
            && r.body.Keys == {"url", "putHeaders", "key", "sessionId"}
            && r.body["key"] == Str(key)
            && r.body["url"] == Str(sign(key))
            && r.body["putHeaders"] == Obj(map["Content-Type" := Str("application/octet-stream")])
            && r.body["sessionId"] == Str(request.sessionId.value)
  {
    match request.sessionId
    case None => ErrorResponse(400, false, "sessionId required")
    case Some(sid) =>
      if sid == "" then ErrorResponse(400, false, "sessionId required")
      else
        var key := UploadKey(namespace, sid, request.filename.GetOr(DefaultFilename));
        Response(200, true, map[
          "url" := Str(sign(key)),
          "putHeaders" := Obj(map["Content-Type" := Str("application/octet-stream")]),
          "key" := Str(key),
          "sessionId" := Str(sid)])
  }

  /** Within one session folder, different file names give different keys: a
      second upload overwrites the first only when the names are equal. */
  lemma {:induction false} UploadKeyInjective(namespace: string, sessionId: string, a: string, b: string)
    ensures UploadKey(namespace, sessionId, a) == UploadKey(namespace, sessionId, b) <==> a == b
  {
    var prefix := namespace + "/sessions/" + sessionId + "/uploads/";
    if UploadKey(namespace, sessionId, a) == UploadKey(namespace, sessionId, b) {
      assert a == UploadKey(namespace, sessionId, a)[|prefix|..];
    }
  }
}

=== FILE: wrappers.dfy ===
/** Failure-carrying datatypes shared by every module of the model. */
module Wrappers {

  /** A value that may be absent: Python's `None`, JavaScript's `undefined`/`null`. */
  datatype Option<+T> = None | Some(value: T) {

    /** The value, or `default` when absent (JavaScript's `??`, Python's `dict.get(k, d)`). */
    function GetOr(default: T): T {
      match this
      case Some(v) => v
      case None => default
    }
  }

  /** The outcome of an operation that may raise: `Failure` carries the error text. */
  datatype Result<+R> = Success(value: R) | Failure(error: string)
}
